=== FILE: README.md ===
# ai-kanban in Dafny

A model of the deterministic core of ai-kanban, a Kanban board with AI
agents:

- **The realtime server's task-board engine**:
  - which task rows a connection sees on the shared `main` board and on
    the personal board;
  - the broadcast rooms;
  - the four task mutations;
  - the seven-second loop. It finishes stale `progress` tasks with an AI
    update, and promotes one `todo` task only when nothing is in
    progress.
- **The chat endpoint's session store** and the prompt builder that
  turns a chat history into role-tagged messages.
- **The workspace rules** for creating, joining, listing, kicking,
  leaving and deleting organisations, and the member list ordering.
- **The browser views' logic**:
  - the board's columns and drag-and-drop;
  - the timeline's ranges, filters, bar geometry and member names;
  - the dashboard's filters, metrics, agent cards, feed and trend;
  - the profile page's helpers and validations;
  - the translation lookup;
  - the sidebar's active-link test.

One module per source file, plus three shared ones:

- `Common`: options, results, and the JavaScript string operations the
  code uses.
- `Tasks`: the shared task row.
- `Order`: string order and an insertion sort, proved stable.

Code that updates state step by step is modelled as classes with
`modifies` clauses:

- the server (`Server.Server`);
- the chat store (`AiChat.ChatSessions`);
- the workspace tables (`Organisation.Directory`);
- the board page (`Kanban.Board`);
- the timeline member panel (`Timeline.MemberPanel`);
- the profile page (`Profile.ProfilePage`).

Loops in the source are methods with invariants. Most are proved equal to
a specification function whose properties are lemmas:

- `ToMessages`;
- `FinishLoop`;
- `BuildDays`;
- `CollectIds` and `CollectNames`;
- `GroupByAgent`;
- `TrendCounts`.

Two loops state their properties directly in their `ensures`, with no
separate specification function:

- `GenerateRandomPin` (length and alphabet);
- `FillUnknown` (which names it adds and which it keeps).

Everything else is functions and lemmas.

Modelling conventions:

- **Tables** (`tasks`, `organisations`, `organisation_members`) are
  sequences of rows, so that a select has a row order. Task ids are
  distinct, so the table is a map from id to row in row order.
- **Nullable text columns** are strings, with `""` standing for NULL.
  Most uses in the source go through JavaScript truthiness (`||`, `!x`),
  under which the two coincide. Three strict comparisons do not: the
  owner checks `org.owner_id !== currentUserId` (organisation.js:165)
  and `org.owner_id !== userId` (organisation.js:195), and the assignee
  filter `t.assigned_to === assigneeFilter` (TimelineView.js:196). The
  model agrees with them whenever the other side is a non-empty text;
  see "## Left out".
- **Timestamps** are `Option<Stamp>`, where a stamp is milliseconds or
  unparseable text. Calendar dates are integer day numbers.
- **Store calls, the clock and the AI calls** are parameters:
  - on the server and the organisation page, a store call's outcome is
    a boolean, an error string with `""` meaning success, or, for the
    tick, the set of task ids whose write fails;
  - on the profile page, a store call's outcome is an
    `Option<ErrorValue>` (nothing, a string, or an object with a
    message). `Profile.Failed` says which outcomes `if (error)` takes as
    a failure;
  - `now` and the day of a timestamp are values passed in;
  - the completion endpoint is a function from a title to a reply or a
    throw.

Where the code and the intended behaviour differ, the model follows the
code:

- A generator failure does not leave a task in `progress`. It is
  swallowed inside `processTaskWithClaude`, and that task becomes `done`
  with output `"AI error"`.
- Personal boards share one room per organisation, `orgId:personal`, so
  a personal snapshot reaches other users' connections on the same
  organisation's personal board
  (`Server.PersonalRoomSharesForeignSnapshot`).

## Model

| member | source | states |
|---|---|---|
| Tasks.LastTouch | ai-kanban/server/server.js:241 | The time a task was last touched. A parseable `updated_at` gives its milliseconds. With no `updated_at`, a parseable `created_at` gives its milliseconds and an unparseable one gives no time. Both missing reads as epoch 0. An unparseable `updated_at` gives no time. |
| Server.GetTasks | ai-kanban/server/server.js:58-103 | The snapshot is exactly the rows visible to the connection, in table order. On `main` that is org rows with `is_main_board`; otherwise the user's own org rows that are not on the main board. It is empty when `orgId` is missing, or when `userId` is missing off `main`. |
| Server.Visible | ai-kanban/server/server.js:60-92 | The rows a connection's select returns: its organisation, and main rows on `main` or the user's own personal rows otherwise. Its properties are stated by `Server.VisibleScope`. |
| Server.VisibleScope | ai-kanban/server/server.js:60-92 | A connection without an organisation sees nothing. A visible row is in the connection's organisation and on the board it asked for (main rows on `main`, personal rows otherwise). A personal row is visible only to its own non-empty user. |
| Server.GetTasksAppend | ai-kanban/server/server.js:67-92 | The select is row-wise: a snapshot of two concatenated tables is the concatenation of their snapshots. |
| Server.SameScopeSameSnapshot | ai-kanban/server/server.js:67-92 | Connections with the same visibility predicate get identical snapshots. |
| Server.MainRoomSharesSnapshot | ai-kanban/server/server.js:67-79 | All connections in one `main` room receive the same snapshot, whoever the user is. |
| Server.PersonalRoomSharesForeignSnapshot | ai-kanban/server/server.js:128-131 | There are two connections in the same `org:personal` room whose snapshots differ, so a room broadcast hands one user another user's board. |
| Server.Apply | ai-kanban/server/server.js:105-108 | A patch never changes a row's id. |
| Server.UpdateById | ai-kanban/server/server.js:105-108 | `update(...).eq("id", id)`: rows with that id get the patch; every other row is unchanged; length and ids are preserved. |
| Server.DeleteById | ai-kanban/server/server.js:213 | Exactly the rows with another id remain. |
| Server.DeleteKeepsDistinct | ai-kanban/server/server.js:213 | Deleting keeps task ids distinct. |
| Server.DeletionIsFinal | ai-kanban/server/server.js:210-219 | After a delete, no connection's snapshot shows that id. |
| Server.Shape | ai-kanban/server/server.js:47-53 | The generator result never fails. A throw gives `("AI error", "claude-3-haiku")`; missing content gives `"No response."`; a missing model gives `"claude-3-haiku"`. Output and model are never empty. |
| Server.ProgressRows | ai-kanban/server/server.js:232-235 | The `progress` select is exactly the rows with status `progress`. |
| Server.NoProgressRows | ai-kanban/server/server.js:232-237 | With no `progress` row in the table, the `progress` select is empty. |
| Server.Stale | ai-kanban/server/server.js:241-243 | `now - lastUpdate > 10000`, false when the time is NaN. Its properties are stated by `Server.StaleCases`. |
| Server.StaleCases | ai-kanban/server/server.js:241-243 | Stale needs a time. An unparseable `updated_at` is never stale, because a NaN comparison is false. A parseable `updated_at` is stale iff more than 10000 ms before `now`. With neither time, stale iff `now > 10000`. |
| Server.Finish | ai-kanban/server/server.js:240-251 | A stale `progress` row whose write lands becomes `done` with the shaped output and model. Every other row is unchanged, and the id never changes. |
| Server.FirstTodo | ai-kanban/server/server.js:255-260 | `limit(1)` on `todo` picks the first `todo` row; no earlier row is `todo`; None when there is none. |
| Server.FinishAll | ai-kanban/server/server.js:240-251 | The finishing loop's effect is row by row. |
| Server.TickFinishesStale | ai-kanban/server/server.js:240-251 | When the progress query succeeds, a stale `progress` row (`now - lastUpdate > 10000`) whose write lands becomes `done` with the shaped output and model, other fields kept. A non-stale one is unchanged. |
| Server.TickResult | ai-kanban/server/server.js:228-271 | A tick keeps the row count and every row's id in place. A failed `progress` query leaves the table unchanged. |
| Server.GeneratorFailureStillCompletes | ai-kanban/server/server.js:50-53 | A stale task whose generator call throws still becomes `done` with `"AI error"` and `"claude-3-haiku"`. |
| Server.TickLeavesDone | ai-kanban/server/server.js:228-271 | A tick never changes a `done` row. |
| Server.TickPromotesAtMostOne | ai-kanban/server/server.js:237-270 | At most one row is promoted per tick. Promotion happens only when both queries succeeded and no row was in progress. The promoted row gets `progress` and `updated_at = now`. |
| Server.TickPromotesFirstTodo | ai-kanban/server/server.js:253-270 | With both queries succeeding and nothing in progress, the first `todo` row in table order is promoted (`progress`, `updated_at = now`) when its update lands. Every other row is unchanged. |
| Server.NoPromotionWhileProgress | ai-kanban/server/server.js:239-253 | While any `progress` row exists, stale or not, no `todo` row changes. |
| Server.RoomIsolation | ai-kanban/server/server.js:128-150 | A room broadcast reaches exactly the connections whose current room is that room. |
| Server.TickBroadcast | ai-kanban/server/server.js:273-276 | Each connected socket gets one `updateTasks` with its own snapshot, in connection order. |
| Server.NewRow | ai-kanban/server/server.js:159-169 | The inserted row is `todo` with the socket's title, org and user, and `is_main_board` iff the board is `main`. |
| Server.AddedTaskVisible | ai-kanban/server/server.js:156-179 | The row a user adds appears exactly once more, at the end, in that user's next snapshot. |
| Server.Server.Connect | ai-kanban/server/server.js:123-138 | The board defaults to `personal`. The socket is in exactly the room `orgId:board`, and is sent `loadTasks` with its snapshot. |
| Server.Server.Disconnect | ai-kanban/server/server.js:222-224 | The socket leaves its rooms and the socket list; nothing else changes. |
| Server.Server.SwitchBoard | ai-kanban/server/server.js:141-153 | An empty board changes nothing. Otherwise the socket is in exactly the new room and is sent `boardSwitched` with the new snapshot. |
| Server.Server.AddTask | ai-kanban/server/server.js:156-179 | A missing title, org or user is a no-op. Otherwise exactly one `todo` row is inserted; the room is told only when the insert succeeded. |
| Server.Server.UpdateTask | ai-kanban/server/server.js:105-108 | A write that lands applies the patch by id; a failed one changes nothing. |
| Server.Server.TaskMoved | ai-kanban/server/server.js:183-195 | Missing arguments are skipped. Otherwise only `status` (any value) and `updated_at` change, and the room is told even when the write fails. |
| Server.Server.RenameTask | ai-kanban/server/server.js:198-207 | Missing arguments are skipped. Otherwise only `title` changes, and the room is told regardless. |
| Server.Server.DeleteTask | ai-kanban/server/server.js:210-220 | A missing id is skipped. Otherwise the row is removed when the write lands, and the room is told regardless. |
| Server.Server.Tick | ai-kanban/server/server.js:228-277 | The table after a tick is `TickResult`. Then every connection gets its snapshot. |
| Server.Server.BroadcastAll | ai-kanban/server/server.js:274-276 | Appends one `updateTasks` per connected socket, with its snapshot. |
| Server.Server.FinishLoop | ai-kanban/server/server.js:240-252 | The `for` loop over the progress snapshot leaves the table equal to `FinishAll`. |
| AiAgent.NonEmptyParts | ai-kanban/server/aiAgent.js:26 | `filter(Boolean)` keeps exactly the non-empty part texts. |
| AiAgent.JoinNonEmpty | ai-kanban/server/aiAgent.js:26 | Joining a list whose first text is non-empty gives non-empty text. |
| AiAgent.EntryText | ai-kanban/server/aiAgent.js:25-26 | No non-empty part gives the empty text, and a single non-empty part is the text unchanged. |
| AiAgent.NonEmptyPartsAppend | ai-kanban/server/aiAgent.js:25 | The part filter keeps order: the kept parts of a concatenation are the concatenation of the kept parts. |
| AiAgent.JoinAppend | ai-kanban/server/aiAgent.js:26 | Joining two non-empty lists puts one separator between their joins. |
| AiAgent.EntryTextAppend | ai-kanban/server/aiAgent.js:25-26 | When both halves of the parts have text, the entry text is the two halves' texts joined by one newline. With the zero- and one-part cases this fixes the text for any number of parts. |
| AiAgent.EntryTextEmptyIff | ai-kanban/server/aiAgent.js:25-27 | An entry's text is empty iff all its parts are empty. |
| AiAgent.RoleFor | ai-kanban/server/aiAgent.js:29-30 | `user` stays `user`; every other role becomes `assistant`. |
| AiAgent.HistoryMessages | ai-kanban/server/aiAgent.js:24-31 | No more messages than entries. Every message has non-empty content and role `user` or `assistant`. |
| AiAgent.HistoryMessagesAppend | ai-kanban/server/aiAgent.js:24-31 | History order is preserved: the messages of a concatenation are the concatenation of the messages. |
| AiAgent.HistoryMessagesSingle | ai-kanban/server/aiAgent.js:25-30 | An entry with text gives one message with its role and text; an entry without text is skipped. |
| AiAgent.ToMessages | ai-kanban/server/aiAgent.js:16-35 | The system prompt, then the history's messages in order, then the user message. The first is always the system prompt and the last always the user message; an empty history gives two. |
| AiChat.SessionKey | ai-kanban/server/aiChat.js:15 | The key is `sessionId`, else `"anon"`. |
| AiChat.Extend | ai-kanban/server/aiChat.js:28-34 | The user turn, then the model turn, are appended. Up to 30 entries nothing else changes. Past 30, entries 1 to 10 of the old history are dropped and the seed entry stays first. |
| AiChat.ExtendKeepsBound | ai-kanban/server/aiChat.js:28-34 | From a history of 1 to 30 entries starting with the seed, an extension ends with the user turn and then the model turn, and stays within 1 to 30 entries with the seed first. The length grows by 2, or drops by 8 when trimmed. |
| AiChat.ExtendWithinLimit | ai-kanban/server/aiChat.js:28-33 | Below the limit nothing is trimmed: the old history is a prefix. |
| AiChat.ChatSessions.constructor | ai-kanban/server/aiChat.js:8 | Starts with no sessions. |
| AiChat.ChatSessions.HandleAIChat | ai-kanban/server/aiChat.js:10-44 | No message gives 400 with sessions unchanged. A reply gives 200, and the session (seeded when new) is extended and stored. A failure gives 500 `"AI failed"`, details the error message or `"unknown error"`, and nothing stored. |
| Order.StrLeTotal | ai-kanban/src/organisation.js:151 | The string order compares any two strings. |
| Order.StrLeTrans | ai-kanban/src/organisation.js:151 | The string order is transitive. |
| Order.StrLeAntisymmetric | ai-kanban/src/organisation.js:151 | Strings ordered both ways are equal. |
| Order.KeyLeTotal | ai-kanban/src/organisation.js:148-152 | Any two sort keys are comparable. |
| Order.KeyLeTrans | ai-kanban/src/organisation.js:148-152 | The sort-key order is transitive. |
| Order.Insert | ai-kanban/src/organisation.js:148-152 | Inserting adds exactly that element, and keeps a sorted sequence sorted. |
| Order.SortBy | ai-kanban/src/organisation.js:148-152 | `sort` returns a permutation of its input, sorted by key. |
| Order.SortedPairs | ai-kanban/src/organisation.js:148-152 | In a sorted sequence every earlier key is at most every later one. |
| Order.WithKeyAppend | ai-kanban/src/organisation.js:148-152 | The elements with one key, taken from a concatenation, are those of each half in order. |
| Order.WithKeyFirst | ai-kanban/src/organisation.js:148-152 | The first element with a key heads the list of elements with that key. |
| Order.InsertWithKey | ai-kanban/src/organisation.js:148-152 | An insertion lands ahead of every element with its own key and leaves other keys' lists alone. |
| Order.SortByStable | ai-kanban/src/organisation.js:148-152 | The sort is stable: for every key, the elements with that key keep their input order. |
| Organisation.GenerateRandomPin | ai-kanban/src/organisation.js:4-11 | The pin has `length` characters (none for a non-positive length), each from `A-Z0-9`. |
| Organisation.Matching | ai-kanban/src/organisation.js:47-52 | Exactly the organisations with that name and pin. |
| Organisation.OwnerOf | ai-kanban/src/organisation.js:159-165 | The owner of the organisation with that id; None iff there is none. |
| Organisation.WithoutMember | ai-kanban/src/organisation.js:168-172 | Exactly the membership rows of other (org, user) pairs remain. |
| Organisation.WithoutMemberUnique | ai-kanban/src/organisation.js:168-172 | Removing memberships keeps (org, user) pairs unique. |
| Organisation.WithoutOrg | ai-kanban/src/organisation.js:198-201 | Exactly the organisations with another id remain. |
| Organisation.WithoutOrgDistinct | ai-kanban/src/organisation.js:198-201 | Removing an organisation keeps ids distinct. |
| Organisation.Directory.CreateOrganisation | ai-kanban/src/organisation.js:14-40 | A missing name or owner gives "Missing details" and inserts nothing. A failed insert returns its error. Otherwise one organisation with the trimmed name and a valid 6-character pin, and the owner's `owner` row when that insert lands. |
| Organisation.Directory.JoinOrganisation | ai-kanban/src/organisation.js:43-82 | Missing fields, several matches, no match ("Invalid name or PIN"), an existing membership ("Already a member") and a failed insert each return an error and add no row. Otherwise exactly one `developer` row with the organisation's owner is added. |
| Organisation.Directory.KickMember | ai-kanban/src/organisation.js:158-175 | Unless the caller owns the organisation, "Only owner can kick" and nothing removed. Otherwise the member's rows go when the delete lands. |
| Organisation.Directory.LeaveOrganisation | ai-kanban/src/organisation.js:178-185 | No owner check: the caller's rows go when the delete lands. |
| Organisation.Directory.DeleteOrganisation | ai-kanban/src/organisation.js:188-204 | Unless the caller owns it, "Only owner can delete" and nothing removed. Otherwise only the organisation row goes; membership rows stay. |
| Organisation.JoinedOnce | ai-kanban/src/organisation.js:57-77 | A join that passed the membership check keeps (org, user) pairs unique and makes the user a member. |
| Organisation.MapSet | ai-kanban/src/organisation.js:109-111 | `Map.set` on id-keyed entries: the ids grow by the new id, which now maps to the new row; other rows are kept. |
| Organisation.DedupById | ai-kanban/src/organisation.js:109-111 | The de-duplicated list has distinct ids, exactly the ids of the input, and only input rows. |
| Organisation.DedupKeepsLast | ai-kanban/src/organisation.js:109-111 | The last row of each id is the one kept, as `Map` keeps the last value set for a key. |
| Organisation.Owned | ai-kanban/src/organisation.js:89-92 | Exactly the organisations the user owns. |
| Organisation.MemberOrgIds | ai-kanban/src/organisation.js:94-99 | Exactly the ids of organisations the user has a membership row in. |
| Organisation.WithIds | ai-kanban/src/organisation.js:101-104 | `.in("id", ids)`: exactly the organisations with those ids. |
| Organisation.MyOrganisations | ai-kanban/src/organisation.js:85-118 | An error iff the user id is missing. Otherwise each organisation appears at most once, and only organisations from the table. |
| Organisation.MyOrganisationsComplete | ai-kanban/src/organisation.js:99-111 | With every read succeeding, the list's ids are exactly the owned organisations plus the joined ones. |
| Organisation.View | ai-kanban/src/organisation.js:139-145 | The view keeps user and role. With a profile it carries the profile's username and description, and its colour, or `"#000"` when the colour is empty. With no profile the username and description are missing and the colour is `"#000"`. |
| Organisation.ViewsOf | ai-kanban/src/organisation.js:139-145 | One view per membership row, in order. |
| Organisation.InOrg | ai-kanban/src/organisation.js:122-135 | Exactly the membership rows of that organisation. |
| Organisation.GetMembers | ai-kanban/src/organisation.js:121-155 | A query error returns it. Otherwise the result is a permutation of the organisation's member views: owners first, other members ordered by username (missing as `""`), every avatar colour non-empty. |
| Kanban.Column | ai-kanban/src/KanbanBoard.js:35-37 | A column is exactly the input tasks with that status, and never longer than the input. |
| Kanban.ColumnAppend | ai-kanban/src/KanbanBoard.js:35-37 | The column of two lists joined is the two columns joined, so a column keeps the input order. |
| Kanban.ColumnsPartition | ai-kanban/src/KanbanBoard.js:33-39 | The three column sizes plus the tasks with another status add up to the input: nothing is shown twice, and only unknown statuses are dropped. |
| Kanban.SpliceStart | ai-kanban/src/KanbanBoard.js:58 | `splice` clamps its start to the length, and a start inside is used as is. |
| Kanban.RemoveAt | ai-kanban/src/KanbanBoard.js:57 | Removes exactly the element at the index and shifts the rest. |
| Kanban.InsertAt | ai-kanban/src/KanbanBoard.js:58-61 | Inserts exactly the element at the index and shifts the rest. |
| Kanban.Board.constructor | ai-kanban/src/KanbanBoard.js:11-22 | Three empty columns, nothing selected or being edited. |
| Kanban.Board.UpdateColumns | ai-kanban/src/KanbanBoard.js:33-39 | Each column becomes that status's tasks. |
| Kanban.Board.OnDragEnd | ai-kanban/src/KanbanBoard.js:48-70 | No destination, or the same column, changes nothing and sends nothing. Otherwise the card leaves the source column and goes in at the destination index with `status = destCol`, and `taskMoved(id, destCol)` is sent. |
| Kanban.Board.HandleAddTask | ai-kanban/src/KanbanBoard.js:41-46 | A blank title alerts and sends nothing. Otherwise the title is sent as typed and the popup is reset. |
| Kanban.Board.HandleTaskClick | ai-kanban/src/KanbanBoard.js:80-82 | Only a `done` task is selected. |
| Kanban.Board.StartEditing | ai-kanban/src/KanbanBoard.js:84-88 | Only a `todo` task enters editing. |
| Kanban.Board.SaveEdit | ai-kanban/src/KanbanBoard.js:90-98 | Editing always closes. A blank title sends no rename; otherwise the rename is sent and the text cleared. |
| Kanban.Board.DeleteTaskConfirmed | ai-kanban/src/KanbanBoard.js:100-104 | `deleteTask` is sent iff the user confirms. |
| Kanban.DragKeepsCards | ai-kanban/src/KanbanBoard.js:55-61 | A cross-column drag keeps the card count and every card, the moved one with its new status. |
| Kanban.DragKeepsTotal | ai-kanban/src/KanbanBoard.js:55-62 | The three column sizes add up to the same total after a drag; the third column is untouched. |
| Timeline.Clamp | ai-kanban/src/TimelineView.js:7-11 | The result lies in `[min, max]`; a day inside is returned as is. |
| Timeline.ClampMonotone | ai-kanban/src/TimelineView.js:7-11 | Clamping preserves order. |
| Timeline.GetRange | ai-kanban/src/TimelineView.js:13-20 | Both dates give `(start, end)`; one date is both ends; neither gives none. |
| Timeline.DayCount | ai-kanban/src/TimelineView.js:172-179 | The day list never has more than 91 entries. |
| Timeline.BuildDays | ai-kanban/src/TimelineView.js:168-182 | The loop lists consecutive days from the start: through the end inclusive, capped at 91. |
| Timeline.MonthRange | ai-kanban/src/TimelineView.js:169-170 | The range runs from 7 days before the month to 7 days after it. |
| Timeline.MonthFits | ai-kanban/src/TimelineView.js:168-182 | For any month the whole range fits under the cap, so every day is listed. |
| Timeline.FilterTasks | ai-kanban/src/TimelineView.js:187-201 | Exactly the tasks the status and assignee filters keep. |
| Timeline.FilterTasksAppend | ai-kanban/src/TimelineView.js:187-201 | Filtering two lists joined is filtering each and joining the results, so the filter keeps the input order. |
| Timeline.Keeps | ai-kanban/src/TimelineView.js:189-198 | `all`/`all` keeps a task. A kept task has the filtered status, no assignee under `unassigned`, and the chosen assignee otherwise (in organisation mode). |
| Timeline.FilterAllKeepsAll | ai-kanban/src/TimelineView.js:187-201 | `all`/`all` keeps every task. |
| Timeline.AssigneeIgnoredOutsideOrg | ai-kanban/src/TimelineView.js:193-199 | Outside org mode the assignee filter has no effect. |
| Timeline.MissingStatusIsTodo | ai-kanban/src/TimelineView.js:189-191 | A task without a status counts as `todo`. |
| Timeline.Overlaps | ai-kanban/src/TimelineView.js:208-210 | For a well-formed span and range, "not entirely before or after" holds iff they share a day. |
| Timeline.Items | ai-kanban/src/TimelineView.js:203-211 | A task is listed iff it has a range overlapping the view, with that range. |
| Timeline.BarStyle | ai-kanban/src/TimelineView.js:230-246 | The left offset is (clamped start minus view start) × 46, within the grid. The width is (clamped end − clamped start + 1) × 46. A bar inside the view is placed exactly. |
| Timeline.GridHeight | ai-kanban/src/TimelineView.js:225-228 | The height is `max(520, 64 + rows × 62 + 60)`. |
| Timeline.AddId | ai-kanban/src/TimelineView.js:67-73 | Adding an id keeps the list distinct and free of empty ids. |
| Timeline.MemberIds | ai-kanban/src/TimelineView.js:67-73 | The member ids are distinct and non-empty. |
| Timeline.MemberIdsCover | ai-kanban/src/TimelineView.js:67-73 | An id is listed iff some row has it as user or owner. |
| Timeline.ProfileNames | ai-kanban/src/TimelineView.js:99-102 | Profile names exist only for queried ids and are never empty. |
| Timeline.ProfileNamesKeys | ai-kanban/src/TimelineView.js:99-102 | A named id has a profile row. |
| Timeline.ProfileNamesLast | ai-kanban/src/TimelineView.js:99-102 | A queried id's name comes from its last profile row: that row's username, or "Unknown user" when it is blank. |
| Timeline.NameMap | ai-kanban/src/TimelineView.js:99-107 | Every member id gets a non-empty name, and only member ids. An id with a profile name gets it. Any other id gets "Unknown user". |
| Timeline.Entries | ai-kanban/src/TimelineView.js:109-110 | One `{id, username}` per id, in order. |
| Timeline.KeptFilter | ai-kanban/src/TimelineView.js:116-119 | The filter is kept when `all`, `unassigned` or a listed id, else reset to `all`. |
| Timeline.AssignedToName | ai-kanban/src/TimelineView.js:264-267 | No assignee shows "Unassigned"; a known id shows its name; otherwise "Unknown user". |
| Timeline.CollectIds | ai-kanban/src/TimelineView.js:67-73 | The `flatMap`/`Set` loop gives `MemberIds`. |
| Timeline.CollectNames | ai-kanban/src/TimelineView.js:99-107 | The two `forEach` loops give `NameMap`. |
| Timeline.FillUnknown | ai-kanban/src/TimelineView.js:105-107 | Ids without a name get "Unknown user"; other names are unchanged. |
| Timeline.MemberPanel.constructor | ai-kanban/src/TimelineView.js:31-35 | No members, no names, filter `all`. |
| Timeline.MemberPanel.FetchMembers | ai-kanban/src/TimelineView.js:46-123 | Outside org mode everything is reset. A member error or no ids empties the list. A profile error names everyone "Unknown user", unsorted. Otherwise the list is the named ids sorted by name, and the filter is kept or reset. |
| Timeline.LoadedMembers | ai-kanban/src/TimelineView.js:99-119 | The loaded list is sorted by name and holds each member id once. Every name is non-empty and the filter is valid for the list. |
| Timeline.IdsOfEntries | ai-kanban/src/TimelineView.js:109-110 | The entries list the ids in order. |
| Timeline.SortIds | ai-kanban/src/TimelineView.js:111 | Sorting by name keeps the ids' multiset. |
| Dashboard.Filter | ai-kanban/src/Dashboard.js:196-200 | `filter` keeps exactly the elements the predicate holds for. |
| Dashboard.FilterSubseq | ai-kanban/src/Dashboard.js:196-223 | `filter` gives a subsequence of its input. |
| Dashboard.CountDisjoint | ai-kanban/src/Dashboard.js:229-240 | Counts of two disjoint predicates add up to at most the length. |
| Dashboard.RangeTasks | ai-kanban/src/Dashboard.js:192-201 | `all` keeps every task. Otherwise a task is kept iff its `updated_at` or `created_at` parses and is at or after the start. |
| Dashboard.RangeSubseq | ai-kanban/src/Dashboard.js:192-201 | The range filter gives a subsequence. |
| Dashboard.Query | ai-kanban/src/Dashboard.js:205 | The query is empty iff the raw text is blank. It is no longer than the raw text and has no upper-case ASCII letter. |
| Dashboard.MatchesQuery | ai-kanban/src/Dashboard.js:209-222 | The empty query matches every task. |
| Dashboard.SearchTasks | ai-kanban/src/Dashboard.js:204-224 | A blank query returns the input. Otherwise a task is kept iff the trimmed, lower-cased query occurs in one of its six fields. Always a subsequence. |
| Dashboard.Count | ai-kanban/src/Dashboard.js:229-240 | `filter(...).length` is the number of positions where the test holds. |
| Dashboard.ComputeMetrics | ai-kanban/src/Dashboard.js:227-243 | The total is the number of tasks. `inProgress` is the number of positions with status `progress`, and `completed` the number with `done`. `overdue` is the number with an end date strictly before today and a status other than `done`. `inProgress + completed` and `overdue + completed` are each at most the total. |
| Dashboard.Completion | ai-kanban/src/Dashboard.js:308-309 | 0 without tasks. Otherwise the rounded percentage, between 0 and 100, and 100 when all are done. |
| Dashboard.CompletionBounds | ai-kanban/src/Dashboard.js:309 | The integer rounding lies within half a point of `completed / total × 100` and within `[0, 100]`. |
| Dashboard.NewestFirst | ai-kanban/src/Dashboard.js:325-330 | Sorted by the recency key means non-increasing time. |
| Dashboard.Recent | ai-kanban/src/Dashboard.js:324-331 | At most 8 tasks, newest first, each taken from the input no more often than it occurs there. No omitted task is newer than a kept one. |
| Dashboard.NewestPrefix | ai-kanban/src/Dashboard.js:324-331 | The first tasks of a permutation of the input take each task at most as often as the input holds it. |
| Dashboard.NewestPrefixOrder | ai-kanban/src/Dashboard.js:324-331 | The first tasks of the newest-first order are newest first, and no task left out is newer than one kept. |
| Dashboard.RecentTies | ai-kanban/src/Dashboard.js:324-331 | Among tasks with one time, the feed shows the ones that come first in the input, in input order, because `sort` is stable. |
| Dashboard.FeedLabel | ai-kanban/src/Dashboard.js:333-338 | The label is chosen by `thinking`, then `done`, then `progress`, else "Task updated". |
| Dashboard.Feed | ai-kanban/src/Dashboard.js:324-339 | At most 8 labels, one per recent task. |
| Dashboard.AgentNames | ai-kanban/src/Dashboard.js:247-256 | The agent names are distinct and non-empty. |
| Dashboard.AgentNamesCover | ai-kanban/src/Dashboard.js:249-254 | A name is an agent iff some task has it as non-empty `ai_agent`. |
| Dashboard.OfAgent | ai-kanban/src/Dashboard.js:249-254 | An agent's group is exactly its tasks. |
| Dashboard.AgentHasTasks | ai-kanban/src/Dashboard.js:249-256 | Every agent's group is non-empty. |
| Dashboard.GroupByAgent | ai-kanban/src/Dashboard.js:247-256 | The `forEach` into the `Map` gives keys in first-appearance order, each holding its agent's tasks. |
| Dashboard.FirstThinking | ai-kanban/src/Dashboard.js:257 | `find` gives the first `thinking` task, none iff there is none. |
| Dashboard.FirstInProgress | ai-kanban/src/Dashboard.js:258 | `find` gives the first `progress` task, none iff there is none. |
| Dashboard.SortedHeadIsFirstNewest | ai-kanban/src/Dashboard.js:259-263 | Sorting newest first puts the first of the newest tasks at the head. |
| Dashboard.Latest | ai-kanban/src/Dashboard.js:259-263 | `latest` is a task of the group, no older than any other, and on equal times the first of them in the group. |
| Dashboard.Current | ai-kanban/src/Dashboard.js:257-265 | The current task is the first `thinking` task if any, else the first `progress` task if any, else the first of the newest tasks. |
| Dashboard.Card | ai-kanban/src/Dashboard.js:267-291 | The state/progress pair is one of Running/60, Active/40, Completed/100, Idle/0. Running iff the current task is thinking. Active iff it is not thinking and is `progress`. Completed iff it is not thinking and is `done`. Idle otherwise. The card shows its title or "—". |
| Dashboard.AllCards | ai-kanban/src/Dashboard.js:256-292 | One card per agent, in agent order. Each agent's task group is non-empty, and its card is `Card` of that group. |
| Dashboard.Agents | ai-kanban/src/Dashboard.js:246-304 | The cards, then kept iff the query occurs in name, task or state when the query is not blank. |
| Dashboard.CardMatches | ai-kanban/src/Dashboard.js:298-303 | The agent search: the query occurs in the name, the task or the state. Its properties are stated by `Dashboard.CardMatchesCases`. |
| Dashboard.CardMatchesCases | ai-kanban/src/Dashboard.js:298-303 | The empty query matches every card. A matching query is no longer than one of the name, the task and the state. |
| Dashboard.OneCardPerAgent | ai-kanban/src/Dashboard.js:249-292 | Every agent with a task gets exactly one card. |
| Dashboard.TrendDays | ai-kanban/src/Dashboard.js:342-347 | 7 for `today`/`7d`, otherwise 30. |
| Dashboard.DoneOn | ai-kanban/src/Dashboard.js:57-63 | A day's count is at most the number of tasks. |
| Dashboard.DoneOnDays | ai-kanban/src/Dashboard.js:57-63 | A day's count is the number of positions holding a `done` task whose last-touched time parses and falls on that day. |
| Dashboard.TrendCounts | ai-kanban/src/Dashboard.js:44-65 | One count per day, for the last `daysCount` days ending today. Each counts the `done` tasks of that day. |
| Dashboard.MaxY | ai-kanban/src/Dashboard.js:68 | The scale is at least 1 and at least every value, and is 1 or one of the values. |
| Dashboard.Decimal | ai-kanban/src/Dashboard.js:38-41 | `String(n)`: at least one digit, one iff below 10, ending in the last digit. |
| Dashboard.DecimalInjective | ai-kanban/src/Dashboard.js:38-41 | Distinct numbers have distinct decimal strings. |
| Dashboard.Pad2 | ai-kanban/src/Dashboard.js:39-40 | `padStart(2, "0")`: a `'0'` then the digit below 10, the two digits from 10 to 99, and the number unchanged from 10 up. |
| Dashboard.Pad2Injective | ai-kanban/src/Dashboard.js:39-40 | Padding keeps distinct months and days apart. |
| Dashboard.DayKey | ai-kanban/src/Dashboard.js:37-42 | `YYYY-MM-DD`: the year's digits, `-`, the padded month, `-`, the padded day; six characters more than the year. |
| Dashboard.DayKeyInjective | ai-kanban/src/Dashboard.js:37-42 | Distinct calendar days have distinct keys. |
| Profile.SafeErrorMessage | ai-kanban/src/pages/ProfilePage.js:10-19 | Falsy gives "Unknown error", a string gives itself, an object gives its `message`, else its JSON text. |
| Profile.SafeErrorMessageNonEmpty | ai-kanban/src/pages/ProfilePage.js:10-19 | The text shown is never blank. |
| Profile.AfterLastDot | ai-kanban/src/pages/ProfilePage.js:40-41 | The text after the last dot, with no dot in it; none iff the name has no dot. |
| Profile.ExtFromFile | ai-kanban/src/pages/ProfilePage.js:39-43 | Never empty, never with a dot, without capitals. A name without a dot, or one ending with a dot, gives "png". |
| Profile.ExtOfName | ai-kanban/src/pages/ProfilePage.js:39-43 | For `base.ext` with a dot-free extension, the result is the extension lower-cased, or "png" when the extension is empty. |
| Profile.IsImageFile | ai-kanban/src/pages/ProfilePage.js:45-47 | A file is an image iff there is one and its MIME type starts with `image/`. |
| Profile.AvatarPath | ai-kanban/src/pages/ProfilePage.js:623-624 | The path is `<userId>/avatar.<ext>`, inside the user's folder. |
| Profile.StoredPrefs | ai-kanban/src/pages/ProfilePage.js:533-539 | With no row, the defaults are `en`, `Asia/Singapore`, `system`, true, true, false. With a row, each empty text column reads as its default and each set one as stored. A NULL flag reads as its default and a set flag as stored. |
| Profile.PrefsDirty | ai-kanban/src/pages/ProfilePage.js:533-539 | The form is clean iff it equals the stored preferences with defaults filled in. |
| Profile.ProfileDirty | ai-kanban/src/pages/ProfilePage.js:541 | With no stored row, or a stored row with an empty username, the draft is dirty iff it is not blank. |
| Profile.SavedPrefsClean | ai-kanban/src/pages/ProfilePage.js:533-539 | Preferences read back after saving are not dirty, and neither is a fresh profile with the defaults. |
| Profile.EmptyLocaleStaysDirty | ai-kanban/src/pages/ProfilePage.js:533-534 | An empty language reads back as `en`, so the form stays dirty. |
| Profile.DisplayName | ai-kanban/src/pages/ProfilePage.js:520 | The trimmed draft, else the stored name, else "User"; never empty. |
| Profile.FirstLetter | ai-kanban/src/pages/ProfilePage.js:521 | One character: the display name's first, upper-cased. |
| Profile.AvatarPublicUrl | ai-kanban/src/pages/ProfilePage.js:526-531 | Empty for no avatar, an `http` value unchanged, otherwise the storage's public URL. |
| Profile.ProfilePage.constructor | ai-kanban/src/pages/ProfilePage.js:458-464 | The draft starts as the stored username. |
| Profile.ProfilePage.SaveUsername | ai-kanban/src/pages/ProfilePage.js:561-582 | A blank draft warns and writes nothing. Otherwise the trimmed draft is written; a failure shows its message, success reads the profile back. |
| Profile.ProfilePage.UploadAvatar | ai-kanban/src/pages/ProfilePage.js:610-645 | No file, a non-image or more than 3 MB is refused before any upload. Otherwise the upload to `<userId>/avatar.<ext>`, then the profile write; either failure stops with its message. |
| Profile.ReloadedNameClean | ai-kanban/src/pages/ProfilePage.js:541 | A saved name, read back into the form, leaves the form clean. |
| Profile.TrimTwice | ai-kanban/src/pages/ProfilePage.js:561-562 | Trimming is idempotent. |
| I18n.TranslateIn | ai-kanban/src/i18n.js:123-126 | The locale's entry if present, else the English entry, else the key. |
| I18n.Translate | ai-kanban/src/i18n.js:2-126 | On the shipped dictionaries: a known key gives the locale's string; an unknown locale gives English; an unknown key is returned unchanged. |
| I18n.UnknownLocaleIsEnglish | ai-kanban/src/i18n.js:124 | An unknown locale behaves exactly like `en`. |
| I18n.TranslateSource | ai-kanban/src/i18n.js:125 | The result is some dictionary's entry for the key, or the key. |
| I18n.SameKeys | ai-kanban/src/i18n.js:2-121 | The four dictionaries have identical key sets. |
| Sidebar.IsActive | ai-kanban/src/Sidebar.js:24-25 | An active link's path is a prefix of the pathname. |
| Sidebar.ActiveAtAndBelow | ai-kanban/src/Sidebar.js:24-25 | A path is active at itself and at any path below it. |
| Sidebar.ActiveIsSegmentPrefix | ai-kanban/src/Sidebar.js:24-25 | Active iff the path is a prefix ending at the end of the pathname or at a `/`. |
| Sidebar.NotSegment | ai-kanban/src/Sidebar.js:24-25 | `/kanbanx` does not activate `/kanban`. |
| Sidebar.ShorterNeverActive | ai-kanban/src/Sidebar.js:24-25 | A pathname shorter than the path never activates it. |
| Sidebar.AtMostOneActive | ai-kanban/src/Sidebar.js:15-57 | No pathname highlights two of the six highlighted links (the four main links, profile and settings). |

## Left out

- **Transport and timers**:
  - Express, CORS, Socket.IO handshakes and `server.listen`;
  - the `setInterval` timer itself, modelled as one tick per call with
    `now` given;
  - the 400 ms delay before `taskMoved` is sent;
  - toasts' timeouts.
- **Interleaving**:
  - async handlers run to completion one at a time;
  - overlapping ticks and the fire-and-forget per-socket broadcasts are
    not interleaved, and there is no guard against them.
- **Both clock reads in one tick** (`Date.now()` and the
  `new Date().toISOString()` of a promotion) are the same `now`.
- **`getTasks` errors**: a failing select returns `[]` in the source and
  is not modelled. Snapshots are always read from the table.
- **The completion endpoint's HTTP call** is the function parameter
  `gen`, which either throws or replies. In the chat, the AI agent is a
  parameter.
- **`Server.TickResult` and `Server.Finish`** take `gen` as a function of
  the title alone. Two stale tasks with the same title therefore get the
  same reply in one tick. The endpoint makes no such promise: each call
  is a separate request whose reply may differ. No lemma relies on equal
  replies.
- **The organisations join** (`maybeSingle`) returns an error when
  several rows match. The model uses the message "multiple rows
  returned"; the store's exact text is not part of this model.
- **The existing-membership lookup in `joinOrganisation`** ignores its
  error in the source; the model reads the table directly.
- **Unchecked reads**: the read errors in `getMyOrganisations` empty
  that part of the result (`Reads` flags). The owner lookup of `kickMember`
  and `deleteOrganisation` is a table read that cannot fail.
- **Database cascades and row-level security** when an organisation or
  task is deleted are not part of this model.
- **The member comparator in `getMembers`** does not compare two owners
  with each other (it returns -1 for either order). The model keeps
  owners before all others and places owners among themselves in
  insertion-sort order, which is one of the orders JavaScript may give.
- **`localeCompare`** is replaced by character-code order
  (`Order.StrLe`). Case mapping (`toLowerCase`, `toUpperCase`) is ASCII
  only, and `trim` strips the common white-space characters only.
- **`JSON.stringify`** of an error object is a value carried with the
  error.
- **Floating point** is not modelled:
  - the dashboard's utilisation, throughput and efficiency;
  - SVG point coordinates;
  - the timeline's today marker.
  `Math.round` in `completion` is exact integer rounding of the same
  quotient.
- **Dates**:
  - dayjs and `Date` are replaced by day numbers and millisecond
    values;
  - `getStartDate`'s calendar arithmetic and the local day of a
    timestamp are inputs (`start`, `dayOf`);
  - `dayKeyLocal` takes year, month and day.
- **The timeline and dashboard task fetches** (their queries and
  realtime channels) are inputs: the views work on the list they are
  given.
- **React rendering, routing, modals, the copy-to-clipboard button,
  `savePreferences`, `removeAvatar` and the security actions** are not
  part of this model; only the listed helpers and validations are.
- **Transient flags**: `savingProfile` and `avatarBusy` are true only
  while a request is outstanding. The model shows the state after the
  handler finishes, and the toast is a log rather than one replaced
  value.
- **Aliasing on the board**: `onDragEnd` copies the columns object
  shallowly, so `splice` also changes the previous state's arrays. The
  model works on values.
- **Prototype keys in `translate`**: a locale such as `toString` is
  truthy on a plain object. The model treats every locale outside the
  four dictionaries as unknown.
- **Feed labels for a NULL title** read `null` in the source (the
  template literal prints it) and `""` in the model.
- **Strict comparisons against NULL**: in the two owner checks and the
  assignee filter, a NULL column never equals a text. In the model a
  NULL column is `""`, so it would equal an empty user id or an empty
  filter value. Member ids are never empty (`Timeline.MemberIds`), so
  the assignee filter agrees. An empty signed-in user id against a NULL
  owner would pass the model's owner check and fail the source's.

=== FILE: ai_agent.dfy ===
/** The prompt builder of the chat assistant: a stored chat history becomes
    the role-tagged message list sent to the completion endpoint. */
module AiAgent {

  /** A history entry `{ role, parts: [{ text }] }`; a part without text is "". */
  datatype Entry = Entry(role: string, parts: seq<string>)

  /** An outgoing `{ role, content }` message. */
  datatype Message = Message(role: string, content: string)

  const SYSTEM_PROMPT := "You are a helpful AI coding assistant. Be concise and correct."

  /** `.filter(Boolean)` on part texts. */
  function NonEmptyParts(parts: seq<string>): (r: seq<string>)
    ensures forall p :: p in r <==> p in parts && p != ""
  {
    if parts == [] then []
    else (if parts[0] != "" then [parts[0]] else []) + NonEmptyParts(parts[1..])
  }

  /** The filter keeps the parts' order: the kept parts of a concatenation
      are the concatenation of the kept parts. */
  lemma {:induction false} NonEmptyPartsAppend(a: seq<string>, b: seq<string>)
    ensures NonEmptyParts(a + b) == NonEmptyParts(a) + NonEmptyParts(b)
  {
    if a == [] {
      assert a + b == b;
    } else {
      assert (a + b)[0] == a[0] && (a + b)[1..] == a[1..] + b;
      NonEmptyPartsAppend(a[1..], b);
    }
  }

  /** `.join(sep)`. */
  function Join(xs: seq<string>, sep: string): string {
    if xs == [] then ""
    else if |xs| == 1 then xs[0]
    else xs[0] + sep + Join(xs[1..], sep)
  }

  lemma {:induction false} JoinNonEmpty(xs: seq<string>, sep: string)
    requires xs != [] && xs[0] != ""
    ensures Join(xs, sep) != ""
  {
    if |xs| > 1 {
      assert |Join(xs, sep)| >= |xs[0]|;
    }
  }

  /** Joining two non-empty lists puts one separator between their joins. */
  lemma {:induction false} JoinAppend(xs: seq<string>, ys: seq<string>, sep: string)
    requires xs != [] && ys != []
    ensures Join(xs + ys, sep) == Join(xs, sep) + sep + Join(ys, sep)
  {
    assert (xs + ys)[0] == xs[0];
    if |xs| == 1 {
      assert (xs + ys)[1..] == ys;
    } else {
      assert (xs + ys)[1..] == xs[1..] + ys;
      JoinAppend(xs[1..], ys, sep);
    }
  }

  /** The text of an entry: its non-empty part texts joined by newlines. */
  function EntryText(e: Entry): (r: string)
    ensures NonEmptyParts(e.parts) == [] ==> r == ""
    ensures |NonEmptyParts(e.parts)| == 1 ==> r == NonEmptyParts(e.parts)[0]
  {
    Join(NonEmptyParts(e.parts), "\n")
  }

  /** Splitting the parts of an entry splits its text at one newline, when
      both halves have text; with the zero- and one-part cases of
      `EntryText` this fixes the text for any number of parts. */
  lemma EntryTextAppend(role: string, a: seq<string>, b: seq<string>)
    requires NonEmptyParts(a) != [] && NonEmptyParts(b) != []
    ensures EntryText(Entry(role, a + b)) == EntryText(Entry(role, a)) + "\n" + EntryText(Entry(role, b))
  {
    NonEmptyPartsAppend(a, b);
    JoinAppend(NonEmptyParts(a), NonEmptyParts(b), "\n");
  }

  /** An entry contributes text exactly when one of its parts has text. */
  lemma EntryTextEmptyIff(e: Entry)
    ensures EntryText(e) == "" <==> forall p :: p in e.parts ==> p == ""
  {
    var ne := NonEmptyParts(e.parts);
    if ne != [] {
      assert ne[0] in ne;
      JoinNonEmpty(ne, "\n");
    }
  }

  /** `user` stays `user`; any other role is sent as `assistant`. */
  function RoleFor(role: string): (r: string)
    ensures r == "user" || r == "assistant"
    ensures r == "user" <==> role == "user"
  {
    if role == "user" then "user" else "assistant"
  }

  /** The messages built from the history: one per entry with text, in order. */
  function HistoryMessages(history: seq<Entry>): (r: seq<Message>)
    ensures |r| <= |history|
    ensures forall m :: m in r ==> m.content != "" && (m.role == "user" || m.role == "assistant")
  {
    if history == [] then []
    else
      var text := EntryText(history[0]);
      (if text == "" then [] else [Message(RoleFor(history[0].role), text)]) + HistoryMessages(history[1..])
  }

  /** History order is kept: the messages of a concatenation are the
      concatenation of the messages. */
  lemma {:induction false} HistoryMessagesAppend(a: seq<Entry>, b: seq<Entry>)
    ensures HistoryMessages(a + b) == HistoryMessages(a) + HistoryMessages(b)
  {
    if a == [] {
      assert a + b == b;
    } else {
      assert (a + b)[1..] == a[1..] + b;
      HistoryMessagesAppend(a[1..], b);
    }
  }

  /** An entry with text yields exactly one message, with its mapped role. */
  lemma HistoryMessagesSingle(e: Entry)
    ensures EntryText(e) != "" ==> HistoryMessages([e]) == [Message(RoleFor(e.role), EntryText(e))]
    ensures EntryText(e) == "" ==> HistoryMessages([e]) == []
  {
    assert [e][1..] == [];
  }

  /** `toMessages(chatHistory, userMessage)`; a null history is the empty one. */
  method ToMessages(history: seq<Entry>, userMessage: string) returns (messages: seq<Message>)
    ensures messages == [Message("system", SYSTEM_PROMPT)] + HistoryMessages(history) + [Message("user", userMessage)]
    ensures |messages| >= 2 && messages[0] == Message("system", SYSTEM_PROMPT)
    ensures messages[|messages| - 1] == Message("user", userMessage)
    ensures history == [] ==> |messages| == 2
  {
    messages := [Message("system", SYSTEM_PROMPT)];
    var i := 0;
    while i < |history|
      invariant 0 <= i <= |history|
      invariant messages == [Message("system", SYSTEM_PROMPT)] + HistoryMessages(history[..i])
    {
      var h := history[i];
      var text := Join(NonEmptyParts(h.parts), "\n");
      assert history[..i + 1] == history[..i] + [h];
      HistoryMessagesAppend(history[..i], [h]);
      HistoryMessagesSingle(h);
      if text != "" {
        if h.role == "user" {
          messages := messages + [Message("user", text)];
        } else {
          messages := messages + [Message("assistant", text)];
        }
      }
      i := i + 1;
    }
    assert history[..i] == history;
    messages := messages + [Message("user", userMessage)];
  }
}

=== FILE: ai_chat.dfy ===
/** The chat endpoint's in-memory session store: one history per session
    key, grown by the user's message and the model's reply on every
    successful call and trimmed so that it stays short. */
module AiChat {
  import opened AiAgent

  const SEED := Entry("user", ["You are a helpful AI assistant. Be concise and clear."])
  const ANON := "anon"
  /** A history longer than this loses its entries 1..10 (`splice(1, 10)`). */
  const MAX_HISTORY := 30
  const TRIM_COUNT := 10

  /** What the assistant call did: reply with some text, or throw. */
  datatype AgentOutcome = Replied(text: string) | Threw(message: string)

  /** The HTTP response: status, and the `reply` or `error`/`details` fields. */
  datatype Response = Response(status: int, reply: string, error: string, details: string)

  function SessionKey(sessionId: string): (k: string)
    ensures sessionId != "" ==> k == sessionId
    ensures sessionId == "" ==> k == ANON
  {
    if sessionId != "" then sessionId else ANON
  }

  /** The history after a successful reply: the user turn and the model
      turn appended, then entries 1..10 dropped when it grew past 30. */
  function Extend(history: seq<Entry>, message: string, reply: string): (r: seq<Entry>)
    ensures |history| + 2 <= MAX_HISTORY ==>
      r == history + [Entry("user", [message]), Entry("model", [reply])]
    ensures |history| + 2 > MAX_HISTORY ==>
      |r| == |history| + 2 - TRIM_COUNT && r[0] == history[0] &&
      r[1..|r| - 2] == history[1 + TRIM_COUNT..] &&
      r[|r| - 2..] == [Entry("user", [message]), Entry("model", [reply])]
  {
    var h := history + [Entry("user", [message]), Entry("model", [reply])];
    if |h| > MAX_HISTORY then h[..1] + h[1 + TRIM_COUNT..] else h
  }

  /** A stored history: it opens with the seed entry and is at most 30 long. */
  predicate WellFormed(h: seq<Entry>) {
    1 <= |h| <= MAX_HISTORY && h[0] == SEED
  }

  /** Extending keeps the seed, ends with the user turn and then the model
      turn, and keeps the history within 30 entries. */
  lemma ExtendKeepsBound(history: seq<Entry>, message: string, reply: string)
    requires WellFormed(history)
    ensures var h := Extend(history, message, reply);
      WellFormed(h) &&
      h[|h| - 2] == Entry("user", [message]) && h[|h| - 1] == Entry("model", [reply]) &&
      (|h| == |history| + 2 || |h| == |history| + 2 - TRIM_COUNT)
  {
  }

  /** Below the limit nothing is dropped: the old history is a prefix. */
  lemma ExtendWithinLimit(history: seq<Entry>, message: string, reply: string)
    requires |history| + 2 <= MAX_HISTORY
    ensures Extend(history, message, reply)[..|history|] == history
  {
  }

  class ChatSessions {
    var sessions: map<string, seq<Entry>>

    ghost predicate Valid()
      reads this
    {
      forall k :: k in sessions ==> WellFormed(sessions[k])
    }

    constructor ()
      ensures Valid() && sessions == map[]
    {
      sessions := map[];
    }

    /** `handleAIChat`: 400 without a message; otherwise call the assistant
        with the session's history (a fresh one holds only the seed); on
        success store the extended history and answer 200, on failure
        answer 500 and store nothing. */
    method HandleAIChat(sessionId: string, message: string, agent: (seq<Entry>, string) -> AgentOutcome)
      returns (res: Response)
      requires Valid()
      modifies this
      ensures Valid()
      ensures message == "" ==> res.status == 400 && sessions == old(sessions)
      ensures message != "" ==>
        var key := SessionKey(sessionId);
        var history := if key in old(sessions) then old(sessions)[key] else [SEED];
        match agent(history, message)
        case Replied(text) =>
          res == Response(200, text, "", "") &&
          sessions == old(sessions)[key := Extend(history, message, text)]
        case Threw(msg) =>
          res.status == 500 && res.error == "AI failed" &&
          res.details == (if msg != "" then msg else "unknown error") &&
          sessions == old(sessions)
    {
      if message == "" {
        return Response(400, "", "Message required", "");
      }
      var key := if sessionId != "" then sessionId else ANON;
      var history := if key in sessions then sessions[key] else [SEED];
      var outcome := agent(history, message);
      match outcome {
        case Threw(msg) =>
          return Response(500, "", "AI failed", if msg != "" then msg else "unknown error");
        case Replied(reply) =>
          ExtendKeepsBound(history, message, reply);
          history := history + [Entry("user", [message]), Entry("model", [reply])];
          if |history| > MAX_HISTORY {
            history := history[..1] + history[1 + TRIM_COUNT..];
          }
          sessions := sessions[key := history];
          return Response(200, reply, "", "");
      }
    }
  }
}

=== FILE: common.dfy ===
/** Shared vocabulary: optional values and the few JavaScript string
    operations the application relies on (`trim`, ASCII case mapping,
    `startsWith`, `includes`). */
module Common {

  datatype Option<+T> = None | Some(value: T) {
    function GetOr(default: T): T {
      match this
      case Some(v) => v
      case None => default
    }
  }

  datatype Result<+T> = Ok(value: T) | Err(message: string)

  /** The characters `String.prototype.trim` strips that can occur in user
      input typed on a keyboard: space, tab, line feed, vertical tab, form
      feed, carriage return, no-break space and the byte-order mark. */
  predicate IsSpace(c: char) {
    c == ' ' || c == '\t' || c == '\n' || c == '\U{B}' || c == '\U{C}' ||
    c == '\r' || c == '\U{A0}' || c == '\U{FEFF}'
  }

  predicate AllSpace(s: string) {
    forall i :: 0 <= i < |s| ==> IsSpace(s[i])
  }

  function TrimStart(s: string): (r: string)
    ensures |r| <= |s| && r == s[|s| - |r|..]
    ensures r == [] || !IsSpace(r[0])
    ensures AllSpace(s[..|s| - |r|])
  {
    if |s| > 0 && IsSpace(s[0]) then
      var tail := s[1..];
      var r := TrimStart(tail);
      assert tail[|tail| - |r|..] == s[|s| - |r|..];
      assert tail[..|tail| - |r|] == s[1..|s| - |r|];
      assert s[..|s| - |r|] == [s[0]] + tail[..|tail| - |r|];
      r
    else s
  }

  function TrimEnd(s: string): (r: string)
    ensures |r| <= |s| && r == s[..|r|]
    ensures r == [] || !IsSpace(r[|r| - 1])
    ensures AllSpace(s[|r|..])
  {
    if |s| > 0 && IsSpace(s[|s| - 1]) then
      var init := s[..|s| - 1];
      var r := TrimEnd(init);
      assert init[..|r|] == s[..|r|];
      assert init[|r|..] == s[|r|..|s| - 1];
      assert s[|r|..] == init[|r|..] + [s[|s| - 1]];
      r
    else s
  }

  /** `s.trim()`: `s` with its leading and trailing white space removed. */
  function Trim(s: string): (r: string)
    ensures |r| <= |s|
    ensures r == [] || (!IsSpace(r[0]) && !IsSpace(r[|r| - 1]))
    ensures r == [] <==> AllSpace(s)
    ensures AllSpace(s) ==> r == []
  {
    var a := TrimStart(s);
    var r := TrimEnd(a);
    TrimEmpty(s, a, r);
    r
  }

  lemma TrimEmpty(s: string, a: string, r: string)
    requires a == TrimStart(s) && r == TrimEnd(a)
    ensures r == [] <==> AllSpace(s)
  {
    var i := |s| - |a|;
    if r == [] {
      assert s[..i] == s;
    } else {
      assert a[0] == s[i];
    }
  }

  /** A JavaScript string is blank when trimming leaves nothing. */
  predicate Blank(s: string) {
    Trim(s) == []
  }

  /** Moves the 26 letters starting at `from` to the 26 starting at `to`;
      every other character is unchanged. */
  function ShiftLetter(c: char, from: char, to: char): char
    requires to as int + 25 < 0xD800
  {
    if from <= c && c as int <= from as int + 25 then (c as int - from as int + to as int) as char else c
  }

  /** `toLowerCase` on the ASCII letters; other characters are unchanged. */
  function LowerChar(c: char): (r: char)
    ensures 'A' <= c <= 'Z' ==> 'a' <= r <= 'z'
    ensures !('A' <= c <= 'Z') ==> r == c
  {
    ShiftLetter(c, 'A', 'a')
  }

  /** `toUpperCase` on the ASCII letters; other characters are unchanged. */
  function UpperChar(c: char): (r: char)
    ensures 'a' <= c <= 'z' ==> 'A' <= r <= 'Z'
    ensures !('a' <= c <= 'z') ==> r == c
  {
    ShiftLetter(c, 'a', 'A')
  }

  function Lower(s: string): (r: string)
    ensures |r| == |s|
    ensures forall i :: 0 <= i < |s| ==> r[i] == LowerChar(s[i])
  {
    seq(|s|, i requires 0 <= i < |s| => LowerChar(s[i]))
  }

  function Upper(s: string): (r: string)
    ensures |r| == |s|
    ensures forall i :: 0 <= i < |s| ==> r[i] == UpperChar(s[i])
  {
    seq(|s|, i requires 0 <= i < |s| => UpperChar(s[i]))
  }

  predicate StartsWith(s: string, prefix: string) {
    |prefix| <= |s| && s[..|prefix|] == prefix
  }

  /** `s.includes(q)`: `q` occurs in `s` at some position. */
  predicate Includes(s: string, q: string) {
    exists i | 0 <= i <= |s| - |q| :: OccursAt(s, q, i)
  }

  predicate OccursAt(s: string, q: string, i: int) {
    0 <= i <= |s| - |q| && s[i..i + |q|] == q
  }

  /** `x || fallback` on strings. */
  function Or(x: string, fallback: string): string {
    if x != "" then x else fallback
  }
}

=== FILE: dashboard.dfy ===
/** The dashboard page: time-range and search filters over the list of tasks,
    the KPI counts, the per-agent summary cards, the completion percentage,
    the recent-activity feed and the integer counts behind the
    completed-tasks trend line. Times are milliseconds; calendar days are
    day numbers, and turning a time into a local day is a parameter. */
module Dashboard {
  import opened Common
  import opened Tasks
  import opened Order

  const THINKING := "thinking"
  const FEED_SIZE := 8
  const NO_TASK := "—"
  const RUNNING := "Running"
  const ACTIVE := "Active"
  const COMPLETED := "Completed"
  const IDLE := "Idle"

  // ---------------------------------------------------------------------
  // Filtering and counting

  function Filter<T(!new)>(s: seq<T>, p: T -> bool): (r: seq<T>)
    ensures |r| <= |s|
    ensures forall x :: x in r <==> x in s && p(x)
  {
    if s == [] then [] else (if p(s[0]) then [s[0]] else []) + Filter(s[1..], p)
  }

  /** `a` is `b` with some elements left out, the rest in order. */
  predicate Subseq<T(==)>(a: seq<T>, b: seq<T>)
    decreases |b|
  {
    if a == [] then true
    else if b == [] then false
    else (a[0] == b[0] && Subseq(a[1..], b[1..])) || Subseq(a, b[1..])
  }

  lemma {:induction false} FilterSubseq<T(!new)>(s: seq<T>, p: T -> bool)
    ensures Subseq(Filter(s, p), s)
  {
    if s != [] {
      FilterSubseq(s[1..], p);
      var f := Filter(s, p);
      if p(s[0]) {
        assert f[0] == s[0] && f[1..] == Filter(s[1..], p);
      } else {
        assert f == Filter(s[1..], p);
      }
    }
  }

  lemma {:induction false} SubseqRefl<T>(s: seq<T>)
    ensures Subseq(s, s)
  {
    if s != [] {
      SubseqRefl(s[1..]);
    }
  }

  /** Filtering a sequence with one more element at the end. */
  lemma {:induction false} FilterSnoc<T(!new)>(s: seq<T>, x: T, p: T -> bool)
    ensures Filter(s + [x], p) == Filter(s, p) + (if p(x) then [x] else [])
  {
    if s != [] {
      assert (s + [x])[1..] == s[1..] + [x];
      FilterSnoc(s[1..], x, p);
    }
  }

  /** The positions of `s` where the test holds. */
  ghost function Positions<T>(s: seq<T>, p: T -> bool): set<int> {
    set i | 0 <= i < |s| && p(s[i])
  }

  lemma PositionsSnoc<T>(s: seq<T>, x: T, p: T -> bool)
    ensures Positions(s + [x], p) == Positions(s, p) + (if p(x) then {|s|} else {})
    ensures |s| !in Positions(s, p)
  {
    var t := s + [x];
    forall i | 0 <= i < |s|
      ensures t[i] == s[i]
    {
    }
  }

  /** The number of elements the test holds for, that is, the number of
      positions where it holds. */
  function Count<T(!new)>(s: seq<T>, p: T -> bool): (n: nat)
    ensures n <= |s|
    ensures n == |Positions(s, p)|
  {
    CountPositions(s, p);
    |Filter(s, p)|
  }

  lemma {:induction false} CountPositions<T(!new)>(s: seq<T>, p: T -> bool)
    ensures |Filter(s, p)| == |Positions(s, p)|
  {
    if s == [] {
      assert Positions(s, p) == {};
    } else {
      var k := |s| - 1;
      var init := s[..k];
      assert s == init + [s[k]];
      FilterSnoc(init, s[k], p);
      CountPositions(init, p);
      PositionsSnoc(init, s[k], p);
    }
  }

  /** Two tests that never hold together count at most every element once. */
  lemma {:induction false} CountDisjoint<T(!new)>(s: seq<T>, p: T -> bool, q: T -> bool)
    requires forall x :: p(x) ==> !q(x)
    ensures Count(s, p) + Count(s, q) <= |s|
  {
    if s != [] {
      CountDisjoint(s[1..], p, q);
    }
  }

  // ---------------------------------------------------------------------
  // Time range and search

  /** `safeDate(t.updated_at || t.created_at)?.getTime() || 0`: the time
      a task was last touched, 0 when it does not parse. */
  function Time(t: Task): int {
    LastTouch(t).GetOr(0)
  }

  /** `rangeTasks`: all tasks for "all" (no start), otherwise the tasks last
      touched at or after the start. */
  function RangeTasks(tasks: seq<Task>, start: Option<int>): (r: seq<Task>)
    ensures start.None? ==> r == tasks
    ensures start.Some? ==> forall t :: t in r <==> t in tasks && LastTouch(t).Some? && LastTouch(t).value >= start.value
  {
    if start.None? then tasks
    else Filter(tasks, t => LastTouch(t).Some? && LastTouch(t).value >= start.value)
  }

  /** `String(searchQuery || "").trim().toLowerCase()`. */
  function Query(raw: string): (q: string)
    ensures q == "" <==> Blank(raw)
    ensures |q| <= |raw|
    ensures forall i :: 0 <= i < |q| ==> !('A' <= q[i] <= 'Z')
  {
    Lower(Trim(raw))
  }

  predicate MatchesQuery(t: Task, q: string): (r: bool)
    ensures q == "" ==> r
  {
    assert q == "" ==> OccursAt(Lower(t.title), q, 0);
    Includes(Lower(t.title), q) || Includes(Lower(t.description), q) ||
    Includes(Lower(t.aiAgent), q) || Includes(Lower(t.status), q) ||
    Includes(Lower(t.kind), q) || Includes(Lower(t.priority), q)
  }

  /** `filteredTasks`: a blank query keeps everything; otherwise a task
      stays when one of its six text fields contains the query. */
  function SearchTasks(tasks: seq<Task>, raw: string): (r: seq<Task>)
    ensures Blank(raw) ==> r == tasks
    ensures !Blank(raw) ==> forall t :: t in r <==> t in tasks && MatchesQuery(t, Query(raw))
    ensures Subseq(r, tasks)
  {
    var q := Query(raw);
    if q == "" then
      SubseqRefl(tasks);
      tasks
    else
      FilterSubseq(tasks, t => MatchesQuery(t, q));
      Filter(tasks, t => MatchesQuery(t, q))
  }

  /** The range filter keeps a subsequence too. */
  lemma RangeSubseq(tasks: seq<Task>, start: Option<int>)
    ensures Subseq(RangeTasks(tasks, start), tasks)
  {
    if start.None? {
      SubseqRefl(tasks);
    } else {
      FilterSubseq(tasks, t => LastTouch(t).Some? && LastTouch(t).value >= start.value);
    }
  }

  // ---------------------------------------------------------------------
  // KPI counts and completion

  datatype Metrics = Metrics(total: nat, inProgress: nat, completed: nat, overdue: nat)

  predicate IsProgress(t: Task) {
    t.status == PROGRESS
  }

  predicate IsDone(t: Task) {
    t.status == DONE
  }

  /** Not finished and due on a day before today. */
  predicate Overdue(t: Task, today: int) {
    t.endDate.Some? && t.endDate.value < today && t.status != DONE
  }

  function ComputeMetrics(tasks: seq<Task>, today: int): (m: Metrics)
    ensures m.total == |tasks|
    ensures m.inProgress == |set i | 0 <= i < |tasks| && tasks[i].status == PROGRESS|
    ensures m.completed == |set i | 0 <= i < |tasks| && tasks[i].status == DONE|
    ensures m.overdue == |set i | 0 <= i < |tasks| && tasks[i].endDate.Some? && tasks[i].endDate.value < today && tasks[i].status != DONE|
    ensures m.inProgress + m.completed <= m.total
    ensures m.overdue + m.completed <= m.total
  {
    var inProgress := Count(tasks, IsProgress);
    var completed := Count(tasks, IsDone);
    var overdue := Count(tasks, (t: Task) => Overdue(t, today));
    assert Positions(tasks, IsProgress) == set i | 0 <= i < |tasks| && tasks[i].status == PROGRESS;
    assert Positions(tasks, IsDone) == set i | 0 <= i < |tasks| && tasks[i].status == DONE;
    assert Positions(tasks, (t: Task) => Overdue(t, today)) ==
      set i | 0 <= i < |tasks| && tasks[i].endDate.Some? && tasks[i].endDate.value < today && tasks[i].status != DONE;
    CountDisjoint(tasks, IsProgress, IsDone);
    CountDisjoint(tasks, (t: Task) => Overdue(t, today), IsDone);
    Metrics(|tasks|, inProgress, completed, overdue)
  }

  /** `Math.round(completed / total * 100)`, 0 without tasks, in exact
      arithmetic: the nearest whole percentage, halves rounded up. */
  function Completion(completed: nat, total: nat): (r: int)
    ensures total == 0 ==> r == 0
    ensures completed <= total ==> 0 <= r <= 100
    ensures 0 < total && completed == total ==> r == 100
    ensures 0 < total ==> 2 * total * r <= 200 * completed + total < 2 * total * (r + 1)
  {
    if total == 0 then 0
    else
      var r := (200 * completed + total) / (2 * total);
      CompletionBounds(completed, total, r);
      r
  }

  lemma CompletionBounds(completed: nat, total: nat, r: int)
    requires 0 < total && r == (200 * completed + total) / (2 * total)
    ensures 2 * total * r <= 200 * completed + total < 2 * total * (r + 1)
    ensures completed <= total ==> 0 <= r <= 100
    ensures completed == total ==> r == 100
  {
    var n := 200 * completed + total;
    var d := 2 * total;
    DivBounds(n, d);
    if completed <= total {
      assert n < d * 101;
      if r > 100 {
        MulMonotone(d, 101, r);
      }
      if r < 0 {
        MulMonotone(d, r + 1, 0);
      }
    }
    if completed == total {
      assert n == d * 100 + total;
      if r < 100 {
        MulMonotone(d, r + 1, 100);
      }
    }
  }

  lemma DivBounds(n: int, d: int)
    requires d > 0
    ensures d * (n / d) <= n < d * (n / d) + d
  {
  }

  lemma MulMonotone(d: int, a: int, b: int)
    requires d > 0 && a <= b
    ensures d * a <= d * b
  {
  }

  // ---------------------------------------------------------------------
  // Recency order and the activity feed

  /** Newest first: the comparator `db - da` as a key. */
  function RecencyKey(t: Task): Key {
    Key(-Time(t), "")
  }

  lemma NewestFirst(s: seq<Task>)
    requires SortedBy(s, RecencyKey)
    ensures forall i, j :: 0 <= i < j < |s| ==> Time(s[i]) >= Time(s[j])
  {
    SortedPairs(s, RecencyKey);
  }

  /** The eight most recently touched tasks, newest first. */
  function Recent(tasks: seq<Task>): (r: seq<Task>)
    ensures |r| == if |tasks| < FEED_SIZE then |tasks| else FEED_SIZE
    ensures forall i, j :: 0 <= i < j < |r| ==> Time(r[i]) >= Time(r[j])
    ensures forall t :: t in r ==> t in tasks
    ensures multiset(r) <= multiset(tasks)
    ensures forall t, u :: t in tasks && t !in r && u in r ==> Time(u) >= Time(t)
  {
    var s := SortBy(tasks, RecencyKey);
    var n := if |s| < FEED_SIZE then |s| else FEED_SIZE;
    NewestPrefix(tasks, s, n);
    NewestPrefixOrder(tasks, s, n);
    s[..n]
  }

  /** A prefix of a permutation takes each element at most as often as
      the input holds it. */
  lemma NewestPrefix(tasks: seq<Task>, s: seq<Task>, n: nat)
    requires multiset(s) == multiset(tasks) && n <= |s|
    ensures multiset(s[..n]) <= multiset(tasks)
    ensures forall t :: t in s[..n] ==> t in tasks
  {
    assert s == s[..n] + s[n..];
    assert multiset(s) == multiset(s[..n]) + multiset(s[n..]);
    forall t | t in s[..n] ensures t in tasks {
      assert t in multiset(s[..n]);
      assert t in multiset(tasks);
    }
  }

  /** A prefix of the tasks sorted newest first is itself newest first,
      and no task left out of it is newer than one in it. */
  lemma NewestPrefixOrder(tasks: seq<Task>, s: seq<Task>, n: nat)
    requires multiset(s) == multiset(tasks) && SortedBy(s, RecencyKey) && n <= |s|
    ensures forall i, j :: 0 <= i < j < n ==> Time(s[..n][i]) >= Time(s[..n][j])
    ensures forall t, u :: t in tasks && t !in s[..n] && u in s[..n] ==> Time(u) >= Time(t)
  {
    NewestFirst(s);
    forall t, u | t in tasks && t !in s[..n] && u in s[..n]
      ensures Time(u) >= Time(t)
    {
      assert t in multiset(tasks);
      var j :| 0 <= j < |s| && s[j] == t;
      var i :| 0 <= i < n && s[..n][i] == u;
    }
  }

  /** Among tasks with the same time the feed shows the ones that come
      first in the input, in input order, as the stable `sort` does. */
  lemma RecentTies(tasks: seq<Task>, k: Key)
    ensures WithKey(Recent(tasks), RecencyKey, k) <= WithKey(tasks, RecencyKey, k)
  {
    var s := SortBy(tasks, RecencyKey);
    var n := |Recent(tasks)|;
    assert s == s[..n] + s[n..];
    WithKeyAppend(s[..n], s[n..], RecencyKey, k);
    SortByStable(tasks, RecencyKey, k);
  }

  /** `k` is the first of the newest tasks in `s`. */
  predicate FirstNewest(s: seq<Task>, k: int) {
    0 <= k < |s| && (forall j :: 0 <= j < |s| ==> Time(s[j]) <= Time(s[k])) &&
    forall j :: 0 <= j < k ==> Time(s[j]) < Time(s[k])
  }

  /** Sorting newest first puts the first of the newest tasks at the head. */
  lemma SortedHeadIsFirstNewest(group: seq<Task>, k: int)
    requires FirstNewest(group, k)
    ensures SortBy(group, RecencyKey) != [] && SortBy(group, RecencyKey)[0] == group[k]
  {
    var s := SortBy(group, RecencyKey);
    NewestFirst(s);
    assert group[k] in multiset(s);
    assert s[0] in multiset(group);
    var key := RecencyKey(group[k]);
    assert RecencyKey(s[0]) == key;
    WithKeyFirst(s, RecencyKey, key, 0);
    WithKeyFirst(group, RecencyKey, key, k);
    SortByStable(group, RecencyKey, key);
  }

  /** `[...agentTasks].sort(newest first)[0]`: the first of the newest
      tasks of the group. */
  function Latest(group: seq<Task>): (c: Task)
    requires group != []
    ensures c in group
    ensures forall t :: t in group ==> Time(t) <= Time(c)
    ensures forall k :: FirstNewest(group, k) ==> c == group[k]
  {
    var s := SortBy(group, RecencyKey);
    NewestFirst(s);
    assert s[0] in multiset(group);
    forall t | t in group
      ensures Time(t) <= Time(s[0])
    {
      assert t in multiset(s);
    }
    forall k | FirstNewest(group, k)
      ensures s[0] == group[k]
    {
      SortedHeadIsFirstNewest(group, k);
    }
    s[0]
  }

  /** The feed line for a task: the AI at work, then finished, then in
      progress, else a plain update. */
  function FeedLabel(t: Task): (s: string)
    ensures t.aiStatus == THINKING ==> s == "AI is working on: " + t.title
    ensures t.aiStatus != THINKING && t.status == DONE ==> s == "Task completed: " + t.title
    ensures t.aiStatus != THINKING && t.status == PROGRESS ==> s == "In progress: " + t.title
    ensures t.aiStatus != THINKING && t.status != DONE && t.status != PROGRESS ==> s == "Task updated: " + t.title
  {
    if t.aiStatus == THINKING then "AI is working on: " + t.title
    else if t.status == DONE then "Task completed: " + t.title
    else if t.status == PROGRESS then "In progress: " + t.title
    else "Task updated: " + t.title
  }

  /** `combinedFeed`. */
  function Feed(tasks: seq<Task>): (r: seq<string>)
    ensures |r| <= FEED_SIZE
    ensures |r| == |Recent(tasks)|
    ensures forall i :: 0 <= i < |r| ==> r[i] == FeedLabel(Recent(tasks)[i])
  {
    var recent := Recent(tasks);
    seq(|recent|, i requires 0 <= i < |recent| => FeedLabel(recent[i]))
  }

  // ---------------------------------------------------------------------
  // Agents

  /** One summary card: agent name, state, current task title, progress. */
  datatype AgentCard = AgentCard(name: string, status: string, task: string, progress: int)

  function AddName(acc: seq<string>, name: string): (r: seq<string>)
    ensures (forall i, j :: 0 <= i < j < |acc| ==> acc[i] != acc[j]) && "" !in acc ==>
      (forall i, j :: 0 <= i < j < |r| ==> r[i] != r[j]) && "" !in r
    ensures forall x :: x in r <==> x in acc || (x == name && name != "")
  {
    if name == "" || name in acc then acc else acc + [name]
  }

  /** The distinct non-empty `ai_agent` values, in order of first appearance
      (the key order of the `Map`). */
  function AgentNames(tasks: seq<Task>): (r: seq<string>)
    ensures forall i, j :: 0 <= i < j < |r| ==> r[i] != r[j]
    ensures "" !in r
  {
    if tasks == [] then []
    else AddName(AgentNames(tasks[..|tasks| - 1]), tasks[|tasks| - 1].aiAgent)
  }

  /** The names are exactly the agents of the tasks. */
  lemma {:induction false} AgentNamesCover(tasks: seq<Task>, name: string)
    ensures name in AgentNames(tasks) <==> name != "" && exists t :: t in tasks && t.aiAgent == name
  {
    if tasks != [] {
      var init := tasks[..|tasks| - 1];
      assert tasks == init + [tasks[|tasks| - 1]];
      AgentNamesCover(init, name);
    }
  }

  /** One more task extends the names and the groups by that task. */
  lemma GroupStep(tasks: seq<Task>, k: nat, name: string)
    requires k < |tasks|
    ensures AgentNames(tasks[..k + 1]) == AddName(AgentNames(tasks[..k]), tasks[k].aiAgent)
    ensures OfAgent(tasks[..k + 1], name) == OfAgent(tasks[..k], name) + (if tasks[k].aiAgent == name then [tasks[k]] else [])
  {
    var p := tasks[..k + 1];
    assert p[..|p| - 1] == tasks[..k];
    assert p[|p| - 1] == tasks[k];
  }

  /** The tasks of one agent, in list order. */
  function OfAgent(tasks: seq<Task>, name: string): (r: seq<Task>)
    ensures forall t :: t in r <==> t in tasks && t.aiAgent == name
  {
    if tasks == [] then []
    else
      var init := tasks[..|tasks| - 1];
      var last := tasks[|tasks| - 1];
      assert tasks == init + [last];
      OfAgent(init, name) + (if last.aiAgent == name then [last] else [])
  }

  /** Every named agent has at least one task. */
  lemma AgentHasTasks(tasks: seq<Task>, name: string)
    requires name in AgentNames(tasks)
    ensures OfAgent(tasks, name) != []
  {
    AgentNamesCover(tasks, name);
    var t :| t in tasks && t.aiAgent == name;
    assert t in OfAgent(tasks, name);
  }

  lemma {:induction false} NoTasksNoGroup(tasks: seq<Task>, name: string)
    requires forall t :: t in tasks ==> t.aiAgent != name
    ensures OfAgent(tasks, name) == []
  {
    if tasks != [] {
      NoTasksNoGroup(tasks[..|tasks| - 1], name);
    }
  }

  /** The `forEach` that fills the agent `Map`. */
  method GroupByAgent(tasks: seq<Task>) returns (names: seq<string>, groups: map<string, seq<Task>>)
    ensures names == AgentNames(tasks)
    ensures groups.Keys == set n | n in names
    ensures forall n :: n in groups ==> groups[n] == OfAgent(tasks, n)
  {
    names := [];
    groups := map[];
    for k := 0 to |tasks|
      invariant names == AgentNames(tasks[..k])
      invariant groups.Keys == set n | n in names
      invariant forall n :: n in groups ==> groups[n] == OfAgent(tasks[..k], n)
    {
      var t := tasks[k];
      GroupStep(tasks, k, t.aiAgent);
      if t.aiAgent != "" {
        var g := if t.aiAgent in groups then groups[t.aiAgent] else [];
        assert g == OfAgent(tasks[..k], t.aiAgent) by {
          if t.aiAgent !in groups {
            AgentNamesCover(tasks[..k], t.aiAgent);
            NoTasksNoGroup(tasks[..k], t.aiAgent);
          }
        }
        KeepGroups(tasks, k, groups);
        groups := groups[t.aiAgent := g + [t]];
        names := AddName(names, t.aiAgent);
      } else {
        KeepGroups(tasks, k, groups);
      }
    }
    assert tasks[..|tasks|] == tasks;
  }

  /** The groups of the other agents do not change with task `k`. */
  lemma KeepGroups(tasks: seq<Task>, k: nat, groups: map<string, seq<Task>>)
    requires k < |tasks|
    requires forall n :: n in groups ==> groups[n] == OfAgent(tasks[..k], n)
    ensures forall n :: n in groups && n != tasks[k].aiAgent ==> groups[n] == OfAgent(tasks[..k + 1], n)
  {
    forall n | n in groups && n != tasks[k].aiAgent
      ensures groups[n] == OfAgent(tasks[..k + 1], n)
    {
      GroupStep(tasks, k, n);
    }
  }

  function FirstThinking(s: seq<Task>): (r: Option<Task>)
    ensures r.None? <==> forall t :: t in s ==> t.aiStatus != THINKING
    ensures r.Some? ==> r.value in s && r.value.aiStatus == THINKING
    ensures forall k :: 0 <= k < |s| && s[k].aiStatus == THINKING && (forall j :: 0 <= j < k ==> s[j].aiStatus != THINKING) ==>
      r == Some(s[k])
  {
    if s == [] then None
    else if s[0].aiStatus == THINKING then Some(s[0])
    else FirstThinking(s[1..])
  }

  function FirstInProgress(s: seq<Task>): (r: Option<Task>)
    ensures r.None? <==> forall t :: t in s ==> t.status != PROGRESS
    ensures r.Some? ==> r.value in s && r.value.status == PROGRESS
    ensures forall k :: 0 <= k < |s| && s[k].status == PROGRESS && (forall j :: 0 <= j < k ==> s[j].status != PROGRESS) ==>
      r == Some(s[k])
  {
    if s == [] then None
    else if s[0].status == PROGRESS then Some(s[0])
    else FirstInProgress(s[1..])
  }

  /** `thinking || inProg || latest`. */
  function Current(group: seq<Task>): (c: Task)
    requires group != []
    ensures c in group
    ensures (exists t :: t in group && t.aiStatus == THINKING) ==> c.aiStatus == THINKING
    ensures forall k :: (0 <= k < |group| && group[k].aiStatus == THINKING &&
                         forall j :: 0 <= j < k ==> group[j].aiStatus != THINKING) ==> c == group[k]
    ensures forall k :: (0 <= k < |group| && (forall t :: t in group ==> t.aiStatus != THINKING) &&
                         group[k].status == PROGRESS &&
                         forall j :: 0 <= j < k ==> group[j].status != PROGRESS) ==> c == group[k]
    ensures ((forall t :: t in group ==> t.aiStatus != THINKING) &&
             (exists t :: t in group && t.status == PROGRESS)) ==> c.status == PROGRESS
    ensures (forall t :: t in group ==> t.aiStatus != THINKING && t.status != PROGRESS) ==>
            forall t :: t in group ==> Time(t) <= Time(c)
    ensures (forall t :: t in group ==> t.aiStatus != THINKING && t.status != PROGRESS) ==>
            forall k :: FirstNewest(group, k) ==> c == group[k]
  {
    var thinking := FirstThinking(group);
    var inProg := FirstInProgress(group);
    if thinking.Some? then thinking.value
    else if inProg.Some? then inProg.value
    else Latest(group)
  }

  /** The card for an agent: state and progress follow its current task. */
  function Card(name: string, group: seq<Task>): (c: AgentCard)
    requires group != []
    ensures c.name == name
    ensures (c.status, c.progress) == (RUNNING, 60) || (c.status, c.progress) == (ACTIVE, 40) ||
            (c.status, c.progress) == (COMPLETED, 100) || (c.status, c.progress) == (IDLE, 0)
    ensures c.status == RUNNING <==> Current(group).aiStatus == THINKING
    ensures c.status == ACTIVE <==> Current(group).aiStatus != THINKING && Current(group).status == PROGRESS
    ensures c.status == COMPLETED <==> Current(group).aiStatus != THINKING && Current(group).status == DONE
    ensures c.status == IDLE <==>
      Current(group).aiStatus != THINKING && Current(group).status != PROGRESS && Current(group).status != DONE
    ensures c.task == Or(Current(group).title, NO_TASK)
  {
    var cur := Current(group);
    if cur.aiStatus == THINKING then AgentCard(name, RUNNING, Or(cur.title, NO_TASK), 60)
    else if cur.status == PROGRESS then AgentCard(name, ACTIVE, Or(cur.title, NO_TASK), 40)
    else if cur.status == DONE then AgentCard(name, COMPLETED, Or(cur.title, NO_TASK), 100)
    else AgentCard(name, IDLE, Or(cur.title, NO_TASK), 0)
  }

  /** The agent search: the query occurs in the name, the task or the state. */
  predicate CardMatches(a: AgentCard, q: string) {
    Includes(Lower(a.name), q) || Includes(Lower(a.task), q) || Includes(Lower(a.status), q)
  }

  /** The empty query matches every card, and a matching query fits in
      the name, the task or the state. */
  lemma CardMatchesCases(a: AgentCard, q: string)
    ensures q == "" ==> CardMatches(a, q)
    ensures CardMatches(a, q) ==> |q| <= |a.name| || |q| <= |a.task| || |q| <= |a.status|
  {
    assert q == "" ==> OccursAt(Lower(a.name), q, 0);
  }

  /** One card per agent, in the agents' order of first appearance. */
  function AllCards(tasks: seq<Task>): (r: seq<AgentCard>)
    ensures |r| == |AgentNames(tasks)|
    ensures forall i :: 0 <= i < |r| ==> r[i].name == AgentNames(tasks)[i]
    ensures forall i :: 0 <= i < |r| ==>
      OfAgent(tasks, AgentNames(tasks)[i]) != [] &&
      r[i] == Card(AgentNames(tasks)[i], OfAgent(tasks, AgentNames(tasks)[i]))
  {
    var names := AgentNames(tasks);
    seq(|names|, i requires 0 <= i < |names| =>
      AgentHasTasks(tasks, names[i]);
      Card(names[i], OfAgent(tasks, names[i])))
  }

  /** `agents`: the cards, then the search on name, task or state. */
  method Agents(tasks: seq<Task>, raw: string) returns (cards: seq<AgentCard>)
    ensures Blank(raw) ==> cards == AllCards(tasks)
    ensures !Blank(raw) ==> cards == Filter(AllCards(tasks), (a: AgentCard) => CardMatches(a, Query(raw)))
  {
    var names, groups := GroupByAgent(tasks);
    cards := seq(|names|, i requires 0 <= i < |names| =>
      AgentHasTasks(tasks, names[i]);
      Card(names[i], groups[names[i]]));
    assert cards == AllCards(tasks);
    var q := Query(raw);
    if q != "" {
      cards := Filter(cards, (a: AgentCard) => CardMatches(a, q));
    }
  }

  /** Every agent that has a task gets exactly one card. */
  lemma OneCardPerAgent(tasks: seq<Task>, name: string)
    requires name != "" && exists t :: t in tasks && t.aiAgent == name
    ensures exists i :: 0 <= i < |AllCards(tasks)| && AllCards(tasks)[i].name == name
    ensures forall i, j :: 0 <= i < j < |AllCards(tasks)| ==> AllCards(tasks)[i].name != AllCards(tasks)[j].name
  {
    var names := AgentNames(tasks);
    AgentNamesCover(tasks, name);
    var i :| 0 <= i < |names| && names[i] == name;
    assert AllCards(tasks)[i].name == name;
  }

  // ---------------------------------------------------------------------
  // Trend counts

  /** `trendDays`: never a single day. */
  function TrendDays(range: string): (n: nat)
    ensures n == 7 || n == 30
    ensures range == "today" || range == "7d" ==> n == 7
    ensures range != "today" && range != "7d" ==> n == 30
  {
    if range == "today" then 7 else if range == "7d" then 7 else 30
  }

  /** A finished task whose last-touched time parses and falls on `day`. */
  predicate DoneDay(t: Task, day: int, dayOf: int -> int) {
    t.status == DONE && LastTouch(t).Some? && dayOf(LastTouch(t).value) == day
  }

  /** Finished tasks whose last-touched time falls on `day`. */
  function DoneOn(tasks: seq<Task>, day: int, dayOf: int -> int): (n: nat)
    ensures n <= |tasks|
  {
    if tasks == [] then 0
    else
      var t := tasks[|tasks| - 1];
      DoneOn(tasks[..|tasks| - 1], day, dayOf) + (if DoneDay(t, day, dayOf) then 1 else 0)
  }

  /** The day's count is the number of positions holding a task finished
      and last touched that day: every such task is counted, once, and
      no other. */
  lemma {:induction false} DoneOnDays(tasks: seq<Task>, day: int, dayOf: int -> int)
    ensures DoneOn(tasks, day, dayOf) == |set i | 0 <= i < |tasks| && DoneDay(tasks[i], day, dayOf)|
  {
    var p := (t: Task) => DoneDay(t, day, dayOf);
    assert (set i | 0 <= i < |tasks| && DoneDay(tasks[i], day, dayOf)) == Positions(tasks, p);
    if tasks == [] {
      assert Positions(tasks, p) == {};
    } else {
      var n := |tasks| - 1;
      var init := tasks[..n];
      DoneOnDays(init, day, dayOf);
      assert (set i | 0 <= i < |init| && DoneDay(init[i], day, dayOf)) == Positions(init, p);
      assert tasks == init + [tasks[n]];
      PositionsSnoc(init, tasks[n], p);
    }
  }

  /** The count part of `buildDoneTrendPolyline`: the last `daysCount` days
      ending today, oldest first, and for each the finished tasks last
      touched that day. */
  method TrendCounts(tasks: seq<Task>, today: int, daysCount: int, dayOf: int -> int)
    returns (days: seq<int>, values: seq<nat>)
    ensures |days| == |values| == (if daysCount > 0 then daysCount else 0)
    ensures forall i :: 0 <= i < |days| ==> days[i] == today - (daysCount - 1) + i
    ensures forall i :: 0 <= i < |values| ==> values[i] == DoneOn(tasks, days[i], dayOf)
  {
    days := [];
    var i := daysCount - 1;
    while i >= 0
      invariant i <= daysCount - 1 && (i >= -1 || i == daysCount - 1)
      invariant |days| == daysCount - 1 - i
      invariant forall k :: 0 <= k < |days| ==> days[k] == today - (daysCount - 1) + k
    {
      days := days + [today - i];
      i := i - 1;
    }
    var counts: map<int, nat> := map d | d in days :: 0;
    for k := 0 to |tasks|
      invariant counts.Keys == set d | d in days
      invariant forall d :: d in counts ==> counts[d] == DoneOn(tasks[..k], d, dayOf)
    {
      var t := tasks[k];
      assert tasks[..k + 1][..k] == tasks[..k];
      if t.status == DONE && LastTouch(t).Some? {
        var key := dayOf(LastTouch(t).value);
        if key in counts {
          counts := counts[key := counts[key] + 1];
        }
      }
    }
    assert tasks[..|tasks|] == tasks;
    values := seq(|days|, j requires 0 <= j < |days| => assert days[j] in days; counts[days[j]]);
  }

  /** `Math.max(1, ...values)`. */
  function MaxY(values: seq<nat>): (m: nat)
    ensures m >= 1
    ensures forall v :: v in values ==> v <= m
    ensures m == 1 || m in values
  {
    if values == [] then 1
    else
      var rest := MaxY(values[1..]);
      assert values == [values[0]] + values[1..];
      if values[0] > rest then values[0] else rest
  }

  // ---------------------------------------------------------------------
  // Day keys

  function DigitChar(d: nat): char
    requires d < 10
  {
    ('0' as int + d) as char
  }

  /** `String(n)` for a whole number. */
  function Decimal(n: nat): (s: string)
    ensures |s| >= 1
    ensures n < 10 <==> |s| == 1
    ensures s[|s| - 1] == DigitChar(n % 10)
  {
    if n < 10 then [DigitChar(n)] else Decimal(n / 10) + [DigitChar(n % 10)]
  }

  lemma {:induction false} DecimalInjective(a: nat, b: nat)
    requires Decimal(a) == Decimal(b)
    ensures a == b
  {
    if a >= 10 && b >= 10 {
      var sa := Decimal(a);
      assert sa[..|sa| - 1] == Decimal(a / 10);
      assert Decimal(b)[..|sa| - 1] == Decimal(b / 10);
      DecimalInjective(a / 10, b / 10);
    }
  }

  /** `String(n).padStart(2, "0")`. */
  function Pad2(n: nat): (s: string)
    ensures n < 100 ==> |s| == 2
    ensures n < 10 ==> s == ['0', DigitChar(n)]
    ensures 10 <= n < 100 ==> s == [DigitChar(n / 10), DigitChar(n % 10)]
    ensures n >= 10 ==> s == Decimal(n)
  {
    if n < 10 then "0" + Decimal(n) else Decimal(n)
  }

  lemma Pad2Injective(a: nat, b: nat)
    requires a < 100 && b < 100 && Pad2(a) == Pad2(b)
    ensures a == b
  {
    if a < 10 && b < 10 {
      assert Pad2(a)[1..] == Decimal(a);
      assert Pad2(b)[1..] == Decimal(b);
      DecimalInjective(a, b);
    } else if a >= 10 && b >= 10 {
      DecimalInjective(a, b);
    } else if a < 10 {
      assert Pad2(a)[0] == '0';
      assert Pad2(b)[0] == Decimal(b / 10)[0];
      DecimalFirstNonZero(b / 10);
    } else {
      assert Pad2(b)[0] == '0';
      assert Pad2(a)[0] == Decimal(a / 10)[0];
      DecimalFirstNonZero(a / 10);
    }
  }

  lemma DecimalFirstNonZero(n: nat)
    requires 1 <= n < 10
    ensures Decimal(n)[0] != '0'
  {
  }

  /** `dayKeyLocal`: `YYYY-MM-DD`, month and day padded to two digits. */
  function DayKey(year: nat, month: nat, day: nat): (k: string)
    ensures month < 100 && day < 100 ==>
      var n := |Decimal(year)|;
      |k| == n + 6 && k[..n] == Decimal(year) && k[n] == '-' && k[n + 1..n + 3] == Pad2(month) &&
      k[n + 3] == '-' && k[n + 4..] == Pad2(day)
  {
    if month < 100 && day < 100 then
      JoinedParts(Decimal(year), Pad2(month), Pad2(day));
      Decimal(year) + "-" + Pad2(month) + "-" + Pad2(day)
    else
      Decimal(year) + "-" + Pad2(month) + "-" + Pad2(day)
  }

  /** Where the three parts sit in `a-b-c` when `b` and `c` have two
      characters each. */
  lemma JoinedParts(a: string, b: string, c: string)
    requires |b| == 2 && |c| == 2
    ensures var k := a + "-" + b + "-" + c; var n := |a|;
      |k| == n + 6 && k[..n] == a && k[n] == '-' && k[n + 1..n + 3] == b && k[n + 3] == '-' && k[n + 4..] == c
  {
  }

  /** Equal keys have equal year, month and day parts. */
  lemma DayKeyPartsEqual(y1: nat, m1: nat, d1: nat, y2: nat, m2: nat, d2: nat)
    requires m1 < 100 && d1 < 100 && m2 < 100 && d2 < 100
    requires DayKey(y1, m1, d1) == DayKey(y2, m2, d2)
    ensures Decimal(y1) == Decimal(y2) && Pad2(m1) == Pad2(m2) && Pad2(d1) == Pad2(d2)
  {
    var k := DayKey(y1, m1, d1);
    var n := |Decimal(y1)|;
    assert |Decimal(y2)| == n;
    assert Decimal(y1) == k[..n] == Decimal(y2);
    assert Pad2(m1) == k[n + 1..n + 3] == Pad2(m2);
    assert Pad2(d1) == k[n + 4..] == Pad2(d2);
  }

  /** Distinct calendar dates get distinct keys, so every trend bucket
      collects exactly one day. */
  lemma DayKeyInjective(y1: nat, m1: nat, d1: nat, y2: nat, m2: nat, d2: nat)
    requires 1 <= m1 <= 12 && 1 <= d1 <= 31 && 1 <= m2 <= 12 && 1 <= d2 <= 31
    requires DayKey(y1, m1, d1) == DayKey(y2, m2, d2)
    ensures y1 == y2 && m1 == m2 && d1 == d2
  {
    DayKeyPartsEqual(y1, m1, d1, y2, m2, d2);
    DecimalInjective(y1, y2);
    Pad2Injective(m1, m2);
    Pad2Injective(d1, d2);
  }
}

=== FILE: i18n.dfy ===
/** The interface dictionaries and `translate`: a key is looked up in the
    chosen language, then in English, and is shown as it is when neither
    has it. */
module I18n {

  const ENGLISH := "en"

  /** The English dictionary. */
  const EN: map<string, string> := map[
      "nav.account" := "Account",
      "nav.settings" := "Settings",
      "nav.profile" := "Profile",
      "nav.preferences" := "Preferences",
      "nav.security" := "Security",
      "nav.workspaces" := "Workspaces",
      "nav.kanban" := "Kanban",
      "nav.back" := "Back",
      "nav.logout" := "Logout",
      "prefs.language_region" := "Language & region",
      "prefs.language" := "Language",
      "prefs.timezone" := "Timezone",
      "prefs.appearance" := "Appearance",
      "prefs.theme" := "Theme",
      "prefs.save" := "Save preferences",
      "prefs.discard" := "Discard",
      "org.title" := "Workspaces",
      "org.subtitle" := "Create or join a workspace. Open one to manage shared backlog and tasks.",
      "org.quick" := "Quick actions",
      "org.go_kanban" := "Go to Kanban",
      "org.create" := "Create workspace",
      "org.join" := "Join workspace",
      "org.search" := "Search workspaces…",
      "org.sort" := "Sort workspaces"
    ]

  /** The Chinese dictionary. */
  const ZH: map<string, string> := map[
      "nav.account" := "账户",
      "nav.settings" := "设置",
      "nav.profile" := "个人资料",
      "nav.preferences" := "偏好设置",
      "nav.security" := "安全",
      "nav.workspaces" := "工作区",
      "nav.kanban" := "看板",
      "nav.back" := "返回",
      "nav.logout" := "登出",
      "prefs.language_region" := "语言与地区",
      "prefs.language" := "语言",
      "prefs.timezone" := "时区",
      "prefs.appearance" := "外观",
      "prefs.theme" := "主题",
      "prefs.save" := "保存偏好",
      "prefs.discard" := "放弃更改",
      "org.title" := "工作区",
      "org.subtitle" := "创建或加入工作区。打开后可管理共享待办与任务。",
      "org.quick" := "快捷操作",
      "org.go_kanban" := "前往看板",
      "org.create" := "创建工作区",
      "org.join" := "加入工作区",
      "org.search" := "搜索工作区…",
      "org.sort" := "排序工作区"
    ]

  /** The Malay dictionary. */
  const MS: map<string, string> := map[
      "nav.account" := "Akaun",
      "nav.settings" := "Tetapan",
      "nav.profile" := "Profil",
      "nav.preferences" := "Keutamaan",
      "nav.security" := "Keselamatan",
      "nav.workspaces" := "Ruang kerja",
      "nav.kanban" := "Kanban",
      "nav.back" := "Kembali",
      "nav.logout" := "Log keluar",
      "prefs.language_region" := "Bahasa & rantau",
      "prefs.language" := "Bahasa",
      "prefs.timezone" := "Zon masa",
      "prefs.appearance" := "Paparan",
      "prefs.theme" := "Tema",
      "prefs.save" := "Simpan keutamaan",
      "prefs.discard" := "Buang",
      "org.title" := "Ruang kerja",
      "org.subtitle" := "Cipta atau sertai ruang kerja. Buka untuk urus backlog dan tugasan bersama.",
      "org.quick" := "Tindakan pantas",
      "org.go_kanban" := "Pergi ke Kanban",
      "org.create" := "Cipta ruang kerja",
      "org.join" := "Sertai ruang kerja",
      "org.search" := "Cari ruang kerja…",
      "org.sort" := "Isih ruang kerja"
    ]

  /** The Tamil dictionary. */
  const TA: map<string, string> := map[
      "nav.account" := "கணக்கு",
      "nav.settings" := "அமைப்புகள்",
      "nav.profile" := "சுயவிவரம்",
      "nav.preferences" := "விருப்பங்கள்",
      "nav.security" := "பாதுகாப்பு",
      "nav.workspaces" := "பணிமனை",
      "nav.kanban" := "கன்பான்",
      "nav.back" := "பின் செல்ல",
      "nav.logout" := "வெளியேறு",
      "prefs.language_region" := "மொழி & பகுதி",
      "prefs.language" := "மொழி",
      "prefs.timezone" := "நேர மண்டலம்",
      "prefs.appearance" := "தோற்றம்",
      "prefs.theme" := "தீம்",
      "prefs.save" := "விருப்பங்களை சேமி",
      "prefs.discard" := "நீக்கு",
      "org.title" := "பணிமனைகள்",
      "org.subtitle" := "பணிமனையை உருவாக்கவும் அல்லது சேரவும். பகிரப்பட்ட backlog மற்றும் பணிகளை நிர்வகிக்க திறக்கவும்.",
      "org.quick" := "விரைவு செயல்கள்",
      "org.go_kanban" := "கன்பானுக்கு செல்",
      "org.create" := "பணிமனை உருவாக்கு",
      "org.join" := "பணிமனையில் சேர",
      "org.search" := "பணிமனை தேடு…",
      "org.sort" := "பணிமனை வரிசைப்படுத்து"
    ]

  /** `DICTS`, by locale code. */
  const DICTS: map<string, map<string, string>> := map["en" := EN, "zh" := ZH, "ms" := MS, "ta" := TA]

  /** `translate(locale, key)` against any dictionary table: the locale's
      entry if the table has that locale, else English; then the English
      entry; then the key itself. */
  function TranslateIn(dicts: map<string, map<string, string>>, locale: string, key: string): (r: string)
    ensures locale in dicts && key in dicts[locale] ==> r == dicts[locale][key]
    ensures (locale !in dicts || key !in dicts[locale]) && ENGLISH in dicts && key in dicts[ENGLISH] ==>
      r == dicts[ENGLISH][key]
    ensures (locale !in dicts || key !in dicts[locale]) && (ENGLISH !in dicts || key !in dicts[ENGLISH]) ==>
      r == key
  {
    var lang := if locale in dicts then locale else ENGLISH;
    if lang in dicts && key in dicts[lang] then dicts[lang][key]
    else if ENGLISH in dicts && key in dicts[ENGLISH] then dicts[ENGLISH][key]
    else key
  }

  /** `translate(locale, key)` on the shipped dictionaries. */
  function Translate(locale: string, key: string): (r: string)
    ensures key !in EN ==> r == key
    ensures locale in DICTS && key in EN ==> r == DICTS[locale][key]
    ensures locale !in DICTS && key in EN ==> r == EN[key]
  {
    SameKeys();
    TranslateIn(DICTS, locale, key)
  }

  /** A locale the table does not have reads exactly like English. */
  lemma UnknownLocaleIsEnglish(dicts: map<string, map<string, string>>, locale: string, key: string)
    requires locale !in dicts
    ensures TranslateIn(dicts, locale, key) == TranslateIn(dicts, ENGLISH, key)
  {
  }

  /** The value returned is always one of the table's strings for that key
      or the key itself. */
  lemma TranslateSource(dicts: map<string, map<string, string>>, locale: string, key: string)
    ensures var r := TranslateIn(dicts, locale, key);
      r == key || exists l :: l in dicts && key in dicts[l] && dicts[l][key] == r
  {
  }

  /** The four shipped dictionaries have the same keys. */
  lemma SameKeys()
    ensures ZH.Keys == EN.Keys && MS.Keys == EN.Keys && TA.Keys == EN.Keys
    ensures forall l :: l in DICTS ==> DICTS[l].Keys == EN.Keys
  {
  }
}

=== FILE: kanban.dfy ===
/** The Kanban board page: three status columns filled from the server's
    snapshots, drag-and-drop between columns, and the add / edit / select /
    delete interactions, each recorded as the socket events it sends. */
module Kanban {
  import opened Common
  import opened Tasks

  /** An event the page sends to the server. */
  datatype Sent =
    | AddTask(title: string)
    | TaskMoved(taskId: string, newStatus: string)
    | RenameTask(taskId: string, newTitle: string)
    | DeleteTask(taskId: string)

  /** A drag end-point: the column (`droppableId`) and the position in it. */
  datatype Location = Location(droppableId: string, index: int)

  const ADD_ALERT := "Please enter a task title!"

  predicate IsColumn(c: string) {
    c == TODO || c == PROGRESS || c == DONE
  }

  /** `tasks.filter(task => task.status === status)`. */
  function Column(tasks: seq<Task>, status: string): (r: seq<Task>)
    ensures |r| <= |tasks|
    ensures forall t :: t in r <==> t in tasks && t.status == status
  {
    if tasks == [] then []
    else (if tasks[0].status == status then [tasks[0]] else []) + Column(tasks[1..], status)
  }

  /** A column keeps the input order: the column of two lists joined is
      the two columns joined. */
  lemma {:induction false} ColumnAppend(a: seq<Task>, b: seq<Task>, status: string)
    ensures Column(a + b, status) == Column(a, status) + Column(b, status)
  {
    if a == [] {
      assert a + b == b;
    } else {
      assert (a + b)[1..] == a[1..] + b;
      ColumnAppend(a[1..], b, status);
    }
  }

  /** Tasks whose status is none of the three columns. */
  function Unshown(tasks: seq<Task>): nat {
    if tasks == [] then 0
    else (if IsColumn(tasks[0].status) then 0 else 1) + Unshown(tasks[1..])
  }

  /** The three columns hold every task except those with another status:
      none is shown twice and only those are dropped. */
  lemma {:induction false} ColumnsPartition(tasks: seq<Task>)
    ensures |Column(tasks, TODO)| + |Column(tasks, PROGRESS)| + |Column(tasks, DONE)| + Unshown(tasks) == |tasks|
  {
    if tasks != [] {
      ColumnsPartition(tasks[1..]);
    }
  }

  /** `splice(start, …)` reads a negative start from the end and caps it
      at the length. */
  function SpliceStart(start: int, len: nat): (k: nat)
    ensures k <= len
    ensures 0 <= start <= len ==> k == start
    ensures start > len ==> k == len
  {
    if start < 0 then (if len + start < 0 then 0 else len + start)
    else if start > len then len
    else start
  }

  /** `s.splice(i, 1)`: the element at `i` removed. */
  function RemoveAt(s: seq<Task>, i: nat): (r: seq<Task>)
    requires i < |s|
    ensures |r| == |s| - 1
    ensures multiset(r) + multiset{s[i]} == multiset(s)
    ensures forall k :: 0 <= k < i ==> r[k] == s[k]
    ensures forall k :: i <= k < |r| ==> r[k] == s[k + 1]
  {
    assert s == s[..i] + [s[i]] + s[i + 1..];
    s[..i] + s[i + 1..]
  }

  /** `s.splice(i, 0, x)`: `x` placed at `i`, the rest shifted right. */
  function InsertAt(s: seq<Task>, i: nat, x: Task): (r: seq<Task>)
    requires i <= |s|
    ensures |r| == |s| + 1 && r[i] == x
    ensures multiset(r) == multiset(s) + multiset{x}
    ensures forall k :: 0 <= k < i ==> r[k] == s[k]
    ensures forall k :: i < k < |r| ==> r[k] == s[k - 1]
  {
    assert s == s[..i] + s[i..];
    s[..i] + [x] + s[i..]
  }

  class Board {
    var columns: map<string, seq<Task>>
    var showAddPopup: bool
    var newTaskTitle: string
    var selectedTask: Option<Task>
    var editingTaskId: Option<string>
    var editingTitle: string
    var sent: seq<Sent>
    var alerts: seq<string>

    ghost predicate Valid()
      reads this
    {
      columns.Keys == {TODO, PROGRESS, DONE}
    }

    constructor ()
      ensures Valid()
      ensures columns == map[TODO := [], PROGRESS := [], DONE := []]
      ensures !showAddPopup && newTaskTitle == "" && selectedTask == None
      ensures editingTaskId == None && editingTitle == "" && sent == [] && alerts == []
    {
      columns := map[TODO := [], PROGRESS := [], DONE := []];
      showAddPopup := false;
      newTaskTitle := "";
      selectedTask := None;
      editingTaskId := None;
      editingTitle := "";
      sent := [];
      alerts := [];
    }

    /** `updateColumns(tasks)`, run on every `loadTasks` / `updateTasks`. */
    method UpdateColumns(tasks: seq<Task>)
      modifies this`columns
      ensures Valid()
      ensures columns == map[TODO := Column(tasks, TODO), PROGRESS := Column(tasks, PROGRESS), DONE := Column(tasks, DONE)]
    {
      columns := map[TODO := Column(tasks, TODO), PROGRESS := Column(tasks, PROGRESS), DONE := Column(tasks, DONE)];
    }

    /** `onDragEnd(result)`: a drop in another column moves the card there
        with its status rewritten, then reports the move. The drag library
        supplies real columns and a source index inside the source column. */
    method OnDragEnd(source: Location, destination: Option<Location>)
      requires Valid() && IsColumn(source.droppableId)
      requires 0 <= source.index < |columns[source.droppableId]|
      requires destination.Some? ==> IsColumn(destination.value.droppableId)
      modifies this`columns, this`sent
      ensures Valid()
      ensures destination.None? || destination.value.droppableId == source.droppableId ==>
        columns == old(columns) && sent == old(sent)
      ensures destination.Some? && destination.value.droppableId != source.droppableId ==>
        var src := source.droppableId;
        var dst := destination.value.droppableId;
        var moved := old(columns)[src][source.index];
        var at := SpliceStart(destination.value.index, |old(columns)[dst]|);
        columns == old(columns)[src := RemoveAt(old(columns)[src], source.index)]
                               [dst := InsertAt(old(columns)[dst], at, moved.(status := dst))] &&
        sent == old(sent) + [TaskMoved(moved.id, dst)]
    {
      if destination.None? {
        return;
      }
      var sourceCol := source.droppableId;
      var destCol := destination.value.droppableId;
      if sourceCol == destCol {
        return;
      }
      var before := columns;
      var movedTask: Task := before[sourceCol][source.index];
      var at := SpliceStart(destination.value.index, |before[destCol]|);
      var removed := RemoveAt(before[sourceCol], source.index);
      var inserted := InsertAt(before[destCol], at, movedTask.(status := destCol));
      columns := before[sourceCol := removed][destCol := inserted];
      sent := sent + [TaskMoved(movedTask.id, destCol)];
    }

    /** `handleAddTask()`: a blank title raises an alert and sends nothing;
        otherwise the title is sent as typed and the popup resets. */
    method HandleAddTask()
      modifies this`sent, this`alerts, this`newTaskTitle, this`showAddPopup
      ensures Blank(old(newTaskTitle)) ==>
        alerts == old(alerts) + [ADD_ALERT] && sent == old(sent) &&
        newTaskTitle == old(newTaskTitle) && showAddPopup == old(showAddPopup)
      ensures !Blank(old(newTaskTitle)) ==>
        sent == old(sent) + [AddTask(old(newTaskTitle))] && alerts == old(alerts) &&
        newTaskTitle == "" && !showAddPopup
    {
      if Blank(newTaskTitle) {
        alerts := alerts + [ADD_ALERT];
        return;
      }
      sent := sent + [AddTask(newTaskTitle)];
      newTaskTitle := "";
      showAddPopup := false;
    }

    /** `handleTaskClick(task)`: only a finished task opens its output. */
    method HandleTaskClick(task: Task)
      modifies this`selectedTask
      ensures task.status == DONE ==> selectedTask == Some(task)
      ensures task.status != DONE ==> selectedTask == old(selectedTask)
    {
      if task.status == DONE {
        selectedTask := Some(task);
      }
    }

    /** `startEditing(task)`: only a to-do task can be renamed. */
    method StartEditing(task: Task)
      modifies this`editingTaskId, this`editingTitle
      ensures task.status == TODO ==> editingTaskId == Some(task.id) && editingTitle == task.title
      ensures task.status != TODO ==> editingTaskId == old(editingTaskId) && editingTitle == old(editingTitle)
    {
      if task.status != TODO {
        return;
      }
      editingTaskId := Some(task.id);
      editingTitle := task.title;
    }

    /** `saveEdit(taskId)`: a blank title only closes the editor (the typed
        text stays); otherwise the rename is sent as typed. */
    method SaveEdit(taskId: string)
      modifies this`sent, this`editingTaskId, this`editingTitle
      ensures editingTaskId == None
      ensures Blank(old(editingTitle)) ==> sent == old(sent) && editingTitle == old(editingTitle)
      ensures !Blank(old(editingTitle)) ==>
        sent == old(sent) + [RenameTask(taskId, old(editingTitle))] && editingTitle == ""
    {
      if Blank(editingTitle) {
        editingTaskId := None;
        return;
      }
      sent := sent + [RenameTask(taskId, editingTitle)];
      editingTaskId := None;
      editingTitle := "";
    }

    /** `deleteTask(taskId)`: sent only once the user confirms. */
    method DeleteTaskConfirmed(taskId: string, confirmed: bool)
      modifies this`sent
      ensures sent == old(sent) + (if confirmed then [DeleteTask(taskId)] else [])
    {
      if confirmed {
        sent := sent + [DeleteTask(taskId)];
      }
    }
  }

  /** A cross-column drag keeps the number of cards and every card: the
      two columns together lose the moved card and gain it with its new
      status, and the third column is untouched. */
  lemma DragKeepsCards(src: seq<Task>, dst: seq<Task>, i: nat, at: nat, status: string)
    requires i < |src| && at <= |dst|
    ensures |RemoveAt(src, i)| + |InsertAt(dst, at, src[i].(status := status))| == |src| + |dst|
    ensures multiset(RemoveAt(src, i)) + multiset(InsertAt(dst, at, src[i].(status := status))) + multiset{src[i]}
         == multiset(src) + multiset(dst) + multiset{src[i].(status := status)}
  {
  }

  /** The drag's effect on the whole board: the three column sizes still
      add up to the same total, the other column is untouched. */
  lemma DragKeepsTotal(cols: map<string, seq<Task>>, src: string, dst: string, i: nat, at: nat, status: string)
    requires cols.Keys == {TODO, PROGRESS, DONE} && src in cols && dst in cols && src != dst
    requires i < |cols[src]| && at <= |cols[dst]|
    ensures var after := cols[src := RemoveAt(cols[src], i)][dst := InsertAt(cols[dst], at, cols[src][i].(status := status))];
      |after[TODO]| + |after[PROGRESS]| + |after[DONE]| == |cols[TODO]| + |cols[PROGRESS]| + |cols[DONE]| &&
      forall c :: c in cols && c != src && c != dst ==> after[c] == cols[c]
  {
  }
}

=== FILE: order.dfy ===
/** Ordering of list entries: strings compared character by character
    (the model's stand-in for `localeCompare`), a two-level sort key, and an
    insertion sort by that key, proved stable. */
module Order {

  /** `a` sorts no later than `b`: character codes compared left to right,
      a proper prefix first. */
  predicate StrLe(a: string, b: string) {
    if a == [] then true
    else if b == [] then false
    else if a[0] != b[0] then a[0] < b[0]
    else StrLe(a[1..], b[1..])
  }

  lemma {:induction false} StrLeTotal(a: string, b: string)
    ensures StrLe(a, b) || StrLe(b, a)
  {
    if a != [] && b != [] && a[0] == b[0] {
      StrLeTotal(a[1..], b[1..]);
    }
  }

  lemma {:induction false} StrLeTrans(a: string, b: string, c: string)
    requires StrLe(a, b) && StrLe(b, c)
    ensures StrLe(a, c)
  {
    if a != [] && b != [] && c != [] && a[0] == b[0] && b[0] == c[0] {
      StrLeTrans(a[1..], b[1..], c[1..]);
    }
  }

  lemma {:induction false} StrLeAntisymmetric(a: string, b: string)
    requires StrLe(a, b) && StrLe(b, a)
    ensures a == b
  {
    if a != [] && b != [] {
      StrLeAntisymmetric(a[1..], b[1..]);
      assert a == [a[0]] + a[1..];
      assert b == [b[0]] + b[1..];
    }
  }

  /** A sort key: a rank compared first, then a name. */
  datatype Key = Key(rank: int, name: string)

  predicate KeyLe(a: Key, b: Key) {
    a.rank < b.rank || (a.rank == b.rank && StrLe(a.name, b.name))
  }

  lemma KeyLeTotal(a: Key, b: Key)
    ensures KeyLe(a, b) || KeyLe(b, a)
  {
    StrLeTotal(a.name, b.name);
  }

  lemma KeyLeTrans(a: Key, b: Key, c: Key)
    requires KeyLe(a, b) && KeyLe(b, c)
    ensures KeyLe(a, c)
  {
    if a.rank == b.rank && b.rank == c.rank {
      StrLeTrans(a.name, b.name, c.name);
    }
  }

  /** Neighbours are in key order. */
  predicate SortedBy<T>(s: seq<T>, key: T -> Key) {
    forall i :: 0 < i < |s| ==> KeyLe(key(s[i - 1]), key(s[i]))
  }

  /** Places `x` before the first element whose key is not smaller, so that
      it goes ahead of the equal keys that came after it in the input. */
  function Insert<T>(x: T, s: seq<T>, key: T -> Key): (r: seq<T>)
    ensures |r| == |s| + 1 && multiset(r) == multiset(s) + multiset{x}
    ensures r[0] == x || (s != [] && r[0] == s[0])
    ensures SortedBy(s, key) ==> SortedBy(r, key)
  {
    if s == [] then [x]
    else if KeyLe(key(x), key(s[0])) then [x] + s
    else
      KeyLeTotal(key(x), key(s[0]));
      assert s == [s[0]] + s[1..];
      [s[0]] + Insert(x, s[1..], key)
  }

  /** `array.sort` with a comparator on keys, by insertion. */
  function SortBy<T>(s: seq<T>, key: T -> Key): (r: seq<T>)
    ensures multiset(r) == multiset(s) && |r| == |s|
    ensures SortedBy(r, key)
  {
    if s == [] then []
    else
      assert s == [s[0]] + s[1..];
      Insert(s[0], SortBy(s[1..], key), key)
  }

  /** The elements of `s` whose key is `k`, in their order in `s`. A sort
      is stable when it leaves this list alone for every key. */
  function WithKey<T>(s: seq<T>, key: T -> Key, k: Key): seq<T> {
    if s == [] then [] else (if key(s[0]) == k then [s[0]] else []) + WithKey(s[1..], key, k)
  }

  lemma {:induction false} WithKeyAppend<T>(a: seq<T>, b: seq<T>, key: T -> Key, k: Key)
    ensures WithKey(a + b, key, k) == WithKey(a, key, k) + WithKey(b, key, k)
  {
    if a == [] {
      assert a + b == b;
    } else {
      assert (a + b)[0] == a[0] && (a + b)[1..] == a[1..] + b;
      WithKeyAppend(a[1..], b, key, k);
    }
  }

  /** The first element with key `k` heads the list of those elements. */
  lemma {:induction false} WithKeyFirst<T>(s: seq<T>, key: T -> Key, k: Key, i: nat)
    requires i < |s| && key(s[i]) == k
    requires forall j :: 0 <= j < i ==> key(s[j]) != k
    ensures WithKey(s, key, k) != [] && WithKey(s, key, k)[0] == s[i]
  {
    if i > 0 {
      assert key(s[0]) != k;
      forall j | 0 <= j < i - 1
        ensures key(s[1..][j]) != k
      {
        assert s[1..][j] == s[j + 1];
      }
      WithKeyFirst(s[1..], key, k, i - 1);
    }
  }

  lemma KeyLeReflexive(a: Key)
    ensures KeyLe(a, a)
  {
    StrLeTotal(a.name, a.name);
  }

  /** `Insert` passes over elements of other keys only, so `x` lands ahead
      of every element with its own key. */
  lemma {:induction false} InsertWithKey<T>(x: T, s: seq<T>, key: T -> Key, k: Key)
    ensures WithKey(Insert(x, s, key), key, k) == (if key(x) == k then [x] else []) + WithKey(s, key, k)
  {
    if s == [] {
    } else if KeyLe(key(x), key(s[0])) {
      var r := [x] + s;
      assert r[0] == x && r[1..] == s;
    } else {
      KeyLeReflexive(key(x));
      assert key(s[0]) != key(x);
      var rest := Insert(x, s[1..], key);
      var r := [s[0]] + rest;
      assert Insert(x, s, key) == r;
      assert r[0] == s[0] && r[1..] == rest;
      var head := if key(s[0]) == k then [s[0]] else [];
      var mine := if key(x) == k then [x] else [];
      assert WithKey(r, key, k) == head + WithKey(rest, key, k);
      assert WithKey(s, key, k) == head + WithKey(s[1..], key, k);
      InsertWithKey(x, s[1..], key, k);
      assert head == [] || mine == [];
    }
  }

  /** `SortBy` is stable: elements with equal keys keep their input order. */
  lemma {:induction false} SortByStable<T>(s: seq<T>, key: T -> Key, k: Key)
    ensures WithKey(SortBy(s, key), key, k) == WithKey(s, key, k)
  {
    if s != [] {
      SortByStable(s[1..], key, k);
      InsertWithKey(s[0], SortBy(s[1..], key), key, k);
    }
  }

  /** In a sorted sequence every earlier key is no larger than every later one. */
  lemma {:induction false} SortedPairs<T>(s: seq<T>, key: T -> Key)
    requires SortedBy(s, key)
    ensures forall i, j :: 0 <= i < j < |s| ==> KeyLe(key(s[i]), key(s[j]))
  {
    forall i, j | 0 <= i < j < |s|
      ensures KeyLe(key(s[i]), key(s[j]))
    {
      KeyLeTotal(key(s[i]), key(s[i]));
      var k := i;
      while k < j
        invariant i <= k <= j
        invariant KeyLe(key(s[i]), key(s[k]))
      {
        KeyLeTrans(key(s[i]), key(s[k]), key(s[k + 1]));
        k := k + 1;
      }
    }
  }
}

=== FILE: organisation.dfy ===
/** Workspaces ("organisations") and their membership rows: creating,
    joining, kicking, leaving and deleting, run against in-memory copies of
    the `organisations` and `organisation_members` tables, plus the two
    read-side views (a user's workspaces, a workspace's members). */
module Organisation {
  import opened Common
  import opened Order

  const PIN_CHARS := "ABCDEFGHIJKLMNOPQRSTUVWXYZ0123456789"
  const PIN_LENGTH := 6
  const OWNER := "owner"
  const DEVELOPER := "developer"
  const DEFAULT_AVATAR := "#000"
  /** The error a `maybeSingle` query reports when several rows match; the
      exact wording is the database client's. */
  const MULTIPLE_ROWS := "multiple rows returned"

  datatype Org = Org(id: string, name: string, pin: string, ownerId: string)
  datatype Member = Member(orgId: string, userId: string, role: string, ownerId: string)

  predicate IsPin(pin: string) {
    |pin| == PIN_LENGTH && forall i :: 0 <= i < |pin| ==> pin[i] in PIN_CHARS
  }

  /** `generateRandomPin(length)`: `length` characters drawn from A-Z0-9
      (none for a length that is not positive). The random draw is a
      nondeterministic choice. */
  method GenerateRandomPin(length: int) returns (pin: string)
    ensures |pin| == (if length > 0 then length else 0)
    ensures forall i :: 0 <= i < |pin| ==> pin[i] in PIN_CHARS
  {
    pin := "";
    var i := 0;
    while i < length
      invariant 0 <= i <= (if length > 0 then length else 0) && |pin| == i
      invariant forall k :: 0 <= k < |pin| ==> pin[k] in PIN_CHARS
    {
      var j :| 0 <= j < |PIN_CHARS|;
      pin := pin + [PIN_CHARS[j]];
      i := i + 1;
    }
  }

  // ---------------------------------------------------------------------
  // Table queries

  predicate OrgIdsDistinct(orgs: seq<Org>) {
    forall i, j :: 0 <= i < j < |orgs| ==> orgs[i].id != orgs[j].id
  }

  /** No user holds two membership rows in the same workspace. */
  predicate MembershipsUnique(members: seq<Member>) {
    forall i, j :: 0 <= i < j < |members| ==>
      !(members[i].orgId == members[j].orgId && members[i].userId == members[j].userId)
  }

  predicate IsMember(members: seq<Member>, orgId: string, userId: string) {
    exists m :: m in members && m.orgId == orgId && m.userId == userId
  }

  /** The workspaces with this name and PIN, in table order. */
  function Matching(orgs: seq<Org>, name: string, pin: string): (r: seq<Org>)
    ensures |r| <= |orgs|
    ensures forall o :: o in r <==> o in orgs && o.name == name && o.pin == pin
  {
    if orgs == [] then []
    else (if orgs[0].name == name && orgs[0].pin == pin then [orgs[0]] else []) + Matching(orgs[1..], name, pin)
  }

  /** The owner of the workspace with this id, if there is one. */
  function OwnerOf(orgs: seq<Org>, id: string): (r: Option<string>)
    ensures r.None? <==> forall o :: o in orgs ==> o.id != id
    ensures r.Some? ==> Org(id, OrgName(orgs, id), OrgPin(orgs, id), r.value) in orgs
  {
    if orgs == [] then None
    else if orgs[0].id == id then Some(orgs[0].ownerId)
    else OwnerOf(orgs[1..], id)
  }

  function OrgName(orgs: seq<Org>, id: string): string {
    if orgs == [] then "" else if orgs[0].id == id then orgs[0].name else OrgName(orgs[1..], id)
  }

  function OrgPin(orgs: seq<Org>, id: string): string {
    if orgs == [] then "" else if orgs[0].id == id then orgs[0].pin else OrgPin(orgs[1..], id)
  }

  /** The membership rows left after deleting `userId` from `orgId`. */
  function WithoutMember(members: seq<Member>, orgId: string, userId: string): (r: seq<Member>)
    ensures |r| <= |members|
    ensures forall m :: m in r <==> m in members && !(m.orgId == orgId && m.userId == userId)
  {
    if members == [] then []
    else
      var keep := !(members[0].orgId == orgId && members[0].userId == userId);
      (if keep then [members[0]] else []) + WithoutMember(members[1..], orgId, userId)
  }

  /** Deleting rows keeps every remaining membership unique. */
  lemma {:induction false} WithoutMemberUnique(members: seq<Member>, orgId: string, userId: string)
    requires MembershipsUnique(members)
    ensures MembershipsUnique(WithoutMember(members, orgId, userId))
  {
    if members != [] {
      var rest := WithoutMember(members[1..], orgId, userId);
      assert MembershipsUnique(members[1..]) by {
        forall i, j | 0 <= i < j < |members[1..]|
          ensures !(members[1..][i].orgId == members[1..][j].orgId && members[1..][i].userId == members[1..][j].userId)
        {
          assert members[1..][i] == members[i + 1] && members[1..][j] == members[j + 1];
        }
      }
      WithoutMemberUnique(members[1..], orgId, userId);
      forall m | m in rest
        ensures !(m.orgId == members[0].orgId && m.userId == members[0].userId)
      {
        var j :| 0 <= j < |members[1..]| && members[1..][j] == m;
        assert members[j + 1] == m;
      }
      ConsUnique(members[0], rest);
    }
  }

  lemma ConsUnique(x: Member, s: seq<Member>)
    requires MembershipsUnique(s)
    requires forall m :: m in s ==> !(m.orgId == x.orgId && m.userId == x.userId)
    ensures MembershipsUnique([x] + s)
  {
    var t := [x] + s;
    forall i, j | 0 <= i < j < |t|
      ensures !(t[i].orgId == t[j].orgId && t[i].userId == t[j].userId)
    {
      if i == 0 {
        assert t[j] in s;
      } else {
        assert t[i] == s[i - 1] && t[j] == s[j - 1];
      }
    }
  }

  /** The workspace rows left after deleting the row with this id. */
  function WithoutOrg(orgs: seq<Org>, id: string): (r: seq<Org>)
    ensures |r| <= |orgs|
    ensures forall o :: o in r <==> o in orgs && o.id != id
  {
    if orgs == [] then []
    else (if orgs[0].id != id then [orgs[0]] else []) + WithoutOrg(orgs[1..], id)
  }

  /** Deleting a workspace row keeps the remaining ids distinct. */
  lemma {:induction false} WithoutOrgDistinct(orgs: seq<Org>, id: string)
    requires OrgIdsDistinct(orgs)
    ensures OrgIdsDistinct(WithoutOrg(orgs, id))
  {
    if orgs != [] {
      var rest := WithoutOrg(orgs[1..], id);
      assert OrgIdsDistinct(orgs[1..]) by {
        forall i, j | 0 <= i < j < |orgs[1..]|
          ensures orgs[1..][i].id != orgs[1..][j].id
        {
          assert orgs[1..][i] == orgs[i + 1] && orgs[1..][j] == orgs[j + 1];
        }
      }
      WithoutOrgDistinct(orgs[1..], id);
      var t := (if orgs[0].id != id then [orgs[0]] else []) + rest;
      forall i, j | 0 <= i < j < |t|
        ensures t[i].id != t[j].id
      {
        if orgs[0].id != id && i == 0 {
          assert t[j] in rest;
          var k :| 0 <= k < |orgs[1..]| && orgs[1..][k] == t[j];
          assert orgs[k + 1] == t[j];
        }
      }
    }
  }

  // ---------------------------------------------------------------------
  // Writes

  class Directory {
    var orgs: seq<Org>
    var members: seq<Member>

    ghost predicate Valid()
      reads this
    {
      OrgIdsDistinct(orgs) && MembershipsUnique(members)
    }

    constructor (orgs0: seq<Org>, members0: seq<Member>)
      requires OrgIdsDistinct(orgs0) && MembershipsUnique(members0)
      ensures Valid() && orgs == orgs0 && members == members0
    {
      orgs := orgs0;
      members := members0;
    }

    /** `createOrganisation(name, owner_id)`. `newId` is the id the database
        assigns; `orgError` is the insert's error ("" when it succeeds) and
        `memberInsertOk` whether the owner's membership insert, whose
        outcome the code ignores, went through. */
    method CreateOrganisation(name: string, ownerId: string, newId: string, orgError: string, memberInsertOk: bool)
      returns (r: Result<Org>)
      requires Valid()
      requires forall o :: o in orgs ==> o.id != newId
      requires forall m :: m in members ==> m.orgId != newId
      modifies this
      ensures Valid()
      ensures name == "" || ownerId == "" ==>
        r == Err("Missing details") && orgs == old(orgs) && members == old(members)
      ensures name != "" && ownerId != "" && orgError != "" ==>
        r == Err(orgError) && orgs == old(orgs) && members == old(members)
      ensures name != "" && ownerId != "" && orgError == "" ==>
        r.Ok? && r.value.id == newId && r.value.name == Trim(name) &&
        r.value.ownerId == ownerId && IsPin(r.value.pin) &&
        orgs == old(orgs) + [r.value] &&
        members == old(members) + (if memberInsertOk then [Member(newId, ownerId, OWNER, ownerId)] else [])
    {
      if name == "" || ownerId == "" {
        return Err("Missing details");
      }
      var pin := GenerateRandomPin(PIN_LENGTH);
      var org := Org(newId, Trim(name), pin, ownerId);
      if orgError != "" {
        return Err(orgError);
      }
      orgs := orgs + [org];
      if memberInsertOk {
        members := members + [Member(newId, ownerId, OWNER, ownerId)];
      }
      r := Ok(org);
    }

    /** `joinOrganisation(name, pin, user_id)`: look the workspace up by
        trimmed name and PIN, refuse an existing member, else add the user
        as a developer under the workspace's owner. `insertError` is the
        insert's error ("" when it succeeds). */
    method JoinOrganisation(name: string, pin: string, userId: string, insertError: string)
      returns (r: Result<Member>)
      requires Valid()
      modifies this`members
      ensures Valid()
      ensures r.Err? ==> members == old(members)
      ensures name == "" || pin == "" || userId == "" ==> r == Err("Missing fields")
      ensures name != "" && pin != "" && userId != "" ==>
        var found := Matching(orgs, Trim(name), Trim(pin));
        if |found| > 1 then r == Err(MULTIPLE_ROWS)
        else if found == [] then r == Err("Invalid name or PIN")
        else if IsMember(old(members), found[0].id, userId) then r == Err("Already a member")
        else if insertError != "" then r == Err(insertError)
        else
          r == Ok(Member(found[0].id, userId, DEVELOPER, found[0].ownerId)) &&
          members == old(members) + [r.value]
    {
      if name == "" || pin == "" || userId == "" {
        return Err("Missing fields");
      }
      var found := Matching(orgs, Trim(name), Trim(pin));
      if |found| > 1 {
        return Err(MULTIPLE_ROWS);
      }
      if found == [] {
        return Err("Invalid name or PIN");
      }
      var org := found[0];
      if IsMember(members, org.id, userId) {
        return Err("Already a member");
      }
      if insertError != "" {
        return Err(insertError);
      }
      var row := Member(org.id, userId, DEVELOPER, org.ownerId);
      members := members + [row];
      r := Ok(row);
    }

    /** `kickMember(orgId, memberId, currentUserId)`: only the workspace's
        owner may remove a membership row. */
    method KickMember(orgId: string, memberId: string, currentUserId: string, deleteError: string)
      returns (r: Result<()>)
      requires Valid()
      modifies this`members
      ensures Valid()
      ensures OwnerOf(orgs, orgId) != Some(currentUserId) ==>
        r == Err("Only owner can kick") && members == old(members)
      ensures OwnerOf(orgs, orgId) == Some(currentUserId) && deleteError != "" ==>
        r == Err(deleteError) && members == old(members)
      ensures OwnerOf(orgs, orgId) == Some(currentUserId) && deleteError == "" ==>
        r == Ok(()) && members == WithoutMember(old(members), orgId, memberId)
    {
      var owner := OwnerOf(orgs, orgId);
      if owner.None? || owner.value != currentUserId {
        return Err("Only owner can kick");
      }
      if deleteError != "" {
        return Err(deleteError);
      }
      WithoutMemberUnique(members, orgId, memberId);
      members := WithoutMember(members, orgId, memberId);
      r := Ok(());
    }

    /** `leaveOrganisation(orgId, userId)`: delete the caller's own row. */
    method LeaveOrganisation(orgId: string, userId: string, deleteError: string)
      returns (r: Result<()>)
      requires Valid()
      modifies this`members
      ensures Valid()
      ensures deleteError != "" ==> r == Err(deleteError) && members == old(members)
      ensures deleteError == "" ==> r == Ok(()) && members == WithoutMember(old(members), orgId, userId)
    {
      if deleteError != "" {
        return Err(deleteError);
      }
      WithoutMemberUnique(members, orgId, userId);
      members := WithoutMember(members, orgId, userId);
      r := Ok(());
    }

    /** `deleteOrganisation(orgId, userId)`: only the owner may delete, and
        only the workspace row is deleted. */
    method DeleteOrganisation(orgId: string, userId: string, deleteError: string)
      returns (r: Result<()>)
      requires Valid()
      modifies this`orgs
      ensures Valid()
      ensures OwnerOf(old(orgs), orgId) != Some(userId) ==>
        r == Err("Only owner can delete") && orgs == old(orgs)
      ensures OwnerOf(old(orgs), orgId) == Some(userId) && deleteError != "" ==>
        r == Err(deleteError) && orgs == old(orgs)
      ensures OwnerOf(old(orgs), orgId) == Some(userId) && deleteError == "" ==>
        r == Ok(()) && orgs == WithoutOrg(old(orgs), orgId)
    {
      var owner := OwnerOf(orgs, orgId);
      if owner.None? || owner.value != userId {
        return Err("Only owner can delete");
      }
      if deleteError != "" {
        return Err(deleteError);
      }
      WithoutOrgDistinct(orgs, orgId);
      orgs := WithoutOrg(orgs, orgId);
      r := Ok(());
    }
  }

  /** A join adds a row only for a user who had none in that workspace:
      whatever the inputs, a successful join leaves the user with exactly
      one row there. */
  lemma JoinedOnce(members: seq<Member>, row: Member)
    requires MembershipsUnique(members) && !IsMember(members, row.orgId, row.userId)
    ensures MembershipsUnique(members + [row])
    ensures IsMember(members + [row], row.orgId, row.userId)
  {
    var s := members + [row];
    assert s[|members|] == row;
    forall i, j | 0 <= i < j < |s|
      ensures !(s[i].orgId == s[j].orgId && s[i].userId == s[j].userId)
    {
      if j == |members| {
        assert s[i] in members;
      }
    }
  }

  // ---------------------------------------------------------------------
  // A user's workspaces

  function IdsOf(s: seq<Org>): set<string> {
    set o | o in s :: o.id
  }

  /** The position of the first row with this id, or -1. */
  function IndexOfId(s: seq<Org>, id: string): (i: int)
    ensures -1 <= i < |s|
    ensures i == -1 <==> id !in IdsOf(s)
    ensures 0 <= i ==> s[i].id == id
  {
    if s == [] then -1
    else if s[0].id == id then 0
    else
      var i := IndexOfId(s[1..], id);
      assert IdsOf(s) == {s[0].id} + IdsOf(s[1..]) by {
        assert s == [s[0]] + s[1..];
      }
      if i == -1 then -1 else i + 1
  }

  /** `map.set(o.id, o)` on a Map kept as its entries in insertion order:
      a known id keeps its place and takes the new value, a new id goes last. */
  function MapSet(entries: seq<Org>, o: Org): (r: seq<Org>)
    requires OrgIdsDistinct(entries)
    ensures OrgIdsDistinct(r)
    ensures IdsOf(r) == IdsOf(entries) + {o.id}
    ensures o in r
    ensures forall p :: p in r ==> p == o || (p in entries && p.id != o.id)
  {
    var i := IndexOfId(entries, o.id);
    if i == -1 then entries + [o]
    else
      var r := entries[i := o];
      assert forall p :: p in r ==> p == o || (p in entries && p.id != o.id) by {
        forall p | p in r
          ensures p == o || (p in entries && p.id != o.id)
        {
          var k :| 0 <= k < |r| && r[k] == p;
          if k != i {
            assert entries[k] == p;
          }
        }
      }
      assert IdsOf(r) == IdsOf(entries) by {
        forall id | id in IdsOf(entries)
          ensures id in IdsOf(r)
        {
          var p :| p in entries && p.id == id;
          var k :| 0 <= k < |entries| && entries[k] == p;
          assert r[k].id == id;
        }
      }
      r
  }

  /** `[...new Map(xs.map(o => [o.id, o])).values()]`: one row per id, in
      order of first occurrence, each holding the last row seen for it. */
  function DedupById(xs: seq<Org>): (r: seq<Org>)
    ensures OrgIdsDistinct(r)
    ensures IdsOf(r) == IdsOf(xs)
    ensures |r| <= |xs|
    ensures forall p :: p in r ==> p in xs
  {
    if xs == [] then []
    else
      var init := xs[..|xs| - 1];
      var last := xs[|xs| - 1];
      assert xs == init + [last];
      var d := DedupById(init);
      DedupLength(d, init, last);
      MapSet(d, last)
  }

  lemma DedupLength(d: seq<Org>, init: seq<Org>, last: Org)
    requires OrgIdsDistinct(d) && IdsOf(d) == IdsOf(init) && |d| <= |init|
    ensures |MapSet(d, last)| <= |init| + 1
  {
  }

  /** The later of two rows with one id wins: the last row of its id is
      the one the deduplicated list holds. */
  lemma {:induction false} DedupKeepsLast(xs: seq<Org>, k: nat)
    requires k < |xs|
    requires forall j :: k < j < |xs| ==> xs[j].id != xs[k].id
    ensures xs[k] in DedupById(xs)
  {
    var n := |xs| - 1;
    var init := xs[..n];
    var last := xs[n];
    var o := xs[k];
    assert xs == init + [last];
    if k < n {
      assert init[k] == o;
      forall j | k < j < |init|
        ensures init[j].id != init[k].id
      {
        assert xs[j] == init[j];
      }
      DedupKeepsLast(init, k);
      var d := DedupById(init);
      var r := MapSet(d, last);
      var i := IndexOfId(d, last.id);
      if i != -1 {
        var m :| 0 <= m < |d| && d[m] == o;
        assert r[m] == o;
      }
    }
  }

  /** Which of the three reads failed (a failed read yields no rows). */
  datatype Reads = Reads(ownedFails: bool, memberRowsFail: bool, joinedFails: bool)

  function Owned(orgs: seq<Org>, userId: string): (r: seq<Org>)
    ensures forall o :: o in r <==> o in orgs && o.ownerId == userId
  {
    if orgs == [] then []
    else (if orgs[0].ownerId == userId then [orgs[0]] else []) + Owned(orgs[1..], userId)
  }

  function MemberOrgIds(members: seq<Member>, userId: string): (r: set<string>)
    ensures forall id :: id in r <==> IsMember(members, id, userId)
  {
    set m | m in members && m.userId == userId :: m.orgId
  }

  /** `.in("id", ids)`: the workspace rows whose id is listed. */
  function WithIds(orgs: seq<Org>, ids: set<string>): (r: seq<Org>)
    ensures forall o :: o in r <==> o in orgs && o.id in ids
  {
    if orgs == [] then []
    else (if orgs[0].id in ids then [orgs[0]] else []) + WithIds(orgs[1..], ids)
  }

  /** `getMyOrganisations(user_id)`: the owned workspaces followed by the
      joined ones, one row per id. */
  function MyOrganisations(userId: string, orgs: seq<Org>, members: seq<Member>, f: Reads): (r: Result<seq<Org>>)
    ensures userId == "" <==> r == Err("Missing user ID")
    ensures r.Ok? ==> OrgIdsDistinct(r.value) && forall o :: o in r.value ==> o in orgs
  {
    if userId == "" then Err("Missing user ID")
    else
      var owned := if f.ownedFails then [] else Owned(orgs, userId);
      var ids := if f.memberRowsFail then {} else MemberOrgIds(members, userId);
      var joined := if f.joinedFails then [] else WithIds(orgs, ids);
      var combined := owned + joined;
      Ok(DedupById(combined))
  }

  /** With every read succeeding, the list names exactly the workspaces the
      user owns or holds a membership row in. */
  lemma MyOrganisationsComplete(userId: string, orgs: seq<Org>, members: seq<Member>)
    requires userId != ""
    ensures var r := MyOrganisations(userId, orgs, members, Reads(false, false, false));
      r.Ok? &&
      forall o :: o in orgs ==>
        (o.id in IdsOf(r.value) <==> exists p :: p in orgs && p.id == o.id && (p.ownerId == userId || IsMember(members, p.id, userId)))
  {
    var owned := Owned(orgs, userId);
    var joined := WithIds(orgs, MemberOrgIds(members, userId));
    var combined := owned + joined;
    forall p | p in orgs && (p.ownerId == userId || IsMember(members, p.id, userId))
      ensures p.id in IdsOf(combined)
    {
      assert p in combined;
    }
    forall o | o in orgs
      ensures o.id in IdsOf(combined) <==>
        exists p :: p in orgs && p.id == o.id && (p.ownerId == userId || IsMember(members, p.id, userId))
    {
      if o.id in IdsOf(combined) {
        var p :| p in combined && p.id == o.id;
        assert p in owned || p in joined;
      }
    }
  }

  // ---------------------------------------------------------------------
  // A workspace's members

  datatype Profile = Profile(username: string, description: string, avatarColor: string)

  /** A member as the page shows it; "" for a username or description
      stands for null. */
  datatype MemberView = MemberView(userId: string, role: string, username: string, description: string, avatarColor: string)

  function View(m: Member, profiles: map<string, Profile>): (v: MemberView)
    ensures v.userId == m.userId && v.role == m.role && v.avatarColor != ""
    ensures m.userId !in profiles ==> v.username == "" && v.description == "" && v.avatarColor == DEFAULT_AVATAR
    ensures m.userId in profiles ==>
      var p := profiles[m.userId];
      v.username == p.username && v.description == p.description &&
      v.avatarColor == (if p.avatarColor == "" then DEFAULT_AVATAR else p.avatarColor)
  {
    if m.userId in profiles then
      var p := profiles[m.userId];
      MemberView(m.userId, m.role, p.username, p.description, Or(p.avatarColor, DEFAULT_AVATAR))
    else MemberView(m.userId, m.role, "", "", DEFAULT_AVATAR)
  }

  function ViewsOf(rows: seq<Member>, profiles: map<string, Profile>): (r: seq<MemberView>)
    ensures |r| == |rows|
    ensures forall i :: 0 <= i < |rows| ==> r[i] == View(rows[i], profiles)
  {
    if rows == [] then [] else [View(rows[0], profiles)] + ViewsOf(rows[1..], profiles)
  }

  function InOrg(members: seq<Member>, orgId: string): (r: seq<Member>)
    ensures forall m :: m in r <==> m in members && m.orgId == orgId
  {
    if members == [] then []
    else (if members[0].orgId == orgId then [members[0]] else []) + InOrg(members[1..], orgId)
  }

  /** Owners first (in the order read), then everyone else by username. */
  function MemberKey(v: MemberView): Key {
    if v.role == OWNER then Key(0, "") else Key(1, v.username)
  }

  /** `getMembers(orgId)`: the workspace's membership rows joined with
      their profiles, owners first, the rest by username. */
  function GetMembers(orgId: string, members: seq<Member>, profiles: map<string, Profile>, queryError: string)
    : (r: Result<seq<MemberView>>)
    ensures queryError != "" ==> r == Err(queryError)
    ensures queryError == "" ==> (r.Ok? &&
      multiset(r.value) == multiset(ViewsOf(InOrg(members, orgId), profiles)) &&
      (forall v :: v in r.value ==> v.avatarColor != "") &&
      (forall i, j :: 0 <= i < j < |r.value| && r.value[j].role == OWNER ==> r.value[i].role == OWNER) &&
      (forall i, j :: 0 <= i < j < |r.value| && r.value[i].role != OWNER && r.value[j].role != OWNER ==>
         StrLe(r.value[i].username, r.value[j].username)))
  {
    if queryError != "" then Err(queryError)
    else
      var views := ViewsOf(InOrg(members, orgId), profiles);
      var sorted := SortBy(views, MemberKey);
      SortedPairs(sorted, MemberKey);
      assert forall v :: v in sorted ==> v in views by {
        forall v | v in sorted ensures v in views {
          assert v in multiset(sorted);
        }
      }
      Ok(sorted)
  }
}

=== FILE: profile.dfy ===
/** The profile page: its small helpers (error text, file extension, image
    check, display name, dirty flags, avatar URL) and the validation in
    front of the two writes it makes, saving the username and uploading an
    avatar. Each store call becomes a parameter saying how it went. */
module Profile {
  import opened Common

  const UNKNOWN_ERROR := "Unknown error"
  const DEFAULT_EXT := "png"
  const DEFAULT_NAME := "User"
  const DEFAULT_LOCALE := "en"
  const DEFAULT_TIMEZONE := "Asia/Singapore"
  const DEFAULT_THEME := "system"
  /** `3 * 1024 * 1024` bytes. */
  const MAX_AVATAR_BYTES := 3 * 1024 * 1024
  const IMAGE_PREFIX := "image/"

  /** A thrown or returned error as `safeErrorMessage` sees it: nothing,
      a string, or an object with a `message` property and the text
      `JSON.stringify` gives for it (None when stringifying throws). */
  datatype ErrorValue = Missing | Str(text: string) | Obj(message: string, json: Option<string>)

  /** The error as the user reads it in a toast. */
  function SafeErrorMessage(err: ErrorValue): (r: string)
    ensures err.Missing? || err == Str("") ==> r == UNKNOWN_ERROR
    ensures err.Str? && err.text != "" ==> r == err.text
    ensures err.Obj? && err.message != "" ==> r == err.message
    ensures err.Obj? && err.message == "" ==> r == err.json.GetOr(UNKNOWN_ERROR)
  {
    match err
    case Missing => UNKNOWN_ERROR
    case Str(s) => Or(s, UNKNOWN_ERROR)
    case Obj(m, json) => if m != "" then m else json.GetOr(UNKNOWN_ERROR)
  }

  /** An error shown to the user is never blank when what it carries is not. */
  lemma SafeErrorMessageNonEmpty(err: ErrorValue)
    requires err.Obj? && err.message == "" ==> err.json != Some("")
    ensures SafeErrorMessage(err) != ""
  {
  }

  /** The text after the last `.` of `s`, or None when `s` has no `.`. */
  function AfterLastDot(s: string): (r: Option<string>)
    ensures r.None? <==> '.' !in s
    ensures r.Some? ==> (|r.value| < |s| && '.' !in r.value &&
      s[|s| - |r.value| - 1] == '.' && s[|s| - |r.value|..] == r.value)
  {
    if s == [] then None
    else if s[|s| - 1] == '.' then Some("")
    else
      var init := s[..|s| - 1];
      assert s == init + [s[|s| - 1]];
      match AfterLastDot(init)
      case None => None
      case Some(x) => Some(x + [s[|s| - 1]])
  }

  /** `extFromFile(file)`: the lower-cased text after the last dot of the
      name, "png" when the name has no dot or ends with one. A missing file
      has the empty name. */
  function ExtFromFile(name: string): (r: string)
    ensures '.' !in r && r != ""
    ensures '.' !in name ==> r == DEFAULT_EXT
    ensures AfterLastDot(name) == Some("") ==> r == DEFAULT_EXT
    ensures forall i :: 0 <= i < |r| ==> !('A' <= r[i] <= 'Z')
  {
    var ext := match AfterLastDot(name) case None => DEFAULT_EXT case Some(x) => x;
    var r := Lower(Or(ext, DEFAULT_EXT));
    assert forall i :: 0 <= i < |r| ==> r[i] == LowerChar(Or(ext, DEFAULT_EXT)[i]);
    r
  }

  /** For a name `base.ext` whose extension has no dot, the extension is
      `ext` lower-cased, whatever `base` is, and "png" when `ext` is empty
      (a name ending with a dot). */
  lemma ExtOfName(base: string, ext: string)
    requires '.' !in ext
    ensures ext != "" ==> ExtFromFile(base + "." + ext) == Lower(ext)
    ensures ext == "" ==> ExtFromFile(base + ".") == DEFAULT_EXT
  {
    AfterLastDotOf(base, ext);
    if ext == "" {
      assert base + "." + ext == base + ".";
    }
  }

  lemma {:induction false} AfterLastDotOf(base: string, ext: string)
    requires '.' !in ext
    ensures AfterLastDot(base + "." + ext) == Some(ext)
  {
    var name := base + "." + ext;
    if ext != [] {
      var init := ext[..|ext| - 1];
      AfterLastDotOf(base, init);
      assert name[..|name| - 1] == base + "." + init;
      assert ext == init + [ext[|ext| - 1]];
    }
  }

  /** A file chosen in the browser. */
  datatype File = File(name: string, mime: string, size: int)

  /** `isImageFile(file)`: a file whose MIME type starts with `image/`. */
  predicate IsImageFile(file: Option<File>): (r: bool)
    ensures r <==> file.Some? && |file.value.mime| >= 6 && file.value.mime[..6] == "image/"
  {
    file.Some? && StartsWith(file.value.mime, IMAGE_PREFIX)
  }

  /** The storage path of an uploaded avatar. */
  function AvatarPath(userId: string, fileName: string): (p: string)
    ensures p == userId + "/avatar." + ExtFromFile(fileName)
    ensures StartsWith(p, userId + "/")
  {
    var p := userId + "/avatar." + ExtFromFile(fileName);
    assert p[..|userId + "/"|] == userId + "/";
    p
  }

  /** The stored `profiles` row. Text columns use "" for NULL; the flags may
      be NULL, which `??` tells apart from `false`. */
  datatype Stored = Stored(
    username: string,
    locale: string,
    timezone: string,
    theme: string,
    emailNotif: Option<bool>,
    inappNotif: Option<bool>,
    reduceMotion: Option<bool>)

  /** The six preferences as the form holds them. */
  datatype Prefs = Prefs(locale: string, timezone: string, theme: string,
                         emailNotif: bool, inappNotif: bool, reduceMotion: bool)

  function StoredName(db: Option<Stored>): string {
    if db.Some? then db.value.username else ""
  }

  /** The preferences the stored row stands for, defaults filled in. */
  function StoredPrefs(db: Option<Stored>): (p: Prefs)
    ensures db.None? ==> p == Prefs(DEFAULT_LOCALE, DEFAULT_TIMEZONE, DEFAULT_THEME, true, true, false)
    ensures p.locale != "" && p.timezone != "" && p.theme != ""
    ensures db.Some? ==> p.locale == (if db.value.locale == "" then DEFAULT_LOCALE else db.value.locale)
    ensures db.Some? ==> p.timezone == (if db.value.timezone == "" then DEFAULT_TIMEZONE else db.value.timezone)
    ensures db.Some? ==> p.theme == (if db.value.theme == "" then DEFAULT_THEME else db.value.theme)
    ensures db.Some? ==> p.emailNotif == (db.value.emailNotif.None? || db.value.emailNotif.value)
    ensures db.Some? ==> p.inappNotif == (db.value.inappNotif.None? || db.value.inappNotif.value)
    ensures db.Some? ==> p.reduceMotion == (db.value.reduceMotion.Some? && db.value.reduceMotion.value)
  {
    match db
    case None => Prefs(DEFAULT_LOCALE, DEFAULT_TIMEZONE, DEFAULT_THEME, true, true, false)
    case Some(s) =>
      Prefs(Or(s.locale, DEFAULT_LOCALE), Or(s.timezone, DEFAULT_TIMEZONE), Or(s.theme, DEFAULT_THEME),
            s.emailNotif.GetOr(true), s.inappNotif.GetOr(true), s.reduceMotion.GetOr(false))
  }

  /** `prefsDirty`: some preference differs from its stored value. */
  predicate PrefsDirty(form: Prefs, db: Option<Stored>): (r: bool)
    ensures !r <==> form == StoredPrefs(db)
  {
    var s := StoredPrefs(db);
    form.locale != s.locale || form.timezone != s.timezone || form.theme != s.theme ||
    form.emailNotif != s.emailNotif || form.inappNotif != s.inappNotif || form.reduceMotion != s.reduceMotion
  }

  /** `profileDirty`: the trimmed draft differs from the stored username. */
  predicate ProfileDirty(draft: string, db: Option<Stored>): (r: bool)
    ensures db.None? ==> (r <==> !Blank(draft))
    ensures db.Some? && db.value.username == "" ==> (r <==> !Blank(draft))
  {
    Trim(draft) != StoredName(db)
  }

  /** The row `savePreferences` writes for a form. */
  function SavedPrefs(form: Prefs, username: string): Stored {
    Stored(username, form.locale, form.timezone, form.theme,
           Some(form.emailNotif), Some(form.inappNotif), Some(form.reduceMotion))
  }

  /** Once the form's preferences are stored and read back, the form is
      clean again; with no stored row, the default preferences are clean. */
  lemma SavedPrefsClean(form: Prefs, username: string)
    requires form.locale != "" && form.timezone != "" && form.theme != ""
    ensures !PrefsDirty(form, Some(SavedPrefs(form, username)))
    ensures !PrefsDirty(StoredPrefs(None), None)
  {
  }

  /** An empty language, time zone or theme stored as such reads back as
      the default, so that form stays dirty after saving. */
  lemma EmptyLocaleStaysDirty(form: Prefs, username: string)
    requires form.locale == ""
    ensures PrefsDirty(form, Some(SavedPrefs(form, username)))
  {
  }

  /** `displayName`: the trimmed draft, else the stored name, else "User". */
  function DisplayName(draft: string, db: Option<Stored>): (r: string)
    ensures r != ""
    ensures !Blank(draft) ==> r == Trim(draft)
    ensures Blank(draft) && StoredName(db) != "" ==> r == StoredName(db)
    ensures Blank(draft) && StoredName(db) == "" ==> r == DEFAULT_NAME
  {
    Or(Trim(draft), Or(StoredName(db), DEFAULT_NAME))
  }

  /** `firstLetter`: the display name's first character, upper-cased. */
  function FirstLetter(draft: string, db: Option<Stored>): (r: string)
    ensures |r| == 1 && r[0] == UpperChar(DisplayName(draft, db)[0])
    ensures !('a' <= r[0] <= 'z')
  {
    Upper(DisplayName(draft, db)[..1])
  }

  /** `avatarPublicUrl`: nothing for no avatar, an `http…` value as it is,
      otherwise the storage's public URL for the path (given as `publicUrl`,
      "" when the storage has none). */
  function AvatarPublicUrl(avatarUrl: string, publicUrl: string -> string): (r: string)
    ensures avatarUrl == "" ==> r == ""
    ensures avatarUrl != "" && StartsWith(avatarUrl, "http") ==> r == avatarUrl
    ensures avatarUrl != "" && !StartsWith(avatarUrl, "http") ==> r == publicUrl(avatarUrl)
  {
    if avatarUrl == "" then ""
    else if StartsWith(avatarUrl, "http") then avatarUrl
    else publicUrl(avatarUrl)
  }

  /** A notification: tone, title and message. */
  datatype Toast = Toast(tone: string, title: string, message: string)

  /** A write the page sends to the store. */
  datatype Request =
    | UsernameUpdate(username: string)
    | AvatarUpload(path: string)
    | AvatarUrlUpdate(path: string)

  const EMPTY_NAME := Toast("warning", "Validation Error", "Username cannot be empty.")
  const NAME_SAVED := Toast("success", "Profile Updated", "Username saved successfully.")
  const NOT_IMAGE := Toast("warning", "Invalid File", "Please upload an image file.")
  const TOO_LARGE := Toast("warning", "File Too Large", "Maximum file size is 3MB.")
  const AVATAR_SAVED := Toast("success", "Avatar Updated", "Profile picture uploaded successfully.")

  function UpdateFailed(err: ErrorValue): Toast {
    Toast("danger", "Update Failed", SafeErrorMessage(err))
  }

  function UploadFailed(err: ErrorValue): Toast {
    Toast("danger", "Upload Failed", SafeErrorMessage(err))
  }

  /** An error result of a store call is one that `if (error)` takes. */
  predicate Failed(err: Option<ErrorValue>) {
    err.Some? && !(err.value.Missing? || err.value == Str(""))
  }

  class ProfilePage {
    const userId: string
    var username: string
    var dbProfile: Option<Stored>
    var avatarUrl: string
    var requests: seq<Request>
    var toasts: seq<Toast>

    constructor (userId: string, db: Option<Stored>, avatarUrl: string)
      ensures this.userId == userId && dbProfile == db && this.avatarUrl == avatarUrl
      ensures username == StoredName(db) && requests == [] && toasts == []
    {
      this.userId := userId;
      username := StoredName(db);
      dbProfile := db;
      this.avatarUrl := avatarUrl;
      requests := [];
      toasts := [];
    }

    /** `saveUsername()`: a blank draft is refused with a warning and
        nothing is written; otherwise the trimmed draft is written and,
        when that succeeds, the stored row is read back (`refreshed`). */
    method SaveUsername(updateError: Option<ErrorValue>, refreshed: Option<Stored>)
      modifies this`requests, this`toasts, this`dbProfile
      ensures Blank(old(username)) ==>
        requests == old(requests) && toasts == old(toasts) + [EMPTY_NAME] && dbProfile == old(dbProfile)
      ensures !Blank(old(username)) ==> requests == old(requests) + [UsernameUpdate(Trim(old(username)))]
      ensures !Blank(old(username)) && Failed(updateError) ==>
        toasts == old(toasts) + [UpdateFailed(updateError.value)] && dbProfile == old(dbProfile)
      ensures !Blank(old(username)) && !Failed(updateError) ==>
        toasts == old(toasts) + [NAME_SAVED] && dbProfile == refreshed
    {
      var draft := username;
      if Blank(draft) {
        toasts := toasts + [EMPTY_NAME];
      } else {
        var next := Trim(draft);
        requests := requests + [UsernameUpdate(next)];
        if Failed(updateError) {
          toasts := toasts + [UpdateFailed(updateError.value)];
        } else {
          dbProfile := refreshed;
          toasts := toasts + [NAME_SAVED];
        }
      }
    }

    /** `uploadAvatar(file)`: no file, a file that is not an image, or one
        over 3 MB is refused before anything is sent. Otherwise the file
        goes to `<userId>/avatar.<ext>`, then that path is written to the
        profile; either failure stops there with an error toast. */
    method UploadAvatar(file: Option<File>, uploadError: Option<ErrorValue>, dbError: Option<ErrorValue>,
                        refreshed: Option<Stored>)
      modifies this`requests, this`toasts, this`dbProfile, this`avatarUrl
      ensures file.None? ==>
        requests == old(requests) && toasts == old(toasts) && dbProfile == old(dbProfile) && avatarUrl == old(avatarUrl)
      ensures file.Some? && !IsImageFile(file) ==>
        requests == old(requests) && toasts == old(toasts) + [NOT_IMAGE] &&
        dbProfile == old(dbProfile) && avatarUrl == old(avatarUrl)
      ensures IsImageFile(file) && file.value.size > MAX_AVATAR_BYTES ==>
        requests == old(requests) && toasts == old(toasts) + [TOO_LARGE] &&
        dbProfile == old(dbProfile) && avatarUrl == old(avatarUrl)
      ensures IsImageFile(file) && file.value.size <= MAX_AVATAR_BYTES ==>
        var path := AvatarPath(userId, file.value.name);
        (Failed(uploadError) ==>
          requests == old(requests) + [AvatarUpload(path)] && toasts == old(toasts) + [UploadFailed(uploadError.value)] &&
          dbProfile == old(dbProfile) && avatarUrl == old(avatarUrl)) &&
        (!Failed(uploadError) && Failed(dbError) ==>
          requests == old(requests) + [AvatarUpload(path), AvatarUrlUpdate(path)] &&
          toasts == old(toasts) + [UploadFailed(dbError.value)] &&
          dbProfile == old(dbProfile) && avatarUrl == old(avatarUrl)) &&
        (!Failed(uploadError) && !Failed(dbError) ==>
          requests == old(requests) + [AvatarUpload(path), AvatarUrlUpdate(path)] &&
          toasts == old(toasts) + [AVATAR_SAVED] && dbProfile == refreshed && avatarUrl == path)
    {
      if file.None? {
        return;
      }
      if !IsImageFile(file) {
        toasts := toasts + [NOT_IMAGE];
        return;
      }
      if file.value.size > MAX_AVATAR_BYTES {
        toasts := toasts + [TOO_LARGE];
        return;
      }
      var path := AvatarPath(userId, file.value.name);
      requests := requests + [AvatarUpload(path)];
      if Failed(uploadError) {
        toasts := toasts + [UploadFailed(uploadError.value)];
        return;
      }
      requests := requests + [AvatarUrlUpdate(path)];
      if Failed(dbError) {
        toasts := toasts + [UploadFailed(dbError.value)];
        return;
      }
      avatarUrl := path;
      dbProfile := refreshed;
      toasts := toasts + [AVATAR_SAVED];
    }
  }

  /** After a saved username is read back and loaded into the form, as the
      page does on load, the form is not dirty. */
  lemma ReloadedNameClean(draft: string, db: Stored)
    requires db.username == Trim(draft)
    ensures !ProfileDirty(StoredName(Some(db)), Some(db))
  {
    TrimTwice(draft);
  }

  /** Trimming twice is trimming once, so a saved name shows unchanged. */
  lemma TrimTwice(s: string)
    ensures Trim(Trim(s)) == Trim(s)
  {
    var r := Trim(s);
    if r != [] {
      assert TrimStart(r) == r;
      assert TrimEnd(r) == r;
    }
  }
}

=== FILE: server.dfy ===
/** The board engine of the realtime server: which rows a connection
    sees, room membership, the four mutation handlers and one tick of the
    auto-progression loop. The `tasks` table is a sequence of rows with
    distinct ids (a select returns matching rows in table order); every
    message the server emits is appended to `outbox`. */
module Server {
  import opened Common
  import opened Tasks

  const MAIN := "main"
  const PERSONAL := "personal"
  /** A `progress` task is finished once it has not been touched for longer than this. */
  const STALE_MS := 10000
  const DEFAULT_MODEL := "claude-3-haiku"
  const AI_ERROR := "AI error"
  const NO_RESPONSE := "No response."

  type SocketId = string

  /** A broadcast room, `${orgId}:${board}`. */
  datatype Room = Room(orgId: string, board: string)

  /** The fields the server keeps on a socket, and the rooms it has joined. */
  datatype Conn = Conn(orgId: string, userId: string, board: string, rooms: set<Room>)

  function RoomOf(c: Conn): Room {
    Room(c.orgId, c.board)
  }

  datatype Target = ToRoom(room: Room) | ToSocket(sid: SocketId)
  datatype Emit = Emit(target: Target, event: string, payload: seq<Task>)

  // ---------------------------------------------------------------- scope

  /** The rows `getTasks` selects for a connection. */
  predicate Visible(t: Task, c: Conn) {
    c.orgId != "" && t.orgId == c.orgId &&
    if c.board == MAIN then t.isMainBoard
    else c.userId != "" && t.userId == c.userId && !t.isMainBoard
  }

  /** No organisation, no rows; a visible row is in the connection's
      organisation and on the board it asked for, and a personal row only
      reaches its own user. */
  lemma VisibleScope(t: Task, c: Conn)
    ensures c.orgId == "" ==> !Visible(t, c)
    ensures Visible(t, c) ==> t.orgId == c.orgId && (t.isMainBoard <==> c.board == MAIN)
    ensures Visible(t, c) && c.board != MAIN ==> t.userId == c.userId && c.userId != ""
  {
  }

  /** `getTasks(socket)`: the snapshot of the table a connection sees. */
  function GetTasks(tasks: seq<Task>, c: Conn): (r: seq<Task>)
    ensures |r| <= |tasks|
    ensures forall t :: t in r <==> t in tasks && Visible(t, c)
    ensures c.orgId == "" ==> r == []
    ensures c.board != MAIN && c.userId == "" ==> r == []
  {
    if tasks == [] then []
    else (if Visible(tasks[0], c) then [tasks[0]] else []) + GetTasks(tasks[1..], c)
  }

  lemma {:induction false} GetTasksAppend(a: seq<Task>, b: seq<Task>, c: Conn)
    ensures GetTasks(a + b, c) == GetTasks(a, c) + GetTasks(b, c)
  {
    if a == [] {
      assert a + b == b;
    } else {
      assert (a + b)[1..] == a[1..] + b;
      GetTasksAppend(a[1..], b, c);
    }
  }

  /** Two connections whose snapshot predicates agree see the same snapshot. */
  lemma {:induction false} SameScopeSameSnapshot(tasks: seq<Task>, c1: Conn, c2: Conn)
    requires forall t :: Visible(t, c1) == Visible(t, c2)
    ensures GetTasks(tasks, c1) == GetTasks(tasks, c2)
  {
    if tasks != [] {
      SameScopeSameSnapshot(tasks[1..], c1, c2);
    }
  }

  /** Every connection in a `main` room receives exactly the snapshot it
      would have asked for itself. */
  lemma MainRoomSharesSnapshot(tasks: seq<Task>, c1: Conn, c2: Conn)
    requires RoomOf(c1) == RoomOf(c2) && c1.board == MAIN
    ensures GetTasks(tasks, c1) == GetTasks(tasks, c2)
  {
    SameScopeSameSnapshot(tasks, c1, c2);
  }

  /** Personal rooms are keyed by organisation only, so a personal-board
      broadcast caused by one user reaches another user of the same
      organisation with a snapshot that is not that user's own. */
  lemma PersonalRoomSharesForeignSnapshot()
    ensures exists tasks: seq<Task>, c1: Conn, c2: Conn ::
      RoomOf(c1) == RoomOf(c2) && GetTasks(tasks, c1) != GetTasks(tasks, c2)
  {
    var alice := Conn("org", "alice", PERSONAL, {Room("org", PERSONAL)});
    var bob := Conn("org", "bob", PERSONAL, {Room("org", PERSONAL)});
    var row := Task("1", "Write report", TODO, "org", "alice", false, "", "", "", "",
                    None, None, None, None, "", "", "");
    assert Visible(row, alice) && !Visible(row, bob);
    assert row in GetTasks([row], alice) && row !in GetTasks([row], bob);
  }

  // ---------------------------------------------------------------- store

  datatype Patch =
    | Move(status: string, at: int)          // status + updated_at
    | Rename(title: string)                  // title only
    | Complete(output: string, agent: string) // status done + ai_output + ai_agent

  function Apply(t: Task, p: Patch): (r: Task)
    ensures r.id == t.id
  {
    match p
    case Move(s, at) => t.(status := s, updatedAt := Some(At(at)))
    case Rename(title) => t.(title := title)
    case Complete(out, agent) => t.(status := DONE, aiOutput := out, aiAgent := agent)
  }

  /** `update(patch).eq("id", id)`: the patch lands on the rows with that id. */
  function UpdateById(tasks: seq<Task>, id: string, p: Patch): (r: seq<Task>)
    ensures |r| == |tasks|
    ensures forall i :: 0 <= i < |r| ==> r[i].id == tasks[i].id
    ensures forall i :: 0 <= i < |r| && tasks[i].id != id ==> r[i] == tasks[i]
    ensures forall i :: 0 <= i < |r| && tasks[i].id == id ==> r[i] == Apply(tasks[i], p)
  {
    seq(|tasks|, i requires 0 <= i < |tasks| => if tasks[i].id == id then Apply(tasks[i], p) else tasks[i])
  }

  /** `delete().eq("id", id)`. */
  function DeleteById(tasks: seq<Task>, id: string): (r: seq<Task>)
    ensures forall t :: t in r <==> t in tasks && t.id != id
    ensures |r| <= |tasks|
  {
    if tasks == [] then []
    else (if tasks[0].id != id then [tasks[0]] else []) + DeleteById(tasks[1..], id)
  }

  lemma {:induction false} DeleteKeepsDistinct(tasks: seq<Task>, id: string)
    requires DistinctIds(tasks)
    ensures DistinctIds(DeleteById(tasks, id))
  {
    if tasks != [] {
      DeleteKeepsDistinct(tasks[1..], id);
      var rest := DeleteById(tasks[1..], id);
      forall t | t in rest ensures t.id != tasks[0].id {
        assert t in tasks[1..];
      }
    }
  }

  /** After a delete no snapshot, for any connection, shows the id. */
  lemma DeletionIsFinal(tasks: seq<Task>, id: string, c: Conn)
    ensures forall t :: t in GetTasks(DeleteById(tasks, id), c) ==> t.id != id
  {
  }

  // ---------------------------------------------------------------- generator

  /** What the completion endpoint produced: a thrown error, or a reply whose
      first choice's content and whose model may be missing (""). */
  datatype GenReply = Threw | Replied(content: string, model: string)

  /** The `{ output, modelUsed }` that `processTaskWithClaude` returns. */
  datatype Completion = Completion(output: string, modelUsed: string)

  function Shape(reply: GenReply): (r: Completion)
    ensures r.output != "" && r.modelUsed != ""
    ensures reply.Threw? ==> r == Completion(AI_ERROR, DEFAULT_MODEL)
    ensures reply.Replied? ==> r.output == (if reply.content == "" then NO_RESPONSE else reply.content)
    ensures reply.Replied? ==> r.modelUsed == (if reply.model == "" then DEFAULT_MODEL else reply.model)
  {
    match reply
    case Threw => Completion(AI_ERROR, DEFAULT_MODEL)
    case Replied(content, model) => Completion(Or(content, NO_RESPONSE), Or(model, DEFAULT_MODEL))
  }

  // ---------------------------------------------------------------- tick

  /** Which store calls of one tick fail: the `progress` select, the `todo`
      select (any error but "no rows") and the updates of given ids. */
  datatype Faults = Faults(progressQueryFails: bool, todoQueryFails: bool, writeFails: set<string>)

  /** `now - new Date(t.updated_at || t.created_at).getTime() > 10000`;
      a comparison with NaN is false. */
  predicate Stale(t: Task, now: int) {
    match LastTouch(t)
    case None => false
    case Some(ms) => now - ms > STALE_MS
  }

  /** Staleness read off the row's two time columns. */
  lemma StaleCases(t: Task, now: int)
    ensures Stale(t, now) ==> LastTouch(t).Some?
    ensures t.updatedAt == Some(Unparseable) ==> !Stale(t, now)
    ensures t.updatedAt.Some? && t.updatedAt.value.At? ==> (Stale(t, now) <==> now - t.updatedAt.value.ms > STALE_MS)
    ensures t.updatedAt.None? && t.createdAt.None? ==> (Stale(t, now) <==> now > STALE_MS)
  {
  }

  function ProgressRows(tasks: seq<Task>): (r: seq<Task>)
    ensures forall t :: t in r <==> t in tasks && t.status == PROGRESS
    ensures |r| <= |tasks|
  {
    if tasks == [] then []
    else (if tasks[0].status == PROGRESS then [tasks[0]] else []) + ProgressRows(tasks[1..])
  }

  /** Without a `progress` row the `progress` select is empty. */
  lemma {:induction false} NoProgressRows(tasks: seq<Task>)
    requires forall t :: t in tasks ==> t.status != PROGRESS
    ensures ProgressRows(tasks) == []
  {
    if tasks != [] {
      assert tasks[0] in tasks;
      assert forall t :: t in tasks[1..] ==> t in tasks;
      NoProgressRows(tasks[1..]);
    }
  }

  /** `.eq("status", "todo").limit(1)`: the first `todo` row. */
  function FirstTodo(tasks: seq<Task>): (r: Option<nat>)
    ensures r.Some? ==> r.value < |tasks| && tasks[r.value].status == TODO
    ensures r.Some? ==> forall j :: 0 <= j < r.value ==> tasks[j].status != TODO
    ensures r.None? ==> forall j :: 0 <= j < |tasks| ==> tasks[j].status != TODO
  {
    if tasks == [] then None
    else if tasks[0].status == TODO then Some(0)
    else match FirstTodo(tasks[1..])
      case None => None
      case Some(k) => Some(k + 1)
  }

  /** One `progress` row as the finishing loop leaves it. */
  function Finish(t: Task, now: int, gen: string -> GenReply, failed: set<string>): (r: Task)
    ensures r.id == t.id
    ensures !(t.status == PROGRESS && Stale(t, now) && t.id !in failed) ==> r == t
    ensures t.status == PROGRESS && Stale(t, now) && t.id !in failed ==>
      r == t.(status := DONE, aiOutput := Shape(gen(t.title)).output, aiAgent := Shape(gen(t.title)).modelUsed)
  {
    if t.status == PROGRESS && Stale(t, now) && t.id !in failed then
      var c := Shape(gen(t.title));
      Apply(t, Complete(c.output, c.modelUsed))
    else t
  }

  /** Every row as the finishing loop leaves it. */
  function FinishAll(tasks: seq<Task>, now: int, gen: string -> GenReply, failed: set<string>): (r: seq<Task>)
    ensures |r| == |tasks|
    ensures forall i :: 0 <= i < |tasks| ==> r[i] == Finish(tasks[i], now, gen, failed)
  {
    seq(|tasks|, i requires 0 <= i < |tasks| => Finish(tasks[i], now, gen, failed))
  }

  /** The table after one tick of the auto-progression loop. */
  function TickResult(tasks: seq<Task>, now: int, gen: string -> GenReply, f: Faults): (r: seq<Task>)
    ensures |r| == |tasks|
    ensures forall i :: 0 <= i < |r| ==> r[i].id == tasks[i].id
    ensures f.progressQueryFails ==> r == tasks
  {
    if f.progressQueryFails then tasks
    else if ProgressRows(tasks) != [] then FinishAll(tasks, now, gen, f.writeFails)
    else if f.todoQueryFails then tasks
    else match FirstTodo(tasks)
      case None => tasks
      case Some(i) =>
        if tasks[i].id in f.writeFails then tasks
        else UpdateById(tasks, tasks[i].id, Move(PROGRESS, now))
  }

  /** Finishing: every stale `progress` row whose update lands is `done` with
      the shaped generator result; all other rows are untouched. */
  lemma TickFinishesStale(tasks: seq<Task>, now: int, gen: string -> GenReply, f: Faults, i: nat)
    requires !f.progressQueryFails && i < |tasks| && tasks[i].status == PROGRESS
    ensures var r := TickResult(tasks, now, gen, f);
      |r| == |tasks| &&
      (Stale(tasks[i], now) && tasks[i].id !in f.writeFails ==>
        r[i].status == DONE &&
        r[i].aiOutput == Shape(gen(tasks[i].title)).output &&
        r[i].aiAgent == Shape(gen(tasks[i].title)).modelUsed &&
        r[i] == tasks[i].(status := DONE, aiOutput := r[i].aiOutput, aiAgent := r[i].aiAgent)) &&
      (!Stale(tasks[i], now) ==> r[i] == tasks[i])
  {
    assert tasks[i] in ProgressRows(tasks);
  }

  /** A generator failure is swallowed: that task still becomes `done`. */
  lemma GeneratorFailureStillCompletes(tasks: seq<Task>, now: int, gen: string -> GenReply, f: Faults, i: nat)
    requires !f.progressQueryFails && i < |tasks| && tasks[i].status == PROGRESS
    requires Stale(tasks[i], now) && tasks[i].id !in f.writeFails && gen(tasks[i].title) == Threw
    ensures var r := TickResult(tasks, now, gen, f);
      |r| == |tasks| && r[i].status == DONE && r[i].aiOutput == AI_ERROR && r[i].aiAgent == DEFAULT_MODEL
  {
    TickFinishesStale(tasks, now, gen, f, i);
  }

  /** `done` is terminal for the tick. */
  lemma TickLeavesDone(tasks: seq<Task>, now: int, gen: string -> GenReply, f: Faults, i: nat)
    requires DistinctIds(tasks)
    requires i < |tasks| && tasks[i].status == DONE
    ensures var r := TickResult(tasks, now, gen, f); |r| == |tasks| && r[i] == tasks[i]
  {
    if !f.progressQueryFails && ProgressRows(tasks) == [] && !f.todoQueryFails {
      match FirstTodo(tasks)
      case None =>
      case Some(k) =>
        assert k != i;
    }
  }

  /** A row is promoted when it goes from `todo` to `progress`. */
  predicate Promoted(before: seq<Task>, after: seq<Task>, i: int) {
    0 <= i < |before| && i < |after| && before[i].status == TODO && after[i].status == PROGRESS
  }

  /** Promotion happens only when the `progress` select succeeded with no
      rows at all; then at most one row is promoted, stamped with `now`. */
  lemma TickPromotesAtMostOne(tasks: seq<Task>, now: int, gen: string -> GenReply, f: Faults, i: int, j: int)
    requires DistinctIds(tasks)
    requires Promoted(tasks, TickResult(tasks, now, gen, f), i)
    requires Promoted(tasks, TickResult(tasks, now, gen, f), j)
    ensures i == j
    ensures !f.progressQueryFails && !f.todoQueryFails
    ensures forall t :: t in tasks ==> t.status != PROGRESS
    ensures TickResult(tasks, now, gen, f)[i] == tasks[i].(status := PROGRESS, updatedAt := Some(At(now)))
  {
    if !f.progressQueryFails && ProgressRows(tasks) == [] && !f.todoQueryFails {
      match FirstTodo(tasks)
      case None =>
      case Some(k) =>
        if tasks[k].id !in f.writeFails {
          assert tasks[i].id == tasks[k].id && tasks[j].id == tasks[k].id;
        }
    }
  }

  /** With both selects succeeding and nothing in progress, the first
      `todo` row is promoted when its update lands, and no other row moves. */
  lemma TickPromotesFirstTodo(tasks: seq<Task>, now: int, gen: string -> GenReply, f: Faults, k: nat)
    requires DistinctIds(tasks)
    requires !f.progressQueryFails && !f.todoQueryFails
    requires forall t :: t in tasks ==> t.status != PROGRESS
    requires FirstTodo(tasks) == Some(k) && tasks[k].id !in f.writeFails
    ensures var r := TickResult(tasks, now, gen, f);
      |r| == |tasks| &&
      r[k] == tasks[k].(status := PROGRESS, updatedAt := Some(At(now))) &&
      forall j :: 0 <= j < |tasks| && j != k ==> r[j] == tasks[j]
  {
    NoProgressRows(tasks);
  }

  /** While any `progress` row exists, stale or not, no `todo` row moves. */
  lemma NoPromotionWhileProgress(tasks: seq<Task>, now: int, gen: string -> GenReply, f: Faults, i: nat)
    requires exists t :: t in tasks && t.status == PROGRESS
    requires i < |tasks| && tasks[i].status == TODO
    ensures TickResult(tasks, now, gen, f)[i] == tasks[i]
  {
    var t :| t in tasks && t.status == PROGRESS;
    assert t in ProgressRows(tasks);
  }

  // ---------------------------------------------------------------- the server

  predicate ConnsValid(conns: map<SocketId, Conn>) {
    forall sid :: sid in conns ==> conns[sid].rooms == {RoomOf(conns[sid])}
  }

  /** The sockets a room broadcast reaches. */
  function Recipients(conns: map<SocketId, Conn>, room: Room): set<SocketId> {
    set sid | sid in conns && room in conns[sid].rooms
  }

  /** A room broadcast is delivered exactly to the connections whose
      organisation and board form that room. */
  lemma RoomIsolation(conns: map<SocketId, Conn>, room: Room)
    requires ConnsValid(conns)
    ensures forall sid :: sid in Recipients(conns, room) <==> sid in conns && RoomOf(conns[sid]) == room
  {
  }

  /** The per-socket `updateTasks` of the end of a tick, in connection order. */
  function TickBroadcast(tasks: seq<Task>, conns: map<SocketId, Conn>, connected: seq<SocketId>): (r: seq<Emit>)
    requires forall s :: s in connected ==> s in conns
    ensures |r| == |connected|
    ensures forall j :: 0 <= j < |r| ==>
      r[j] == Emit(ToSocket(connected[j]), "updateTasks", GetTasks(tasks, conns[connected[j]]))
  {
    seq(|connected|, j requires 0 <= j < |connected| =>
      Emit(ToSocket(connected[j]), "updateTasks", GetTasks(tasks, conns[connected[j]])))
  }

  /** The row `addTask` inserts for a connection. */
  function NewRow(c: Conn, id: string, title: string, now: int): (r: Task)
    ensures r.status == TODO && r.title == title && r.orgId == c.orgId && r.userId == c.userId
    ensures r.isMainBoard <==> c.board == MAIN
  {
    Task(id, title, TODO, c.orgId, c.userId, c.board == MAIN, "", "", "", "",
         None, None, Some(At(now)), None, "", "", "")
  }

  /** The row a user adds is in that user's next snapshot, exactly once more. */
  lemma AddedTaskVisible(tasks: seq<Task>, c: Conn, id: string, title: string, now: int)
    requires title != "" && c.orgId != "" && c.userId != ""
    ensures GetTasks(tasks + [NewRow(c, id, title, now)], c) == GetTasks(tasks, c) + [NewRow(c, id, title, now)]
  {
    var row := NewRow(c, id, title, now);
    GetTasksAppend(tasks, [row], c);
    assert Visible(row, c);
    assert GetTasks([row], c) == [row] + GetTasks([], c);
  }

  class Server {
    var tasks: seq<Task>
    var conns: map<SocketId, Conn>
    /** Connected sockets in connection order (`io.sockets.sockets`). */
    var connected: seq<SocketId>
    var outbox: seq<Emit>

    ghost predicate Valid()
      reads this
    {
      DistinctIds(tasks) && ConnsValid(conns) &&
      (forall i, j :: 0 <= i < j < |connected| ==> connected[i] != connected[j]) &&
      (forall s :: s in connected <==> s in conns)
    }

    constructor (rows: seq<Task>)
      requires DistinctIds(rows)
      ensures Valid() && tasks == rows && conns == map[] && connected == [] && outbox == []
    {
      tasks, conns, connected, outbox := rows, map[], [], [];
    }

    /** Connection: board defaults to `personal`; join `orgId:board`; send
        the initial `loadTasks` snapshot to this socket. */
    method Connect(sid: SocketId, orgId: string, userId: string, board: string)
      requires Valid() && sid !in conns
      modifies this
      ensures Valid()
      ensures var c := Conn(orgId, userId, Or(board, PERSONAL), {Room(orgId, Or(board, PERSONAL))});
        conns == old(conns)[sid := c] && connected == old(connected) + [sid] &&
        outbox == old(outbox) + [Emit(ToSocket(sid), "loadTasks", GetTasks(tasks, c))]
      ensures tasks == old(tasks)
    {
      var b := if board != "" then board else PERSONAL;
      var c := Conn(orgId, userId, b, {Room(orgId, b)});
      conns := conns[sid := c];
      connected := connected + [sid];
      outbox := outbox + [Emit(ToSocket(sid), "loadTasks", GetTasks(tasks, c))];
    }

    /** Socket.IO drops a disconnected socket from its rooms and its socket list. */
    method Disconnect(sid: SocketId)
      requires Valid() && sid in conns
      modifies this
      ensures Valid()
      ensures conns == old(conns) - {sid} && sid !in connected
      ensures forall s :: s in connected <==> s in old(connected) && s != sid
      ensures tasks == old(tasks) && outbox == old(outbox)
    {
      var k := 0;
      while connected[k] != sid
        invariant 0 <= k < |connected| && sid in connected[k..]
        decreases |connected| - k
      {
        k := k + 1;
      }
      connected := connected[..k] + connected[k + 1..];
      conns := conns - {sid};
    }

    /** `switchBoard`: an empty board changes nothing; otherwise leave the old
        room, join the new one and send `boardSwitched` to this socket. */
    method SwitchBoard(sid: SocketId, board: string)
      requires Valid() && sid in conns
      modifies this
      ensures Valid()
      ensures board == "" ==> conns == old(conns) && outbox == old(outbox)
      ensures board != "" ==>
        var c := old(conns)[sid].(board := board, rooms := {Room(old(conns)[sid].orgId, board)});
        conns == old(conns)[sid := c] &&
        outbox == old(outbox) + [Emit(ToSocket(sid), "boardSwitched", GetTasks(tasks, c))]
      ensures tasks == old(tasks) && connected == old(connected)
    {
      if board == "" {
        return;
      }
      var c := conns[sid];
      c := c.(rooms := c.rooms - {Room(c.orgId, c.board)});
      c := c.(board := board);
      c := c.(rooms := c.rooms + {Room(c.orgId, board)});
      conns := conns[sid := c];
      outbox := outbox + [Emit(ToSocket(sid), "boardSwitched", GetTasks(tasks, c))];
    }

    /** `addTask`: a no-op for a missing title, organisation or user; then one
        insert, and a room broadcast only if the insert succeeded. */
    method AddTask(sid: SocketId, title: string, newId: string, now: int, insertOk: bool)
      requires Valid() && sid in conns
      requires forall t :: t in tasks ==> t.id != newId
      modifies this
      ensures Valid()
      ensures conns == old(conns) && connected == old(connected)
      ensures var c := conns[sid];
        if title == "" || c.orgId == "" || c.userId == "" || !insertOk then
          tasks == old(tasks) && outbox == old(outbox)
        else
          tasks == old(tasks) + [NewRow(c, newId, title, now)] &&
          outbox == old(outbox) + [Emit(ToRoom(RoomOf(c)), "updateTasks", GetTasks(tasks, c))]
    {
      var c := conns[sid];
      if title == "" || c.orgId == "" || c.userId == "" {
        return;
      }
      if !insertOk {
        return;
      }
      tasks := tasks + [NewRow(c, newId, title, now)];
      outbox := outbox + [Emit(ToRoom(Room(c.orgId, c.board)), "updateTasks", GetTasks(tasks, c))];
    }

    /** `updateTask`: apply a patch by id; a failed write changes nothing. */
    method UpdateTask(id: string, p: Patch, ok: bool)
      requires Valid()
      modifies this`tasks
      ensures Valid()
      ensures tasks == if ok then UpdateById(old(tasks), id, p) else old(tasks)
    {
      if ok {
        tasks := UpdateById(tasks, id, p);
      }
    }

    /** `taskMoved`: any status is accepted; the room is told even when the
        write failed. */
    method TaskMoved(sid: SocketId, taskId: string, newStatus: string, now: int, writeOk: bool)
      requires Valid() && sid in conns
      modifies this
      ensures Valid()
      ensures conns == old(conns) && connected == old(connected)
      ensures taskId == "" || newStatus == "" ==> tasks == old(tasks) && outbox == old(outbox)
      ensures taskId != "" && newStatus != "" ==>
        tasks == (if writeOk then UpdateById(old(tasks), taskId, Move(newStatus, now)) else old(tasks)) &&
        outbox == old(outbox) + [Emit(ToRoom(RoomOf(conns[sid])), "updateTasks", GetTasks(tasks, conns[sid]))]
    {
      if taskId == "" || newStatus == "" {
        return;
      }
      UpdateTask(taskId, Move(newStatus, now), writeOk);
      var c := conns[sid];
      outbox := outbox + [Emit(ToRoom(Room(c.orgId, c.board)), "updateTasks", GetTasks(tasks, c))];
    }

    /** `renameTask`: only the title changes; the room is told regardless. */
    method RenameTask(sid: SocketId, taskId: string, newTitle: string, writeOk: bool)
      requires Valid() && sid in conns
      modifies this
      ensures Valid()
      ensures conns == old(conns) && connected == old(connected)
      ensures taskId == "" || newTitle == "" ==> tasks == old(tasks) && outbox == old(outbox)
      ensures taskId != "" && newTitle != "" ==>
        tasks == (if writeOk then UpdateById(old(tasks), taskId, Rename(newTitle)) else old(tasks)) &&
        outbox == old(outbox) + [Emit(ToRoom(RoomOf(conns[sid])), "updateTasks", GetTasks(tasks, conns[sid]))]
    {
      if taskId == "" || newTitle == "" {
        return;
      }
      UpdateTask(taskId, Rename(newTitle), writeOk);
      var c := conns[sid];
      outbox := outbox + [Emit(ToRoom(Room(c.orgId, c.board)), "updateTasks", GetTasks(tasks, c))];
    }

    /** `deleteTask`: remove the row; the room is told regardless. */
    method DeleteTask(sid: SocketId, taskId: string, writeOk: bool)
      requires Valid() && sid in conns
      modifies this
      ensures Valid()
      ensures conns == old(conns) && connected == old(connected)
      ensures taskId == "" ==> tasks == old(tasks) && outbox == old(outbox)
      ensures taskId != "" ==>
        tasks == (if writeOk then DeleteById(old(tasks), taskId) else old(tasks)) &&
        outbox == old(outbox) + [Emit(ToRoom(RoomOf(conns[sid])), "updateTasks", GetTasks(tasks, conns[sid]))]
    {
      if taskId == "" {
        return;
      }
      if writeOk {
        DeleteKeepsDistinct(tasks, taskId);
        tasks := DeleteById(tasks, taskId);
      }
      var c := conns[sid];
      outbox := outbox + [Emit(ToRoom(Room(c.orgId, c.board)), "updateTasks", GetTasks(tasks, c))];
    }

    /** One run of the 7-second loop body at time `now`. */
    method Tick(now: int, gen: string -> GenReply, f: Faults)
      requires Valid()
      modifies this
      ensures Valid()
      ensures tasks == TickResult(old(tasks), now, gen, f)
      ensures outbox == old(outbox) + TickBroadcast(tasks, conns, connected)
      ensures conns == old(conns) && connected == old(connected)
    {
      if !f.progressQueryFails {
        var progressTasks := ProgressRows(tasks);
        if |progressTasks| > 0 {
          FinishLoop(progressTasks, now, gen, f.writeFails);
        } else if !f.todoQueryFails {
          var todo := FirstTodo(tasks);
          if todo.Some? {
            UpdateTask(tasks[todo.value].id, Move(PROGRESS, now), tasks[todo.value].id !in f.writeFails);
          }
        }
      }
      BroadcastAll();
    }

    /** `io.sockets.sockets.forEach`: each socket gets its own snapshot. */
    method BroadcastAll()
      requires Valid()
      modifies this`outbox
      ensures outbox == old(outbox) + TickBroadcast(tasks, conns, connected)
    {
      var j := 0;
      while j < |connected|
        invariant 0 <= j <= |connected|
        invariant outbox == old(outbox) + TickBroadcast(tasks, conns, connected)[..j]
      {
        var sid := connected[j];
        outbox := outbox + [Emit(ToSocket(sid), "updateTasks", GetTasks(tasks, conns[sid]))];
        j := j + 1;
      }
    }

    /** The `for (const task of progressTasks)` loop of the tick. */
    method FinishLoop(progressTasks: seq<Task>, now: int, gen: string -> GenReply, failed: set<string>)
      requires Valid() && progressTasks == ProgressRows(tasks) && progressTasks != []
      modifies this`tasks
      ensures Valid()
      ensures tasks == FinishAll(old(tasks), now, gen, failed)
    {
      ghost var t0 := tasks;
      ProgressRowsDistinct(t0);
      var k := 0;
      while k < |progressTasks|
        invariant 0 <= k <= |progressTasks|
        invariant Valid()
        invariant FinishedUpTo(t0, tasks, progressTasks, k, now, gen, failed)
      {
        var task := progressTasks[k];
        ghost var prev := tasks;
        var lastUpdate := LastTouch(task);
        if lastUpdate.Some? && now - lastUpdate.value > STALE_MS {
          var c := Shape(gen(task.title));
          UpdateTask(task.id, Complete(c.output, c.modelUsed), task.id !in failed);
        }
        FinishStep(t0, prev, tasks, progressTasks, k, now, gen, failed);
        k := k + 1;
      }
      forall i | 0 <= i < |t0| {
        ProgressRowListed(t0, progressTasks, i);
      }
      FinishedAll(t0, tasks, progressTasks, now, gen, failed);
      assert tasks == FinishAll(t0, now, gen, failed);
    }
  }

  predicate IdBefore(p: seq<Task>, k: int, id: string) {
    exists q :: 0 <= q < k && q < |p| && p[q].id == id
  }

  /** The loop invariant: the first `k` rows of the `progress` snapshot have
      been finished in place, every other row is as it was. */
  ghost predicate FinishedUpTo(t0: seq<Task>, tasks: seq<Task>, p: seq<Task>, k: int, now: int,
                               gen: string -> GenReply, failed: set<string>) {
    |tasks| == |t0| &&
    forall i :: 0 <= i < |t0| ==>
      tasks[i] == if IdBefore(p, k, t0[i].id) then Finish(t0[i], now, gen, failed) else t0[i]
  }

  lemma FinishStep(t0: seq<Task>, prev: seq<Task>, next: seq<Task>, p: seq<Task>, k: nat, now: int,
                   gen: string -> GenReply, failed: set<string>)
    requires DistinctIds(t0) && p == ProgressRows(t0) && DistinctIds(p) && k < |p|
    requires FinishedUpTo(t0, prev, p, k, now, gen, failed)
    requires next == if Stale(p[k], now) && p[k].id !in failed
      then UpdateById(prev, p[k].id, Complete(Shape(gen(p[k].title)).output, Shape(gen(p[k].title)).modelUsed))
      else prev
    ensures FinishedUpTo(t0, next, p, k + 1, now, gen, failed)
  {
    var task := p[k];
    assert task in t0;
    var m :| 0 <= m < |t0| && t0[m] == task;
    forall i | 0 <= i < |t0|
      ensures next[i] == if IdBefore(p, k + 1, t0[i].id) then Finish(t0[i], now, gen, failed) else t0[i]
    {
      if i == m {
        FinishStepAt(t0, prev, next, p, k, m, now, gen, failed);
      } else {
        FinishStepOther(t0, prev, next, p, k, i, now, gen, failed);
      }
    }
  }

  /** One more row of the snapshot is listed before `k + 1`. */
  lemma IdBeforeStep(p: seq<Task>, k: nat, id: string)
    requires k < |p|
    ensures IdBefore(p, k + 1, id) <==> IdBefore(p, k, id) || p[k].id == id
  {
    if IdBefore(p, k + 1, id) && p[k].id != id {
      var q :| 0 <= q < k + 1 && q < |p| && p[q].id == id;
      assert q < k;
    }
  }

  /** A row with another id than the one being finished is left alone. */
  lemma FinishStepOther(t0: seq<Task>, prev: seq<Task>, next: seq<Task>, p: seq<Task>, k: nat, i: nat, now: int,
                        gen: string -> GenReply, failed: set<string>)
    requires k < |p| && i < |t0| && t0[i].id != p[k].id
    requires FinishedUpTo(t0, prev, p, k, now, gen, failed)
    requires next == if Stale(p[k], now) && p[k].id !in failed
      then UpdateById(prev, p[k].id, Complete(Shape(gen(p[k].title)).output, Shape(gen(p[k].title)).modelUsed))
      else prev
    ensures next[i] == if IdBefore(p, k + 1, t0[i].id) then Finish(t0[i], now, gen, failed) else t0[i]
  {
    assert prev[i].id == t0[i].id by {
      if IdBefore(p, k, t0[i].id) {
        assert Finish(t0[i], now, gen, failed).id == t0[i].id;
      }
    }
    assert next[i] == prev[i];
    IdBeforeStep(p, k, t0[i].id);
  }

  lemma FinishStepAt(t0: seq<Task>, prev: seq<Task>, next: seq<Task>, p: seq<Task>, k: nat, m: nat, now: int,
                     gen: string -> GenReply, failed: set<string>)
    requires DistinctIds(p) && k < |p| && m < |t0| && t0[m] == p[k] && p[k].status == PROGRESS
    requires FinishedUpTo(t0, prev, p, k, now, gen, failed)
    requires next == if Stale(p[k], now) && p[k].id !in failed
      then UpdateById(prev, p[k].id, Complete(Shape(gen(p[k].title)).output, Shape(gen(p[k].title)).modelUsed))
      else prev
    ensures IdBefore(p, k + 1, t0[m].id)
    ensures next[m] == Finish(t0[m], now, gen, failed)
  {
    assert p[k].id == t0[m].id;
    assert prev[m] == t0[m];
  }

  lemma FinishedAll(t0: seq<Task>, tasks: seq<Task>, p: seq<Task>, now: int,
                    gen: string -> GenReply, failed: set<string>)
    requires forall i :: 0 <= i < |t0| && t0[i].status == PROGRESS ==> IdBefore(p, |p|, t0[i].id)
    requires FinishedUpTo(t0, tasks, p, |p|, now, gen, failed)
    ensures |tasks| == |t0|
    ensures forall i :: 0 <= i < |t0| ==> tasks[i] == Finish(t0[i], now, gen, failed)
  {
    forall i | 0 <= i < |t0|
      ensures tasks[i] == Finish(t0[i], now, gen, failed)
    {
      var b := IdBefore(p, |p|, t0[i].id);
      assert tasks[i] == if b then Finish(t0[i], now, gen, failed) else t0[i];
      FinishPick(tasks[i], t0[i], b, now, gen, failed);
    }
  }

  lemma ProgressRowListed(t0: seq<Task>, p: seq<Task>, i: nat)
    requires p == ProgressRows(t0) && i < |t0|
    ensures t0[i].status == PROGRESS ==> IdBefore(p, |p|, t0[i].id)
  {
    if t0[i].status == PROGRESS {
      assert t0[i] in p;
      var q :| 0 <= q < |p| && p[q] == t0[i];
    }
  }

  lemma FinishPick(now_t: Task, t: Task, b: bool, now: int, gen: string -> GenReply, failed: set<string>)
    requires now_t == if b then Finish(t, now, gen, failed) else t
    requires t.status == PROGRESS ==> b
    ensures now_t == Finish(t, now, gen, failed)
  {
  }

  lemma {:induction false} ProgressRowsDistinct(t0: seq<Task>)
    requires DistinctIds(t0)
    ensures DistinctIds(ProgressRows(t0))
  {
    if t0 != [] {
      ProgressRowsDistinct(t0[1..]);
      forall t | t in ProgressRows(t0[1..]) ensures t.id != t0[0].id {
        assert t in t0[1..];
      }
    }
  }
}

=== FILE: sidebar.dfy ===
/** The sidebar's links and which of them is highlighted for the current
    path. */
module Sidebar {
  import opened Common

  /** The highlighted link targets, in display order: the four main links,
      then profile and settings at the bottom. */
  const LINKS: seq<string> := ["/organisations", "/kanban", "/dashboard", "/timeline", "/profile", "/settings"]

  /** `isActive(path)`: the path itself or a path below it, one whole
      segment at a time. */
  predicate IsActive(pathname: string, path: string): (r: bool)
    ensures r ==> |path| <= |pathname| && pathname[..|path|] == path
  {
    pathname == path || StartsWith(pathname, path + "/")
  }

  /** The link's own path and any path below it are active. */
  lemma ActiveAtAndBelow(path: string, rest: string)
    ensures IsActive(path, path)
    ensures IsActive(path + "/" + rest, path)
  {
    assert (path + "/" + rest)[..|path + "/"|] == path + "/";
  }

  /** Active means the link's path is a prefix ending at the end of the
      pathname or at a `/`; in particular a longer segment that merely
      begins with the link's path (`/kanbanx` for `/kanban`) is not. */
  lemma ActiveIsSegmentPrefix(pathname: string, path: string)
    ensures IsActive(pathname, path) <==>
      StartsWith(pathname, path) && (|pathname| == |path| || pathname[|path|] == '/')
  {
    if StartsWith(pathname, path) && |pathname| > |path| && pathname[|path|] == '/' {
      assert pathname[..|path| + 1] == path + "/";
    }
    if StartsWith(pathname, path) && |pathname| == |path| {
      assert pathname == pathname[..|path|];
    }
    if StartsWith(pathname, path + "/") {
      assert pathname[..|path|] == (path + "/")[..|path|];
    }
  }

  lemma NotSegment()
    ensures !IsActive("/kanbanx", "/kanban")
    ensures !IsActive("/kanbanx/board", "/kanban")
  {
    ActiveIsSegmentPrefix("/kanbanx", "/kanban");
    ActiveIsSegmentPrefix("/kanbanx/board", "/kanban");
  }

  /** A pathname shorter than the link's path never activates it. */
  lemma ShorterNeverActive(pathname: string, path: string)
    requires |pathname| < |path|
    ensures !IsActive(pathname, path)
  {
  }

  /** An active link of two or more characters fixes the pathname's second
      character. */
  lemma ActiveSecondChar(pathname: string, path: string)
    requires |path| >= 2
    ensures IsActive(pathname, path) ==> |pathname| >= 2 && pathname[1] == path[1]
  {
    if IsActive(pathname, path) {
      assert pathname[..|path|][1] == pathname[1];
    }
  }

  /** No path highlights two different sidebar links. */
  lemma AtMostOneActive(pathname: string, i: nat, j: nat)
    requires i < |LINKS| && j < |LINKS| && i != j
    ensures !(IsActive(pathname, LINKS[i]) && IsActive(pathname, LINKS[j]))
  {
    var a := LINKS[i];
    var b := LINKS[j];
    // The links differ at their second character.
    assert |a| >= 2 && |b| >= 2 && a[1] != b[1];
    ActiveSecondChar(pathname, a);
    ActiveSecondChar(pathname, b);
  }
}

=== FILE: tasks.dfy ===
/** The `tasks` row shared by the server and the browser views. */
module Tasks {
  import opened Common

  const TODO := "todo"
  const PROGRESS := "progress"
  const DONE := "done"

  /** A timestamp column as JavaScript's `Date` reads it: a number of
      milliseconds, or text that does not parse (`getTime()` is NaN). */
  datatype Stamp = At(ms: int) | Unparseable

  /** One row of the `tasks` table. Text columns that may be NULL are
      strings, the empty string standing for NULL: the uses modelled here
      go through JavaScript truthiness, under which the two coincide.
      Start and end dates are calendar day numbers. */
  datatype Task = Task(
    id: string,
    title: string,
    status: string,
    orgId: string,
    userId: string,
    isMainBoard: bool,
    assignedTo: string,
    description: string,
    kind: string,
    priority: string,
    startDate: Option<int>,
    endDate: Option<int>,
    createdAt: Option<Stamp>,
    updatedAt: Option<Stamp>,
    aiOutput: string,
    aiAgent: string,
    aiStatus: string)

  /** `new Date(t.updated_at || t.created_at).getTime()`: the update time
      when there is one, else the creation time; `new Date(null)` is the
      epoch, and `None` stands for NaN. */
  function LastTouch(t: Task): (r: Option<int>)
    ensures t.updatedAt == Some(Unparseable) ==> r == None
    ensures t.updatedAt == None && t.createdAt == None ==> r == Some(0)
    ensures r.Some? && t.updatedAt.Some? ==> t.updatedAt == Some(At(r.value))
    ensures t.updatedAt.Some? && t.updatedAt.value.At? ==> r == Some(t.updatedAt.value.ms)
    ensures t.updatedAt.None? && t.createdAt.Some? ==>
      r == (if t.createdAt.value.At? then Some(t.createdAt.value.ms) else None)
  {
    var s := if t.updatedAt.Some? then t.updatedAt else t.createdAt;
    match s
    case None => Some(0)
    case Some(At(ms)) => Some(ms)
    case Some(Unparseable) => None
  }

  /** Row ids are the table's primary key. */
  predicate DistinctIds(tasks: seq<Task>) {
    forall i, j :: 0 <= i < j < |tasks| ==> tasks[i].id != tasks[j].id
  }
}

=== FILE: timeline.dfy ===
/** The timeline page: the visible day range around a month, the status
    and assignee filters, which tasks get a bar and where it is drawn, and
    the member list that names assignees. Dates are calendar day numbers. */
module Timeline {
  import opened Common
  import opened Tasks
  import opened Order

  const DAY_WIDTH := 46
  const HEADER_H := 64
  const ROW_H := 52
  const ROW_GAP := 10
  const GRID_FOOTER := 60
  const MIN_GRID_HEIGHT := 520
  /** Days shown before the first and after the last day of the month. */
  const MARGIN_DAYS := 7
  /** The day loop stops once it has pushed more than 90 days. */
  const MAX_DAYS := 91
  const ALL := "all"
  const UNASSIGNED_FILTER := "unassigned"
  const UNASSIGNED := "Unassigned"
  const UNKNOWN_USER := "Unknown user"

  /** `clamp(d, min, max)`. */
  function Clamp(d: int, lo: int, hi: int): (r: int)
    ensures lo <= hi ==> lo <= r <= hi
    ensures lo <= d <= hi ==> r == d
    ensures d < lo ==> r == lo
    ensures lo <= d && hi < d ==> r == hi
  {
    if d < lo then lo else if d > hi then hi else d
  }

  lemma ClampMonotone(a: int, b: int, lo: int, hi: int)
    ensures a <= b && lo <= hi ==> Clamp(a, lo, hi) <= Clamp(b, lo, hi)
  {
  }

  /** A task's date span. */
  datatype Span = Span(start: int, end: int)

  /** `getRange(task)`: both dates, or the one that is set as both ends. */
  function GetRange(t: Task): (r: Option<Span>)
    ensures r.None? <==> t.startDate.None? && t.endDate.None?
    ensures r.Some? && t.startDate.Some? ==> r.value.start == t.startDate.value
    ensures r.Some? && t.endDate.Some? ==> r.value.end == t.endDate.value
    ensures r.Some? && t.startDate.None? ==> r.value.start == r.value.end
    ensures r.Some? && t.endDate.None? ==> r.value.start == r.value.end
  {
    match (t.startDate, t.endDate)
    case (Some(s), Some(e)) => Some(Span(s, e))
    case (Some(s), None) => Some(Span(s, s))
    case (None, Some(e)) => Some(Span(e, e))
    case (None, None) => None
  }

  /** The number of days the range loop produces. */
  function DayCount(start: int, end: int): (n: nat)
    ensures n <= MAX_DAYS
  {
    if end < start then 0 else if end - start + 1 > MAX_DAYS then MAX_DAYS else end - start + 1
  }

  /** The day list: consecutive days from `start` while the day is not
      after `end`, stopping after the 91st. For a month of `len` days
      (`start` = its first day − 7, `end` = its last day + 7) that is
      `len + 14` days. */
  method BuildDays(start: int, end: int) returns (days: seq<int>)
    ensures |days| == DayCount(start, end)
    ensures forall i :: 0 <= i < |days| ==> days[i] == start + i
  {
    days := [];
    var d := start;
    while d <= end
      invariant d == start + |days| && |days| < MAX_DAYS
      invariant start <= end + 1 ==> |days| <= end - start + 1
      invariant start > end ==> days == []
      invariant forall i :: 0 <= i < |days| ==> days[i] == start + i
      decreases end - d
    {
      days := days + [d];
      d := d + 1;
      if |days| > 90 {
        break;
      }
    }
  }

  /** The visible range around a month starting on day `monthStart` and
      lasting `monthLen` days. */
  function MonthRange(monthStart: int, monthLen: int): (r: Span)
    ensures r.start == monthStart - MARGIN_DAYS && r.end == monthStart + monthLen - 1 + MARGIN_DAYS
  {
    Span(monthStart - MARGIN_DAYS, monthStart + monthLen - 1 + MARGIN_DAYS)
  }

  /** Every month fits: a month of up to 31 days yields all of its days
      plus both margins, the month's first day at position 7. */
  lemma MonthFits(monthStart: int, monthLen: int)
    requires 28 <= monthLen <= 31
    ensures var r := MonthRange(monthStart, monthLen);
      DayCount(r.start, r.end) == monthLen + 2 * MARGIN_DAYS &&
      r.start + MARGIN_DAYS == monthStart
  {
  }

  // ---------------------------------------------------------------------
  // Filters and bars

  /** `t.status || "todo"`. */
  function StatusOf(t: Task): string {
    Or(t.status, TODO)
  }

  /** The filter test of `filteredTasks`. */
  predicate Keeps(t: Task, statusFilter: string, orgMode: bool, assignee: string): (r: bool)
    ensures statusFilter == ALL && (!orgMode || assignee == ALL) ==> r
    ensures r && statusFilter != ALL ==> StatusOf(t) == statusFilter
    ensures r && orgMode && assignee == UNASSIGNED_FILTER ==> t.assignedTo == ""
    ensures r && orgMode && assignee != ALL && assignee != UNASSIGNED_FILTER ==> t.assignedTo == assignee
  {
    (statusFilter == ALL || StatusOf(t) == statusFilter) &&
    (!orgMode || assignee == ALL ||
     (if assignee == UNASSIGNED_FILTER then t.assignedTo == "" else t.assignedTo == assignee))
  }

  function FilterTasks(tasks: seq<Task>, statusFilter: string, orgMode: bool, assignee: string): (r: seq<Task>)
    ensures |r| <= |tasks|
    ensures forall t :: t in r <==> t in tasks && Keeps(t, statusFilter, orgMode, assignee)
  {
    if tasks == [] then []
    else (if Keeps(tasks[0], statusFilter, orgMode, assignee) then [tasks[0]] else [])
         + FilterTasks(tasks[1..], statusFilter, orgMode, assignee)
  }

  /** The filter keeps the input order: filtering two lists joined is
      filtering each and joining the results. */
  lemma {:induction false} FilterTasksAppend(a: seq<Task>, b: seq<Task>, statusFilter: string, orgMode: bool, assignee: string)
    ensures FilterTasks(a + b, statusFilter, orgMode, assignee) ==
            FilterTasks(a, statusFilter, orgMode, assignee) + FilterTasks(b, statusFilter, orgMode, assignee)
  {
    if a == [] {
      assert a + b == b;
    } else {
      assert (a + b)[0] == a[0] && (a + b)[1..] == a[1..] + b;
      FilterTasksAppend(a[1..], b, statusFilter, orgMode, assignee);
    }
  }

  /** With both filters at "all" every task is kept, in order. */
  lemma {:induction false} FilterAllKeepsAll(tasks: seq<Task>, orgMode: bool)
    ensures FilterTasks(tasks, ALL, orgMode, ALL) == tasks
  {
    if tasks != [] {
      FilterAllKeepsAll(tasks[1..], orgMode);
      assert tasks == [tasks[0]] + tasks[1..];
    }
  }

  /** Outside a workspace the assignee filter has no effect. */
  lemma {:induction false} AssigneeIgnoredOutsideOrg(tasks: seq<Task>, statusFilter: string, assignee: string)
    ensures FilterTasks(tasks, statusFilter, false, assignee) == FilterTasks(tasks, statusFilter, false, ALL)
  {
    if tasks != [] {
      AssigneeIgnoredOutsideOrg(tasks[1..], statusFilter, assignee);
    }
  }

  /** A task without a status is listed under the "todo" filter. */
  lemma MissingStatusIsTodo(t: Task, orgMode: bool)
    requires t.status == ""
    ensures Keeps(t, TODO, orgMode, ALL)
  {
  }

  /** A bar: a task, its span, shown in the range. */
  datatype Item = Item(task: Task, start: int, end: int)

  /** Day `d` lies in `[lo, hi]`. */
  predicate Within(d: int, lo: int, hi: int) {
    lo <= d <= hi
  }

  /** The span is not entirely before or entirely after the range: for a
      well-formed span and range, they share a day. */
  predicate Overlaps(sp: Span, rs: int, re: int): (r: bool)
    ensures sp.start <= sp.end && rs <= re ==> (r <==> exists d :: Within(d, sp.start, sp.end) && Within(d, rs, re))
  {
    // The later of the two starts is a day both contain.
    var d := if sp.start < rs then rs else sp.start;
    if !(sp.end < rs || sp.start > re) && sp.start <= sp.end && rs <= re then
      assert Within(d, sp.start, sp.end) && Within(d, rs, re);
      true
    else !(sp.end < rs || sp.start > re)
  }

  /** `items`: the filtered tasks that have a span overlapping the range. */
  function Items(tasks: seq<Task>, rs: int, re: int): (r: seq<Item>)
    ensures |r| <= |tasks|
    ensures forall it :: it in r ==>
      it.task in tasks && GetRange(it.task) == Some(Span(it.start, it.end)) && Overlaps(Span(it.start, it.end), rs, re)
    ensures forall t :: t in tasks && GetRange(t).Some? && Overlaps(GetRange(t).value, rs, re) ==>
      Item(t, GetRange(t).value.start, GetRange(t).value.end) in r
  {
    if tasks == [] then []
    else
      var t := tasks[0];
      var rest := Items(tasks[1..], rs, re);
      var g := GetRange(t);
      if g.Some? && Overlaps(g.value, rs, re) then [Item(t, g.value.start, g.value.end)] + rest else rest
  }

  datatype Bar = Bar(left: int, width: int)

  /** `getBarStyle(start, end)`: both ends clamped into the range. */
  function BarStyle(start: int, end: int, rs: int, re: int): (b: Bar)
    ensures rs <= re ==> 0 <= b.left <= (re - rs) * DAY_WIDTH
    ensures rs <= start <= end <= re ==> b == Bar((start - rs) * DAY_WIDTH, (end - start + 1) * DAY_WIDTH)
    ensures rs <= re && start <= end ==>
      DAY_WIDTH <= b.width && b.left + b.width <= (re - rs + 1) * DAY_WIDTH
  {
    var s := Clamp(start, rs, re);
    var e := Clamp(end, rs, re);
    ClampMonotone(start, end, rs, re);
    Bar((s - rs) * DAY_WIDTH, (e - s + 1) * DAY_WIDTH)
  }

  /** `gridHeight`: room for every bar row, never below 520. */
  function GridHeight(rows: nat): (h: int)
    ensures h >= MIN_GRID_HEIGHT
    ensures h >= HEADER_H + rows * (ROW_H + ROW_GAP) + GRID_FOOTER
    ensures h == MIN_GRID_HEIGHT || h == HEADER_H + rows * (ROW_H + ROW_GAP) + GRID_FOOTER
  {
    var need := HEADER_H + rows * (ROW_H + ROW_GAP) + GRID_FOOTER;
    if need > MIN_GRID_HEIGHT then need else MIN_GRID_HEIGHT
  }

  // ---------------------------------------------------------------------
  // Members and names

  datatype MemberRow = MemberRow(userId: string, ownerId: string)
  datatype ProfileRow = ProfileRow(id: string, username: string)
  datatype MemberName = MemberName(id: string, username: string)

  predicate Distinct(s: seq<string>) {
    forall i, j :: 0 <= i < j < |s| ==> s[i] != s[j]
  }

  /** `Set.add` of a truthy id. */
  function AddId(acc: seq<string>, id: string): (r: seq<string>)
    ensures Distinct(acc) && "" !in acc ==> Distinct(r) && "" !in r
    ensures forall x :: x in r <==> x in acc || (x == id && id != "")
  {
    if id == "" || id in acc then acc else acc + [id]
  }

  /** The distinct non-empty user and owner ids of the rows, in order of
      first appearance. */
  function MemberIds(rows: seq<MemberRow>): (r: seq<string>)
    ensures Distinct(r) && "" !in r
  {
    if rows == [] then []
    else
      var init := rows[..|rows| - 1];
      var last := rows[|rows| - 1];
      AddId(AddId(MemberIds(init), last.userId), last.ownerId)
  }

  /** The list holds exactly the ids that occur in some row. */
  lemma {:induction false} MemberIdsCover(rows: seq<MemberRow>, id: string)
    ensures id in MemberIds(rows) <==> id != "" && exists row :: row in rows && (row.userId == id || row.ownerId == id)
  {
    if rows != [] {
      var init := rows[..|rows| - 1];
      var last := rows[|rows| - 1];
      assert rows == init + [last];
      MemberIdsCover(init, id);
    }
  }

  /** The names the profile rows give the listed ids: the last row for an
      id wins, a blank username reads as "Unknown user". */
  function ProfileNames(profiles: seq<ProfileRow>, ids: seq<string>): (m: map<string, string>)
    ensures forall id :: id in m ==> id in ids && m[id] != ""
  {
    if profiles == [] then map[]
    else
      var p := profiles[|profiles| - 1];
      var m := ProfileNames(profiles[..|profiles| - 1], ids);
      if p.id in ids then m[p.id := Or(p.username, UNKNOWN_USER)] else m
  }

  /** Only ids with a profile row are named. */
  lemma {:induction false} ProfileNamesKeys(profiles: seq<ProfileRow>, ids: seq<string>, id: string)
    requires id in ProfileNames(profiles, ids)
    ensures exists p :: p in profiles && p.id == id
  {
    var n := |profiles| - 1;
    if profiles[n].id != id {
      ProfileNamesKeys(profiles[..n], ids, id);
      var q :| q in profiles[..n] && q.id == id;
      assert q in profiles;
    } else {
      assert profiles[n] in profiles;
    }
  }

  /** An id's name comes from its last profile row: that row's username,
      or "Unknown user" when it is blank. */
  lemma {:induction false} ProfileNamesLast(profiles: seq<ProfileRow>, ids: seq<string>, k: nat)
    requires k < |profiles| && profiles[k].id in ids
    requires forall j :: k < j < |profiles| ==> profiles[j].id != profiles[k].id
    ensures profiles[k].id in ProfileNames(profiles, ids)
    ensures ProfileNames(profiles, ids)[profiles[k].id] == Or(profiles[k].username, UNKNOWN_USER)
  {
    var n := |profiles| - 1;
    if k < n {
      var init := profiles[..n];
      assert profiles[n].id != profiles[k].id;
      assert init[k] == profiles[k];
      forall j | k < j < |init|
        ensures init[j].id != init[k].id
      {
        assert init[j] == profiles[j];
      }
      ProfileNamesLast(init, ids, k);
    }
  }

  /** Every id named, "Unknown user" where no profile row gave a name. */
  function NameMap(profiles: seq<ProfileRow>, ids: seq<string>): (m: map<string, string>)
    ensures forall id :: id in m <==> id in ids
    ensures forall id :: id in m ==> m[id] != ""
    ensures forall id :: id in ids && id !in ProfileNames(profiles, ids) ==> m[id] == UNKNOWN_USER
    ensures forall id :: id in ProfileNames(profiles, ids) ==> m[id] == ProfileNames(profiles, ids)[id]
  {
    var pn := ProfileNames(profiles, ids);
    map id | id in ids :: if id in pn then pn[id] else UNKNOWN_USER
  }

  /** `ids.map(id => ({ id, username: names[id] }))`. */
  function Entries(ids: seq<string>, names: map<string, string>): (r: seq<MemberName>)
    requires forall id :: id in ids ==> id in names
    ensures |r| == |ids|
    ensures forall i :: 0 <= i < |ids| ==> r[i] == MemberName(ids[i], names[ids[i]])
  {
    if ids == [] then [] else [MemberName(ids[0], names[ids[0]])] + Entries(ids[1..], names)
  }

  function NameKey(m: MemberName): Key {
    Key(0, m.username)
  }

  predicate HasMember(list: seq<MemberName>, id: string) {
    exists m :: m in list && m.id == id
  }

  /** The assignee filter after the member list is reloaded. */
  function KeptFilter(prev: string, list: seq<MemberName>): (r: string)
    ensures r == prev || r == ALL
    ensures r == ALL || r == UNASSIGNED_FILTER || HasMember(list, r)
  {
    if prev == ALL || prev == UNASSIGNED_FILTER then prev
    else if HasMember(list, prev) then prev
    else ALL
  }

  /** `assignedToName(uuid)`. */
  function AssignedToName(uuid: string, names: map<string, string>): (r: string)
    ensures r != ""
    ensures uuid == "" ==> r == UNASSIGNED
    ensures uuid != "" && uuid in names && names[uuid] != "" ==> r == names[uuid]
    ensures uuid != "" && uuid !in names ==> r == UNKNOWN_USER
  {
    if uuid == "" then UNASSIGNED
    else if uuid in names && names[uuid] != "" then names[uuid]
    else UNKNOWN_USER
  }

  /** The `flatMap` / `filter(Boolean)` / `Set` pass over the rows. */
  method CollectIds(memRows: seq<MemberRow>) returns (ids: seq<string>)
    ensures ids == MemberIds(memRows)
  {
    ids := [];
    for i := 0 to |memRows|
      invariant ids == MemberIds(memRows[..i])
    {
      assert memRows[..i + 1][..i] == memRows[..i];
      ids := AddId(AddId(ids, memRows[i].userId), memRows[i].ownerId);
    }
    assert memRows[..|memRows|] == memRows;
  }

  /** The two `forEach` passes: names from the profile rows read for the
      listed ids, then "Unknown user" for every id still unnamed. */
  method CollectNames(profiles: seq<ProfileRow>, ids: seq<string>) returns (names: map<string, string>)
    ensures names == NameMap(profiles, ids)
  {
    names := map[];
    for k := 0 to |profiles|
      invariant names == ProfileNames(profiles[..k], ids)
    {
      assert profiles[..k + 1][..k] == profiles[..k];
      var p := profiles[k];
      if p.id in ids {
        names := names[p.id := Or(p.username, UNKNOWN_USER)];
      }
    }
    assert profiles[..|profiles|] == profiles;
    var pn := names;
    names := FillUnknown(pn, ids);
    var want := NameMap(profiles, ids);
    assert names.Keys == want.Keys;
    assert forall id :: id in names ==> names[id] == want[id];
  }

  /** `if (!map[id]) map[id] = "Unknown user"` for every listed id. */
  method FillUnknown(pn: map<string, string>, ids: seq<string>) returns (names: map<string, string>)
    ensures forall id :: id in names <==> id in pn || id in ids
    ensures forall id :: id in names ==> names[id] == (if id in pn then pn[id] else UNKNOWN_USER)
  {
    names := pn;
    for i := 0 to |ids|
      invariant forall id :: id in names <==> id in pn || id in ids[..i]
      invariant forall id :: id in names ==> names[id] == (if id in pn then pn[id] else UNKNOWN_USER)
    {
      assert ids[..i + 1] == ids[..i] + [ids[i]];
      if ids[i] !in names {
        names := names[ids[i] := UNKNOWN_USER];
      }
    }
    assert ids[..|ids|] == ids;
  }

  class MemberPanel {
    var members: seq<MemberName>
    var userNameMap: map<string, string>
    var assigneeFilter: string

    constructor ()
      ensures members == [] && userNameMap == map[] && assigneeFilter == ALL
    {
      members := [];
      userNameMap := map[];
      assigneeFilter := ALL;
    }

    /** The member-loading effect. `inOrg` is "signed in with an active
        workspace"; `memRows` / `memErr` and `profiles` / `profErr` are the
        two reads (`profiles` holds the whole table; the read keeps the
        listed ids). */
    method FetchMembers(inOrg: bool, memRows: seq<MemberRow>, memErr: bool, profiles: seq<ProfileRow>, profErr: bool)
      modifies this
      ensures !inOrg ==> members == [] && userNameMap == map[] && assigneeFilter == ALL
      ensures inOrg && (memErr || MemberIds(memRows) == []) ==>
        members == [] && userNameMap == map[] && assigneeFilter == old(assigneeFilter)
      ensures inOrg && !memErr && MemberIds(memRows) != [] && profErr ==>
        var ids := MemberIds(memRows);
        userNameMap == (map id | id in ids :: UNKNOWN_USER) &&
        members == Entries(ids, userNameMap) && assigneeFilter == old(assigneeFilter)
      ensures inOrg && !memErr && MemberIds(memRows) != [] && !profErr ==>
        var ids := MemberIds(memRows);
        userNameMap == NameMap(profiles, ids) &&
        members == SortBy(Entries(ids, userNameMap), NameKey) &&
        assigneeFilter == KeptFilter(old(assigneeFilter), members)
    {
      if !inOrg {
        members := [];
        assigneeFilter := ALL;
        userNameMap := map[];
        return;
      }
      if memErr {
        members := [];
        userNameMap := map[];
        return;
      }
      var ids := CollectIds(memRows);
      if ids == [] {
        members := [];
        userNameMap := map[];
        return;
      }
      if profErr {
        userNameMap := map id | id in ids :: UNKNOWN_USER;
        members := Entries(ids, userNameMap);
        return;
      }
      var names := CollectNames(profiles, ids);
      userNameMap := names;
      members := SortBy(Entries(ids, names), NameKey);
      assigneeFilter := KeptFilter(assigneeFilter, members);
    }
  }

  /** After a successful load the member list is sorted by name, lists
      every member id exactly once, and the assignee filter still names
      "all", "unassigned" or a listed member. */
  lemma LoadedMembers(memRows: seq<MemberRow>, profiles: seq<ProfileRow>, prev: string)
    requires MemberIds(memRows) != []
    ensures var ids := MemberIds(memRows);
      var names := NameMap(profiles, ids);
      var list := SortBy(Entries(ids, names), NameKey);
      SortedBy(list, NameKey) &&
      multiset(Ids(list)) == multiset(ids) &&
      (forall m :: m in list ==> m.username != "") &&
      var f := KeptFilter(prev, list);
      f == ALL || f == UNASSIGNED_FILTER || HasMember(list, f)
  {
    var ids := MemberIds(memRows);
    var names := NameMap(profiles, ids);
    var entries := Entries(ids, names);
    var list := SortBy(entries, NameKey);
    IdsOfEntries(ids, names);
    SortIds(entries);
    forall m | m in list ensures m.username != "" {
      assert m in multiset(entries);
    }
  }

  function Ids(list: seq<MemberName>): (r: seq<string>)
    ensures |r| == |list|
    ensures forall i :: 0 <= i < |list| ==> r[i] == list[i].id
  {
    if list == [] then [] else [list[0].id] + Ids(list[1..])
  }

  lemma IdsOfEntries(ids: seq<string>, names: map<string, string>)
    requires forall id :: id in ids ==> id in names
    ensures Ids(Entries(ids, names)) == ids
  {
  }

  /** Inserting an entry adds its id to the ids. */
  lemma {:induction false} InsertIds(x: MemberName, s: seq<MemberName>)
    ensures multiset(Ids(Insert(x, s, NameKey))) == multiset(Ids(s)) + multiset{x.id}
  {
    if s != [] && !KeyLe(NameKey(x), NameKey(s[0])) {
      InsertIds(x, s[1..]);
      var r := Insert(x, s, NameKey);
      assert r[1..] == Insert(x, s[1..], NameKey);
      assert Ids(r) == [s[0].id] + Ids(r[1..]);
      assert Ids(s) == [s[0].id] + Ids(s[1..]);
    } else if s != [] {
      var r := Insert(x, s, NameKey);
      assert r[1..] == s;
    }
  }

  /** Sorting the entries reorders their ids. */
  lemma {:induction false} SortIds(s: seq<MemberName>)
    ensures multiset(Ids(SortBy(s, NameKey))) == multiset(Ids(s))
  {
    if s != [] {
      SortIds(s[1..]);
      InsertIds(s[0], SortBy(s[1..], NameKey));
      assert Ids(s) == [s[0].id] + Ids(s[1..]);
    }
  }
}
